=== FILE: README.md ===
# Modular synth: cable manager, presets, keyboards, MIDI and buffers

A model, in Dafny, of the logic behind a browser modular synthesizer. The
model covers every part of that logic that is not rendering or audio-signal
code:

- **Patch-cable manager.** Users draw cables between module jacks. A click on
  a jack offers one side of a cable: an `input` (the signal source, such as
  an oscillator's "Out" jack) or an `output` (the destination).
  - The first click leaves a dangling half.
  - A click offering the other role completes the cable and connects the
    two audio nodes.
  - Same-role clicks and duplicate pairs are rejected.
  - Keyboard shortcuts select and delete cables and cancel a dangling half.
  - Both revisions of the manager are modelled: the hook-based one in
    `connector.dfy` and the class-based one in `legacy_connector.dfy`. Audio
    nodes are abstract identities, and the audio graph is a set of edges
    (`AudioGraph`).
- **Jacks.** Each jack keeps a reference count of its cable ends, floored at
  zero; a jack is drawn plugged while the count is positive (`JackPlug`).
  `Patch` puts the cable manager and the jacks together and follows the
  counters over whole sessions of gestures.
- **Preset registry.** A tree of scopes. Each scope qualifies names with its
  id (`id.name`), only the root stores registrations, and a one-shot replay
  re-creates the declared cables and parameter values (`Preset`).
- **Sliders.** A typed-in value is committed clamped to the slider's bounds.
  A ctrl- or meta-click resets the slider to its default. The slider
  registers its setter in its preset scope (`Slider`).
- **Keyboards.**
  - The computer-keyboard layouts (`Keymap`).
  - Held-note bookkeeping with the newest-note fallback (`Pressed`,
    `Keyboard`, `LegacyKeyboard`).
  - Mono, poly and chord voice allocation over a list of oscillators
    (`Voices`).
  - Semitone to note-name arithmetic with JavaScript's truncating `%`
    (`Semitone`).
- **MIDI.**
  - A stateful byte decoder for the status bytes of Table I ("Summary of
    Status Bytes") of the MIDI 1.0 Detailed Specification, including SysEx
    sent in chunks (`MidiParser`).
  - The input-selection rule (`MidiSelection`).
- **`GateNode`.** A gate value that propagates to a duplicate-free list of
  connected gates (`GateNode`).
- **Pitch buffer.** The sliding analysis buffer of the pitch-detection
  worklet. It is the one imperative part: array loops with invariants
  (`PitchBuffer`).

## How the model is built

- **State updates.** React state updaters and effects are pure functions
  from the old state to the new one. Callbacks that the source invokes are
  returned as data, in call order: a `seq` of callbacks and a `seq` of graph
  operations.
- **Inputs from outside.** These become parameters: timestamps (`now`), the
  result of `parseFloat`/`Number()` on text (`parsedText`, `textNumber`),
  the pitch detector (`detect`) and the audio context's current time.
- **JavaScript numbers.** In the sliders they are `Num`: NaN, the two
  infinities, or a finite real.
- **Held keys.** A JavaScript object used as a map is a list of entries in
  `Object.keys` order. Names that are array indices (0 to 2^32 - 2) come
  first, ascending; other names follow in insertion order. The hook-based
  keyboard names entries by semitone, so a new non-negative semitone is
  placed by value (`Pressed.HoldSemitone`). The class-based keyboard names
  them by letter, so insertion order holds there (`Pressed.Hold`).
- **Both revisions of a handler.** Where the class-based code does the same
  job as the hook-based code, it is written independently, with `slice`,
  `forEach` and `undefined` modelled as they behave (`Voices.Slice`,
  `Voices.At`). Agreement lemmas connect the two (`Voices.LegacyAgrees`).
- **Where the code and its description differ, the model follows the code.**
  - Preset connection replay runs on the first render after any
    registration. It does not wait until every named jack has registered.
    A pair with a missing name is skipped for good (`Preset.AfterRender`,
    `Preset.MissingNameSkipsPair`).
  - In the hook-based manager, the `c` key tests whether every *committed*
    cable is complete. That is always true, so `c` turns editing on even
    while a half dangles (`ConnectorProperties.EditKeyIgnoresDangling`).
  - In the hook-based manager, every accepted click queues its own
    `onConnect`, including the click that only opens a half. Escape then
    drops the half without calling its `onDisconnect`, so the jack stays
    drawn plugged (`Patch.EscapeLeaksCount`).

## Model

| member | source | states |
|---|---|---|
| AudioGraph.Apply | src/components/Synth/Utils/Connector/index.tsx:110-117 | performing graph calls only adds edges that some `connect` call names |
| Wiring.NewSide | src/components/Synth/Utils/Connector/index.tsx:102-104 | a click offers exactly one side, its `input` when it has one, carrying the click's node, callbacks and position |
| Wiring.Merge | src/components/Synth/Utils/Connector/index.tsx:121 | object spread: each side present in the newer half wins, the other side is kept |
| Wiring.DuplicateMeansSamePair | src/components/Synth/Utils/Connector/index.tsx:84-99 | the duplicate test holds exactly when a committed cable joins the same (source, destination) pair as the cable the click would commit |
| Wiring.RemoveAt | src/components/Synth/Utils/Connector/index.tsx:225 | removing entry k keeps every other entry, in order |
| Connector.Empty | src/components/Synth/Utils/Connector/index.tsx:49-56 | the initial manager has no dangling half, no cables and no queued callbacks, and satisfies the shape invariant |
| Connector.ConnectUpdate | src/components/Synth/Utils/Connector/index.tsx:66-133 | a rejected click changes nothing and makes no graph call. A click is accepted iff no half dangles, or it offers the other role and the pair is new. An accepted click queues its `onConnect`. A first click only sets the dangling half. A completing click appends the merged cable, clears the half and connects the cable's source to its destination |
| Connector.Request | src/components/Synth/Utils/Connector/index.tsx:66-108 | an accepted click also clears the cable selection; a rejected one keeps it |
| Connector.Flush | src/components/Synth/Utils/Connector/index.tsx:135-143 | every queued callback runs once, in queue order, and the queue is emptied |
| Connector.SelectCable | src/components/Synth/Utils/Connector/index.tsx:284 | clicking a drawn cable selects it and leaves the cables alone |
| Connector.OnKeyDown | src/components/Synth/Utils/Connector/index.tsx:145-176 | Escape drops the dangling half and clears editing and selection, keeping the cables. Backspace or Clear schedules deletion of the selected cable and clears the selection. `c` sets editing to whether every committed cable is complete. Other keys change nothing |
| Connector.DeleteEffect | src/components/Synth/Utils/Connector/index.tsx:205-228 | the scheduled cable alone is removed, its two `onDisconnect` callbacks run and its edge is disconnected. The dangling half, queue, editing and selection are kept. With nothing scheduled, nothing happens |
| ConnectorProperties.WiredAppend | src/components/Synth/Utils/Connector/index.tsx:110-123 | committing a cable adds exactly its pair to the edges the cables account for |
| ConnectorProperties.WiredRemove | src/components/Synth/Utils/Connector/index.tsx:205-227 | with no pair committed twice, removing a cable takes exactly its pair out of those edges |
| ConnectorProperties.ClickKeepsConsistent | src/components/Synth/Utils/Connector/index.tsx:66-133 | a jack click keeps every cable complete, at most one half dangling, no pair committed twice, and the audio graph equal to the cables' edges |
| ConnectorProperties.DeleteKeepsConsistent | src/components/Synth/Utils/Connector/index.tsx:205-228 | the delete effect keeps the same invariant: the graph loses exactly the deleted cable's edge |
| ConnectorProperties.HandleKeepsConsistent | src/components/Synth/Utils/Connector/index.tsx:66-228 | every event (click, flush, key, cable selection, delete effect) keeps the invariant |
| ConnectorProperties.SessionStaysConsistent | src/components/Synth/Utils/Connector/index.tsx:66-228 | over any session of events, up to the first one the component cannot receive or would throw on (`Enabled`), the invariant holds throughout |
| ConnectorProperties.EditKeyIgnoresDangling | src/components/Synth/Utils/Connector/index.tsx:147-150 | `c` turns editing on even while a half dangles |
| ConnectorProperties.BackspaceDeletesSelected | src/components/Synth/Utils/Connector/index.tsx:157-165 | Backspace on a selected cable, followed by the delete effect, runs both of its `onDisconnect` once and removes exactly that cable. The dangling half and the queue are kept |
| JackPlug.RunCallback | src/components/Synth/Utils/JackPlug/index.tsx:36-37 | `onConnect` adds one to its jack's count. `onDisconnect` subtracts one, never going below zero. Other jacks are untouched |
| JackPlug.RunCallbacks | src/components/Synth/Utils/JackPlug/index.tsx:36-37 | a jack none of the callbacks names keeps its count |
| JackPlug.CountNeverNegative | src/components/Synth/Utils/JackPlug/index.tsx:37 | a count that starts non-negative stays non-negative whatever callbacks run |
| JackPlug.ConnectDisconnectInverse | src/components/Synth/Utils/JackPlug/index.tsx:36-37 | a disconnect undoes a connect; on a plugged jack a connect undoes a disconnect |
| JackPlug.PluggedAfterCallback | src/components/Synth/Utils/JackPlug/index.tsx:64 | after a connect the jack is drawn plugged; after a disconnect it is plugged iff it had more than one cable end |
| JackPlug.CreateConnection | src/components/Synth/Utils/JackPlug/index.tsx:24-39 | an unmounted plug calls nothing. A mounted one calls the manager once with its own `input` and `output` unchanged and its two counter callbacks |
| JackPlug.LegacyMouseDown | src/components/Synth/Audio/JackPlug.js:64-75 | the class-based jack makes the same call as a mounted hook-based jack |
| Patch.PlugClick | src/components/Synth/Utils/JackPlug/index.tsx:24-39 | a rack press hands the manager the click a mounted plug's `createConnection` builds |
| JackPlug.MountThenUnmount | src/components/Synth/Utils/JackPlug/index.tsx:41-47 | registering the jack's label and deregistering it on cleanup restores every scope's registry |
| LegacyConnector.Update | src/components/Synth/Audio/Connector/index.js:66-109 | a same-role or duplicate click on a dangling record only raises the failure flag. After a complete record, or on an empty list, a click appends a new half. Otherwise it merges into the dangling record. Acceptance clears the selection |
| LegacyConnector.AfterConnect | src/components/Synth/Audio/Connector/index.js:110-133 | after a rejection nothing runs. Otherwise the `onConnect` of each side the click offered runs, the nodes are connected iff the last record is complete, and `handled` becomes completeness |
| LegacyConnector.OnConnect | src/components/Synth/Audio/Connector/index.js:64-135 | a jack click keeps edit mode. A same-role click on a dangling record only raises the failure flag, with no callback and no graph call. An accepted click runs the clicked jack's `onConnect` first, clears the selection and makes at most one graph call, a `connect`. On an empty list it opens a bare half and connects nothing |
| LegacyConnector.MarkIncomplete | src/components/Synth/Audio/Connector/index.js:162-175 | Escape flags exactly the incomplete records |
| LegacyConnector.DeleteConnections | src/components/Synth/Audio/Connector/index.js:190-208 | the corrected deletion (line 201 as written `connect`s; see Findings) keeps the unflagged records. It runs the flagged records' `onDisconnect` and disconnects their pairs |
| LegacyConnector.DeleteConnectionsAsWritten | src/components/Synth/Audio/Connector/index.js:190-208 | the deletion as written keeps the same records and runs the same callbacks, but `connect`s the flagged pairs |
| LegacyConnector.Rewire | src/components/Synth/Audio/Connector/index.js:199-203 | as written, at most one call per deleted record, each a `connect` |
| LegacyConnector.RewireAdds | src/components/Synth/Audio/Connector/index.js:199-203 | as written, the deletion's calls add every deleted cable's edge back to the graph and remove none |
| LegacyConnector.Unwire | src/components/Synth/Audio/Connector/index.js:199-203 | corrected, at most one call per deleted record, each a `disconnect` |
| LegacyConnector.UnwireRemoves | src/components/Synth/Audio/Connector/index.js:199-203 | corrected, the deletion's calls remove exactly the deleted cables' edges from the graph |
| LegacyConnector.SweepEscape | src/components/Synth/Audio/Connector/index.js:162-175 | on a valid list Escape's flags select exactly the dangling last record, if there is one |
| LegacyConnector.OnConnectKeepsValid | src/components/Synth/Audio/Connector/index.js:64-135 | a click keeps the list shape: only the last record may be incomplete, and `handled` matches completeness |
| LegacyConnector.MergedPair | src/components/Synth/Audio/Connector/index.js:78-103 | a successful completing click produces a complete cable whose pair no committed cable has |
| LegacyConnector.SameRoleOnlyFails | src/components/Synth/Audio/Connector/index.js:71-76 | a same-role click only sets the failure flag: no callback, no graph call |
| LegacyConnector.SuccessfulClick | src/components/Synth/Audio/Connector/index.js:110-132 | a successful one-sided click runs only the clicked jack's `onConnect`. It connects nodes iff it completes the dangling record, and that record is committed as handled |
| LegacyConnector.EditKey | src/components/Synth/Audio/Connector/index.js:138-143 | `c` turns editing on iff no record dangles, never off, and leaves the records alone |
| LegacyConnector.MarkSelected | src/components/Synth/Audio/Connector/index.js:145-160 | Backspace's rebuild flags the selected record and keeps every other one in place. Past the end it appends a bare flagged record |
| LegacyConnector.Backspace | src/components/Synth/Audio/Connector/index.js:145-160 | with the corrected deletion, Backspace/Clear clears the selection, keeps edit mode, leaves no record flagged, and only disconnects |
| LegacyConnector.Escape | src/components/Synth/Audio/Connector/index.js:162-175 | with the corrected deletion, Escape leaves edit mode, clears the selection and keeps only complete records; it only disconnects |
| LegacyConnector.OnKeyDown | src/components/Synth/Audio/Connector/index.js:137-177 | with the corrected deletion: other keys change nothing. `c` keeps the records and leaves editing on iff it was on or no record dangles. Backspace/Clear and Escape clear the selection, Escape leaves edit mode, and afterwards no record is left flagged |
| LegacyConnector.OnKeyDownAsWritten | src/components/Synth/Audio/Connector/index.js:137-208 | the handler as written leaves the same state and runs the same jack callbacks as the corrected one; every graph call it makes is a `connect` |
| LegacyConnector.BackspaceDeletesSelected | src/components/Synth/Audio/Connector/index.js:145-160 | with the corrected deletion and a selected record in range, Backspace removes exactly that record, runs its sides' `onDisconnect` and disconnects its pair. Out of range it only clears the selection |
| LegacyConnector.BackspaceAsWrittenKeepsGraph | src/components/Synth/Audio/Connector/index.js:145-208 | as written, Backspace on a selected record in range removes it and runs its `onDisconnect`s, but `connect`s its pair again: the graph is unchanged and keeps the edge of a cable no record holds |
| LegacyConnector.KeyAsWrittenKeepsCover | src/components/Synth/Audio/Connector/index.js:137-208 | as written, every key keeps the graph a superset of the cables' edges |
| LegacyConnector.AsWrittenSessionCovers | src/components/Synth/Audio/Connector/index.js:64-208 | over any session with the code as written, the record list stays valid and the graph holds every cable's edge, possibly more |
| LegacyConnector.BackspaceUnselected | src/components/Synth/Audio/Connector/index.js:145-160 | Backspace with no selection changes nothing |
| LegacyConnector.EscapeDropsDangling | src/components/Synth/Audio/Connector/index.js:162-175 | Escape removes only the dangling record and runs its one side's `onDisconnect`. It keeps the committed cables and makes no graph call |
| LegacyConnector.OnConnectKeepsGraph | src/components/Synth/Audio/Connector/index.js:64-135 | every click keeps the audio graph equal to the committed cables' edges |
| LegacyConnector.CompletingClickWires | src/components/Synth/Audio/Connector/index.js:110-132 | a completing click adds exactly the new pair to the graph |
| LegacyConnector.OpeningClickWires | src/components/Synth/Audio/Connector/index.js:96-98 | a click that opens a new half changes neither the cables nor the graph |
| LegacyConnector.OnKeyDownKeepsGraph | src/components/Synth/Audio/Connector/index.js:137-176 | with the corrected deletion, every key keeps the graph equal to the cables |
| LegacyConnector.SessionStaysConsistent | src/components/Synth/Audio/Connector/index.js:64-208 | with the corrected deletion, over any session, only the last record dangles, no pair is committed twice and the graph equals the cables' edges |
| LegacyConnector.AsWrittenKeepsDeletedEdge | src/components/Synth/Audio/Connector/index.js:201 | as written, deleting the only cable leaves its edge in the graph |
| LegacyConnector.CorrectedRemovesDeletedEdge | src/components/Synth/Audio/Connector/index.js:201 | the corrected deletion removes that edge |
| Patch.PressKeepsHonest | src/components/Synth/Utils/JackPlug/index.tsx:24-39 | a plug press keeps the manager consistent with the graph and every jack's count at least its cable ends; exact counts stay exact |
| Patch.KeyKeepsHonest | src/components/Synth/Utils/Connector/index.tsx:145-228 | a key press keeps the same; counts stay exact unless Escape drops a dangling half |
| Patch.KeyDeletesCable | src/components/Synth/Utils/Connector/index.tsx:205-228 | deleting a cable gives up its two ends and their counts |
| Patch.SessionHonest | src/components/Synth/Utils/JackPlug/index.tsx:64 | over any session, every jack holding a cable end is drawn plugged |
| Patch.SessionWithoutEscapeExact | src/components/Synth/Utils/JackPlug/index.tsx:64 | without Escape, a jack is drawn plugged iff it holds a cable end |
| Patch.TwoClicksCommitOneCable | src/components/Synth/Utils/Connector/index.tsx:66-143 | pressing an oscillator's output and then a mixer's input commits one cable, adds one edge and plugs each jack once |
| Patch.RepeatedPairIsRejected | src/components/Synth/Utils/Connector/index.tsx:84-99 | pressing the same pair again, destination first, is rejected as a duplicate. The opening press is still counted |
| Patch.EscapeLeaksCount | src/components/Synth/Utils/Connector/index.tsx:167-172 | Escape after a first press leaves the jack drawn plugged while it holds no cable end |
| Patch.ReplayCommitsOneCable | src/components/Synth/Utils/Preset.tsx:81-94 | replaying the pair ("osc.Out", "mix.In") presses the two jacks in order and commits exactly that cable |
| Preset.Qualify | src/components/Synth/Utils/Preset.tsx:60-79 | under an empty id a key is forwarded as it is; otherwise it becomes `id + "." + key` |
| Preset.QualifyInjective | src/components/Synth/Utils/Preset.tsx:60-79 | distinct keys stay distinct once qualified |
| Preset.Scoped | src/components/Synth/Utils/Preset.tsx:69-76 | a scoped `register` forwards every entry under its qualified key with its value kept |
| Preset.FullNameInjective | src/components/Synth/Utils/Preset.tsx:60-79 | distinct keys reach the root under distinct names, however deeply nested |
| Preset.RouteOnly | src/components/Synth/Utils/Preset.tsx:60-79 | every name the root receives is the full name of one of the component's keys |
| Preset.Register | src/components/Synth/Utils/Preset.tsx:36-42 | a nested instance forwards the entries and keeps its own map. The root merges them, a later registration of a name replacing the earlier one |
| Preset.Deregister | src/components/Synth/Utils/Preset.tsx:44-58 | the root removes exactly the given keys and keeps every other entry; a nested instance forwards the keys |
| Preset.RegisterVia | src/components/Synth/Utils/Preset.tsx:36-79 | registering through nested scopes changes only the root, which gains the entries under their full names |
| Preset.DeregisterVia | src/components/Synth/Utils/Preset.tsx:44-79 | deregistering through nested scopes changes only the root, which loses exactly the full names of the keys |
| Preset.RegisterThenDeregister | src/components/Synth/Utils/Preset.tsx:36-79 | mounting then unmounting a component restores every instance, if the root held none of its names |
| Preset.RegistrationOrderIrrelevant | src/components/Synth/Utils/Preset.tsx:40 | registrations with disjoint names commute at the root |
| Preset.AfterRender | src/components/Synth/Utils/Preset.tsx:81-108 | once the shared flag is set, or while the registry is empty, nothing is replayed. The flag is set iff an effect did not return early. Otherwise both effects read the same unset flag: the cable calls come first, then the parameter calls, for the lists that are present |
| Preset.ReplayAtMostOnce | src/components/Synth/Utils/Preset.tsx:33-108 | over any sequence of registrations, deregistrations and renders at most one render replays anything |
| Preset.AllPresentReplaysEveryPair | src/components/Synth/Utils/Preset.tsx:88-93 | with every name registered, each pair's first callback then its second are called, in list order |
| Preset.PairHead | src/components/Synth/Utils/Preset.tsx:88-93 | a first pair with both names registered is replayed first, both callbacks without arguments, before the rest of the list |
| Preset.MissingNameSkipsPair | src/components/Synth/Utils/Preset.tsx:88-93 | a pair with a missing name contributes no call |
| Preset.ParamCalls | src/components/Synth/Utils/Preset.tsx:96-108 | the parameter replay calls only registered callbacks, at most one per listed parameter, and one for each iff every listed name is registered |
| Preset.AllPresentReplaysEveryParam | src/components/Synth/Utils/Preset.tsx:103-107 | with every name registered, parameter i's callback is called i-th, with that parameter's arguments |
| Preset.ParamHead | src/components/Synth/Utils/Preset.tsx:103-107 | a registered first parameter is called first with its arguments; an unregistered one is skipped |
| Preset.ParamCallsConcat | src/components/Synth/Utils/Preset.tsx:103-107 | replaying two lists in turn makes the first list's calls, then the second's |
| Voices.StartFrequency | src/components/Synth/Audio/Keyboard/useFrequency.ts:11-66 | an already sounding frequency leaves the list unchanged. Mono changes only oscillator 0. Poly takes the first free oscillator, else the first started earliest. Chord sets them all. The length is kept and the frequency then sounds |
| Voices.StopFrequency | src/components/Synth/Audio/Keyboard/useFrequency.ts:68-107 | with no oscillator on the frequency the list is unchanged. Mono silences oscillator 0. Poly silences the matched one and resets its start. Chord silences all |
| Voices.Oldest | src/components/Synth/Audio/Keyboard/useFrequency.ts:31-40 | the first oscillator with the earliest start |
| Voices.PolyStartThenStop | src/components/Synth/Audio/Keyboard/useFrequency.ts:30-96 | with a free oscillator, starting then stopping a frequency leaves every oscillator as active as before and the sounding ones untouched |
| Voices.PolyStealsOldest | src/components/Synth/Audio/Keyboard/useFrequency.ts:30-54 | with every oscillator busy, the new note takes one started earliest |
| Voices.MonoStopSilencesFirst | src/components/Synth/Audio/Keyboard/useFrequency.ts:77-85 | mono stop silences oscillator 0 even when the frequency was found on another one |
| Voices.ChordStopSilencesAll | src/components/Synth/Audio/Keyboard/useFrequency.ts:98-103 | after a chord stop nothing sounds |
| Voices.LegacyStartFrequency | src/components/Synth/Audio/Keyboard.js:127-180 | the class-based version, written with `slice` and the `forEach` scan, returns `null` exactly when the frequency already sounds |
| Voices.LegacyStopFrequency | src/components/Synth/Audio/Keyboard.js:182-219 | it returns `null` exactly when no oscillator has the frequency |
| Voices.At | src/components/Synth/Audio/Keyboard.js:158 | `oscillators[i]` is the element inside the list and `undefined` outside it |
| Voices.Slice | src/components/Synth/Audio/Keyboard.js:164-168 | `slice` between in-range bounds is the sub-list between them |
| Voices.ScanFindsEarliest | src/components/Synth/Audio/Keyboard.js:146-155 | the `forEach` scan with strict `<` ends on the first oscillator with the earliest start |
| Voices.EarliestIsOldest | src/components/Synth/Audio/Keyboard.js:146-155 | that oscillator is unique, and is the one the hook-based version picks |
| Voices.LegacyPolyStartAgrees | src/components/Synth/Audio/Keyboard.js:145-169 | in poly mode the class-based start builds the same list as the hook-based one, the empty list included |
| Voices.LegacyStopAgrees | src/components/Synth/Audio/Keyboard.js:182-219 | with `null` meaning no change, the class-based stop builds the same list as the hook-based one |
| Voices.LegacyAgrees | src/components/Synth/Audio/Keyboard.js:127-219 | both class-based updaters, with `null` meaning no change, produce the same lists as the hook-based ones |
| Voices.LegacyStopSounding | src/components/Synth/Audio/Keyboard.js:182-219 | stopping a sounding frequency: mono silences oscillator 0 and keeps the rest, poly silences the first oscillator carrying it and resets its start, chord silences everything |
| Keymap.Lookup | src/components/Synth/Audio/Keyboard/constants.ts:22-24 | a key is mapped iff the layout lists it, and then to the listed semitone |
| Keymap.KeysLayout | src/components/Synth/Audio/Keyboard/constants.ts:1-20 | 18 distinct keys onto the contiguous semitones -9..8, `h` being 0, each key one above the previous; space is unmapped |
| Keymap.LegacyKeysLayout | src/components/Synth/Audio/Keyboard.js:20-38 | the class-based layout is the first 17 keys, -9..7, without `'` |
| Keymap.KeyMap | src/components/Synth/Audio/Keyboard/index.tsx:11-30 | the hook-based layout has 18 one-character keys whose semitones run from -9 up by one, `h` being 0 |
| Keymap.LegacyKeyMap | src/components/Synth/Audio/Keyboard.js:20-38 | the class-based layout is the hook-based one without its last key |
| Keymap.ChromaticLookup | src/components/Synth/Audio/Keyboard/constants.ts:1-20 | in a layout of distinct keys counting up, key i is mapped to the lowest semitone plus i |
| Keymap.ModeOf | src/components/Synth/Audio/Keyboard/constants.ts:26 | index 1 is chord, index 2 is poly, anything else (index 0 or unknown) is mono |
| Keymap.Lower | src/components/Synth/Audio/Keyboard/index.tsx:218 | ASCII lower-casing (only A to Z change) in place of `toLowerCase` |
| Pressed.Hold | src/components/Synth/Audio/Keyboard.js:88 | with insertion-ordered names: a new key goes last; a held key keeps its place and takes the new time, the others unchanged |
| Pressed.HoldSemitone | src/components/Synth/Audio/Keyboard/useNote.ts:17 | with semitone names: a held one keeps its place and takes the new time, a new negative one goes last |
| Pressed.HoldSemitoneKeeps | src/components/Synth/Audio/Keyboard/useNote.ts:17 | a press leaves the semitone held and keeps names unique and in `Object.keys` order: index names first, ascending |
| Pressed.InsertKeepsOrder | src/components/Synth/Audio/Keyboard/useNote.ts:17 | a new index name placed by value keeps `Object.keys` order |
| Pressed.InsertDistinct | src/components/Synth/Audio/Keyboard/useNote.ts:17 | placing a new name keeps names unique |
| Pressed.InsertThenRemove | src/components/Synth/Audio/Keyboard/useNote.ts:17-30 | deleting a newly placed name gives back the list as it was |
| Pressed.HoldSemitoneThenRemove | src/components/Synth/Audio/Keyboard/useNote.ts:17-30 | pressing a semitone not held and deleting it restores the held notes, in order |
| Pressed.Remove | src/components/Synth/Audio/Keyboard/useNote.ts:30 | deleting a held name shortens the list; nothing is added |
| Pressed.RemoveContents | src/components/Synth/Audio/Keyboard/useNote.ts:30 | after a delete exactly the entries with other names remain, times unchanged, and the name is gone |
| Pressed.RemoveAbsent | src/components/Synth/Audio/Keyboard/useNote.ts:30 | deleting a name that is not held changes nothing |
| Pressed.RemoveKeepsAbsent | src/components/Synth/Audio/Keyboard/useNote.ts:30 | a delete adds no name |
| Pressed.RemoveSplits | src/components/Synth/Audio/Keyboard/useNote.ts:30 | deleting a name held once drops its entry and keeps the others in order |
| Pressed.RemoveKeepsOrder | src/components/Synth/Audio/Keyboard/useNote.ts:30 | a delete keeps `Object.keys` order |
| Pressed.HoldThenRemove | src/components/Synth/Audio/Keyboard/useNote.ts:17-30 | holding a key that was not held and removing it restores the held set |
| Pressed.RemoveDistinct | src/components/Synth/Audio/Keyboard/useNote.ts:30 | removal keeps held names unique |
| Pressed.RemoveFirst | src/components/Synth/Audio/Keyboard/useNote.ts:59 | with unique names, deleting the first name leaves the others in order |
| Pressed.Newest | src/components/Synth/Audio/Keyboard/useNote.ts:36-50 | the entry with the latest time, the earliest such on ties |
| Keyboard.StartNote | src/components/Synth/Audio/Keyboard/useNote.ts:15-26 | the semitone is held, the held object stays unique and in `Object.keys` order, the gate is written 1, and its frequency then sounds |
| Keyboard.StopNote | src/components/Synth/Audio/Keyboard/useNote.ts:28-56 | the semitone is forgotten and the gate is written 0 iff nothing is left held. In mono and chord mode with notes left, the newest is sounded again. Otherwise the frequency is stopped |
| Keyboard.ReleaseEmpties | src/components/Synth/Audio/Keyboard/useNote.ts:58-60 | after a release nothing is held, and the last gate write is 0 if anything had been held |
| Keyboard.ReleaseSilences | src/components/Synth/Audio/Keyboard/useNote.ts:36-60 | in mono mode a release of two or more notes leaves oscillator 0 idle; in chord mode every oscillator |
| Keyboard.SetTypeReleasesFirst | src/components/Synth/Audio/Keyboard/index.tsx:204-210 | switching type leaves no note held |
| Keyboard.StopAll | src/components/Synth/Audio/Keyboard/index.tsx:201 | stopping a snapshot of names one after another leaves none of them held, adds none, and keeps the type |
| Keyboard.OnRelease | src/components/Synth/Audio/Keyboard/index.tsx:200-202 | after a release nothing is held, whatever the held list looked like, and the type is kept |
| Keyboard.SetType | src/components/Synth/Audio/Keyboard/index.tsx:204-210 | a type switch releases first, so nothing is held, then takes the new type |
| Keyboard.OnKeyDown | src/components/Synth/Audio/Keyboard/index.tsx:212-236 | auto-repeat and unmapped keys change nothing, space releases, a mapped key holds its note and opens the gate |
| Keyboard.OnKeyUp | src/components/Synth/Audio/Keyboard/index.tsx:238-255 | auto-repeat and unmapped keys change nothing; a mapped key's note is no longer held |
| Keyboard.KeyDownThenUp | src/components/Synth/Audio/Keyboard/index.tsx:212-255 | pressing and releasing a key whose note was not held leaves the held notes as they were |
| Keyboard.ScreenKeys | src/components/Synth/Audio/Keyboard/index.tsx:286-296 | 25 buttons, semitones -12 to 12 in steps of one |
| Keyboard.ClickKey | src/components/Synth/Audio/Keyboard/index.tsx:286-296 | a click stops the button's note if it sounds and starts it otherwise |
| Keyboard.StepKeepsValid | src/components/Synth/Audio/Keyboard/index.tsx:204-296 | whatever the user does, each held semitone appears once and the held object stays in `Object.keys` order |
| LegacyKeyboard.ActiveFrequencies | src/components/Synth/Audio/Keyboard.js:123-125 | exactly the frequencies some oscillator is sounding |
| LegacyKeyboard.Start | src/components/Synth/Audio/Keyboard.js:127-180 | the class-based `startFrequency`, with `null` as no change, gives the hook-based list, so the frequency sounds unless the chord list is empty |
| LegacyKeyboard.Stop | src/components/Synth/Audio/Keyboard.js:182-219 | the class-based `stopFrequency`, with `null` as no change, gives the hook-based list and keeps its length |
| LegacyKeyboard.OnRelease | src/components/Synth/Audio/Keyboard.js:123-125 | the release keeps the held keys and the type, and the oscillator count |
| LegacyKeyboard.ReleaseIdles | src/components/Synth/Audio/Keyboard.js:123-125 | in mono and chord mode a release leaves the mode's oscillators idle |
| LegacyKeyboard.OnKeyDown | src/components/Synth/Audio/Keyboard.js:75-92 | space releases, unmapped keys change nothing, a mapped key is recorded and its frequency is started as the hook-based `startFrequency` would, so it sounds unless the chord list is empty |
| LegacyKeyboard.OnKeyUp | src/components/Synth/Audio/Keyboard.js:94-121 | unmapped keys change nothing; a mapped key is forgotten and no key is added. In mono or chord mode with keys still held, the newest held key (which has a semitone when only mapped keys were recorded) is started; otherwise the released frequency is stopped |
| LegacyKeyboard.RepeatRefreshes | src/components/Synth/Audio/Keyboard.js:75-92 | an auto-repeat of a held, sounding key keeps the oscillators and the held keys' order. With unique names that key's time becomes `now` and every other entry is unchanged |
| LegacyKeyboard.KeyDownThenUp | src/components/Synth/Audio/Keyboard.js:75-121 | pressing and releasing a key not held restores the held keys |
| LegacyKeyboard.SetType | src/components/Synth/Audio/Keyboard.js:70-73 | the oscillators are released first, under the old type, so in mono or chord mode that type's oscillators end idle; then the type changes and the held keys stay recorded |
| LegacyKeyboard.ClickKey | src/components/Synth/Audio/Keyboard.js:225-237 | a click on a silent button sounds its frequency. On a sounding one: mono silences oscillator 0, poly silences the first oscillator with the frequency (possibly an idle one) and resets its start, chord silences all |
| LegacyKeyboard.StepKeepsPressedMapped | src/components/Synth/Audio/Keyboard.js:75-121 | only mapped keys are ever recorded, and recorded keys stay unique |
| Semitone.JsRem12 | src/utils/getNoteFromSemitone.js:3 | JavaScript's `% 12`: the remainder takes the sign of the dividend and differs from it by a multiple of 12 |
| Semitone.NoteIndex | src/components/Synth/Audio/Keyboard/getNoteFromSemitone.ts:3-5 | the index lies in 0..11 and is the Euclidean remainder of the semitone |
| Semitone.NoteFromSemitone | src/components/Synth/Audio/Keyboard/getNoteFromSemitone.ts:3-5 | a one-element array naming the note |
| Semitone.OctavePeriod | src/utils/getNoteFromSemitone.js:3 | a semitone and the one an octave above have the same name |
| Semitone.NegativeSemitones | src/components/Synth/Audio/Keyboard/getNoteFromSemitone.ts:3-5 | below A4 the index is the semitone plus twelve |
| MidiParser.ParseMessage | src/utils/MIDIInputParser.ts:151-214 | a data byte in status position gives nothing. Every status below 0xF0 gives an event. Of the system bytes only SysEx, quarter frame, song position and song select do. The channel is the low nibble |
| MidiParser.MtcFields | src/utils/MIDIInputParser.ts:207-212 | the quarter-frame type lies in 0..7 and the value in 0..15 |
| MidiParser.ParseMtc | src/utils/MIDIInputParser.ts:216-257 | the timecode assembly never emits an event |
| MidiParser.Parse | src/utils/MIDIInputParser.ts:110-149 | a packet gives at most one event; an empty one changes nothing. A pending SysEx absorbs data chunks and is emitted whole by the chunk ending in 0xF7. An opening SysEx without 0xF7 is buffered |
| MidiParser.StatusDiscardsSysex | src/utils/MIDIInputParser.ts:113-134 | a status byte abandons a pending SysEx and is decoded as a fresh message |
| MidiParser.ChunkedSysex | src/utils/MIDIInputParser.ts:115-138 | a SysEx sent in chunks emits nothing until its last chunk, which emits one event with all the bytes; the decoder is then reset |
| MidiParser.ContinuationCompletes | src/utils/MIDIInputParser.ts:115-129 | continuation chunks after a pending SysEx complete it on the chunk with 0xF7 |
| MidiParser.Value14Range | src/utils/MIDIInputParser.ts:190-196 | with 7-bit data bytes the pitch and position value is below 16384 |
| MidiParser.Value14RoundTrip | src/utils/MIDIInputParser.ts:190-196 | encoding a 14-bit value LSB first and decoding it gives it back, and conversely |
| MidiParser.MtcRoundTrip | src/utils/MIDIInputParser.ts:207-212 | a quarter-frame byte built from a type and a value decodes back to them |
| MidiParser.MtcYieldsOneEvent | src/utils/MIDIInputParser.ts:142-144 | a quarter-frame packet yields exactly its own event |
| MidiParser.VoiceStatus | src/utils/MIDIInputParser.ts:82-104 | for channel voice messages the name depends only on the high nibble, with the fields each kind takes |
| MidiParser.UnhandledSystemBytes | src/utils/MIDIInputParser.ts:151-214 | tune request, end of exclusive and the real-time bytes produce nothing |
| MidiSelection.OnStateChange | src/components/Synth/Utils/MIDI.tsx:72-83 | a still-present selection is kept. A stale one becomes the first input, or `""` when there are none. The result is always `""` or an input |
| MidiSelection.StateChangeIdempotent | src/components/Synth/Utils/MIDI.tsx:72-83 | applying the rule twice equals applying it once |
| MidiSelection.SoundSelectionKept | src/components/Synth/Utils/MIDI.tsx:72-83 | a selection that is already sound survives the rule |
| MidiSelection.Initialize | src/components/Synth/Utils/MIDI.tsx:60-68 | once access is granted the flag is set and the first input is selected, if any; without access, or once set, nothing happens |
| MidiSelection.InitializeOnce | src/components/Synth/Utils/MIDI.tsx:60-68 | later renders no longer change the selection |
| MidiSelection.ListeningAfterStateChange | src/components/Synth/Utils/MIDI.tsx:94-97 | after a state change, messages are listened to iff some input exists |
| GateNode.New | src/utils/GateNode.ts:13-18 | a new gate has value 0 and no connections |
| GateNode.Connect | src/utils/GateNode.ts:23-33 | parameters are ignored, a node already connected is not added again, the list stays duplicate-free and the destination is returned |
| GateNode.Disconnect | src/utils/GateNode.ts:35-43 | non-node arguments are ignored; a connected node loses its first entry |
| GateNode.DisconnectRemoves | src/utils/GateNode.ts:35-43 | on a duplicate-free list the node is gone afterwards and nothing else changes |
| GateNode.ConnectThenDisconnect | src/utils/GateNode.ts:23-43 | connecting a new node and disconnecting it restores the gate |
| GateNode.ConnectIdempotent | src/utils/GateNode.ts:23-33 | connecting twice is connecting once |
| GateNode.SetValue | src/utils/GateNode.ts:49-55 | the first report is the gate's own |
| GateNode.SetValueWalks | src/utils/GateNode.ts:49-55 | every gate on the depth-first walk takes the value, the others keep theirs, and there is one report per visit, in walk order |
| GateNode.SetThenGet | src/utils/GateNode.ts:49-59 | after `setValue`, `getValue` returns the value set, on the gate and on every gate connected to it |
| GateNode.VisitsTransitive | src/utils/GateNode.ts:49-55 | whatever a reached gate reaches is reached from the start |
| GateNode.Defaults | src/utils/GateNode.ts:49 | a supplied value, time or cancellation flag is passed through; otherwise value defaults to 1, time to the context's current time, cancellation to false |
| PitchBuffer.InitDetector | src/audioWorklets/PitchProcessor/index.ts:51-64 | N is set, the buffer is N zeros, the count restarts, and a detector exists |
| PitchBuffer.New | src/audioWorklets/PitchProcessor/index.ts:24-40 | before `init-detector` the buffer is empty, N and the count are 0, and there is no detector |
| PitchBuffer.Step | src/audioWorklets/PitchProcessor/index.ts:80-110 | the count grows by the block length and the buffer length is kept. While filling, the block lands at the count and the other samples stay. Once full, the buffer loses its first block-length samples and ends with the block |
| PitchBuffer.Fill | src/audioWorklets/PitchProcessor/index.ts:88-91 | the block is copied in from position `totalSamples`, writes past the end being dropped |
| PitchBuffer.MoveLeft | src/audioWorklets/PitchProcessor/index.ts:101-103 | every sample that has a successor a block's length on moves left by the block's length |
| PitchBuffer.WriteTail | src/audioWorklets/PitchProcessor/index.ts:106-108 | the block fills the last positions; the rest are kept |
| PitchBuffer.Shift | src/audioWorklets/PitchProcessor/index.ts:92-110 | the new buffer is the old one without its first block-length samples, followed by the block |
| PitchBuffer.Process | src/audioWorklets/PitchProcessor/index.ts:68-123 | the count grows by the block length and the length is kept. A result is posted iff N samples have arrived, a detector exists and its result is not 0. It always returns true |
| PitchBuffer.ProcessInputs | src/audioWorklets/PitchProcessor/index.ts:68-123 | with no first input or no channel in it, `process` throws. Otherwise it processes the first channel as above |
| PitchBuffer.StepKeeps | src/audioWorklets/PitchProcessor/index.ts:84-110 | a block that fits the unfilled part, or any block once full, keeps the buffer as the stream's latest samples, zero-padded |
| PitchBuffer.LatestSamples | src/audioWorklets/PitchProcessor/index.ts:93-97 | with N a multiple of the block length, once N samples have arrived the buffer is exactly the latest N, in arrival order. Before that it is all of them followed by zeros |
| PitchBuffer.UnalignedBlocksLoseSamples | src/audioWorklets/PitchProcessor/index.ts:88-91 | without that alignment a sample is lost in the fill phase |
| Slider.Clamp | src/components/Synth/Utils/Slider/index.tsx:66-71 | NaN stays NaN, absent bounds clamp nothing, and with ordered bounds any other number lands inside them |
| Slider.ClampFixes | src/components/Synth/Utils/Slider/index.tsx:66-71 | within ordered bounds clamping leaves a value alone iff it is already in range |
| Slider.ClampIdempotent | src/components/Synth/Utils/Slider/index.tsx:66-71 | clamping twice is clamping once, whatever the bounds |
| Slider.OnEdited | src/components/Synth/Utils/Slider/index.tsx:54-78 | only Enter acts, and it closes the editor. Text sliders commit nothing. A number slider commits once: the typed finite number clamped, else its current value clamped, so a finite slider never commits NaN |
| Slider.Sync | src/components/Synth/Utils/Slider/index.tsx:47-52 | while the editor is open its value follows the slider's value; a closed editor is untouched |
| Slider.DoubleClick | src/components/Synth/Utils/Slider/index.tsx:131 | the editor is open afterwards iff `editable` is true. Opening a closed editor loads the slider's value through the effect; an open one is left as it is, typed text included |
| Slider.EditWithoutTyping | src/components/Synth/Utils/Slider/index.tsx:47-78 | opening a closed editor and pressing Enter commits the slider's own in-range value unchanged |
| Slider.DoubleClickKeepsTyping | src/components/Synth/Utils/Slider/index.tsx:47-78 | a double-click inside an open editor does not change what any key then commits |
| Slider.OnManualClick | src/components/Synth/Utils/Slider/index.tsx:100-107 | a ctrl- or meta-click commits the default value iff there is one |
| Slider.MountThenUnmount | src/components/Synth/Utils/Slider/index.tsx:80-86 | registering the slider's label and deregistering it on cleanup restores every scope's registry |
| Slider.LegacyOnEdited | src/components/Synth/Audio/Slider.js:83-99 | only Enter acts. It closes the editor and commits the clamped value, or, with no bounds, the raw editor value |
| Slider.LegacyOnEdit | src/components/Synth/Audio/Slider.js:79-81 | typing replaces the editor's value with the text and leaves the editor open or closed |
| Slider.LegacyDoubleClick | src/components/Synth/Audio/Slider.js:158-160 | `editing` takes the `editable` prop and the editor keeps its value |
| Slider.LegacyCommitsNaN | src/components/Synth/Audio/Slider.js:89-94 | text that is not a number, in a bounded class-based slider, commits NaN |
| Slider.RevisionsAgreeOnNumbers | src/components/Synth/Audio/Slider.js:83-99 | for a finite number in the editor the two revisions commit the same value |

## Left out

- Rendering: JSX, CSS, SVG cables and their catenary geometry, mouse and scroll tracking, the `z` key's cable opacity toggle, and cable keys.
- Audio modules (oscillators, envelopes, filters, mixer, output) and their floating-point parameter maths, the MIDI keyboard glue, the recorder, and the oscilloscope and spectroscope.
- `requestMIDIAccess`, the worklet message port and the wasm pitch detector. Their results are parameters: `granted`, the input keys, and `detect`.
- `Date.getTime` and the audio context's current time are parameters (`now`, `currentTime`).
- React's scheduling of effects. `Patch` runs the manager's two effects right after each gesture. `ConnectorProperties` lets them run in any order as separate events.
- Connector.DeleteEffect: requires the scheduled index to name a committed cable, because the source indexes the list without a check and would throw.
- Keyboard.Frequency: a semitone stands for its frequency. The source's `440 * 2^(s/12)` is injective and frequencies are only compared for equality, so float rounding is not modelled.
- Keymap.Lower: only A to Z are folded. `toLowerCase` also folds other upper-case letters, such as U+212A KELVIN SIGN to `k`, so such a key would reach a layout entry here only if typed in lower case. Unicode case mapping is not modelled.
- PitchBuffer.LatestSamples: assumes N is a multiple of the block length, as the worklet's 128-sample blocks and a power-of-two N of at least 128 give. `UnalignedBlocksLoseSamples` shows what happens otherwise.
- PitchBuffer.Process: samples are reals, so float32 rounding is not modelled. Only the first channel of the first input is read, as in the source; the `TypeError` when it is missing is in `ProcessInputs`.
- GateNode.Connect: an `undefined` or number argument is ignored, where the source would push it onto the connection list; the TypeScript signature admits only nodes and parameters.
- GateNode.SetValue: requires the gate graph to be ranked, which means acyclic. A cycle makes the source recurse without end.
- Slider.OnEdited: signed zero is not distinguished, and `parseFloat` of text is a parameter.
- MidiParser.ParseMtc: the timecode assembly is dead code, because its counter restarts at 0 on every call. Only its result, no event, is modelled.
- LegacyConnector.OnKeyDown: Escape also resets the mouse position used to draw a dangling cable; drawing is not modelled.
- LegacyKeyboard.SetType: the release reads the old type. The re-render timing of `setState` is not modelled.

## Findings

| source | as written | input that shows it | evidently intended | confidence | as-written member | corrected member |
|---|---|---|---|---|---|---|
| src/components/Synth/Audio/Connector/index.js:201 | `deleteConnections` calls `connect` on each deleted cable's nodes | select the only cable and press Backspace: its edge is still in the graph | `disconnect` the deleted cable's nodes | high, not executed | LegacyConnector.AsWrittenKeepsDeletedEdge | LegacyConnector.CorrectedRemovesDeletedEdge |
| src/components/Synth/Audio/Slider.js:89-94 | clamping converts the editor text with `Math.max`/`Math.min`, with no check for NaN | type `abc` into a slider with a `min` and press Enter: `onChange(NaN)` | keep the current value when the text is not a number, as the hook-based slider does | medium, not executed | Slider.LegacyCommitsNaN | Slider.OnEdited |

=== FILE: audio_graph.dfy ===
/**
 * The audio-processing graph the patch cables act on. Real `AudioNode`s and
 * `AudioParam`s are opaque: a node is an identity plus whether it offers
 * `connect`/`disconnect` (an `AudioNode` does, an `AudioParam` does not).
 * The graph is the set of directed edges the cable managers have created.
 */
module AudioGraph {

  datatype Node = AudioNode(id: nat) | AudioParam(id: nat)

  /** `'connect' in node` and `'disconnect' in node` in the source. */
  predicate Connectable(n: Node) {
    n.AudioNode?
  }

  /** One call on the underlying graph: `src.connect(dst)` or `src.disconnect(dst)`. */
  datatype GraphOp = Connect(src: Node, dst: Node) | Disconnect(src: Node, dst: Node)

  type Edges = set<(Node, Node)>

  /** The graph after performing `ops` in order. */
  function Apply(edges: Edges, ops: seq<GraphOp>): (r: Edges)
    ensures forall e :: e in r ==> e in edges || exists i :: 0 <= i < |ops| && ops[i] == Connect(e.0, e.1)
    decreases |ops|
  {
    if |ops| == 0 then edges
    else
      var next := match ops[0]
        case Connect(s, d) => edges + {(s, d)}
        case Disconnect(s, d) => edges - {(s, d)};
      var r := Apply(next, ops[1..]);
      assert forall e :: e in r ==> e in next || exists i :: 0 <= i < |ops[1..]| && ops[1..][i] == Connect(e.0, e.1);
      assert forall i :: 0 <= i < |ops[1..]| ==> ops[1..][i] == ops[i + 1];
      r
  }
}

=== FILE: connector.dfy ===
/**
 * The patch-cable manager of the hook-based revision: a state holding at most
 * one dangling half-connection, the committed cables in completion order, and
 * the queue of jack `onConnect` callbacks still to run. React's `setState`
 * updaters become pure functions; calls on real audio nodes are returned as
 * `GraphOp`s and callbacks as values of the jacks' callback type `C`.
 */
module Connector {
  import opened Wrappers
  import opened AudioGraph
  import opened Wiring

  datatype State<C> = State(dangling: Option<Half<C>>, positions: seq<Half<C>>, toConnect: seq<C>)

  /** The parts of the component state the protocol reads or writes. */
  datatype Ui<C> = Ui(conns: State<C>, editing: bool, selected: Option<nat>, cableToDelete: Option<nat>)

  /** Result of the `connect` updater: new state, graph calls made, and whether the click was taken. */
  datatype Step<C> = Step(state: State<C>, ops: seq<GraphOp>, accepted: bool)

  function Empty<C>(): (s: State<C>)
    ensures Valid(s)
  {
    State(None, [], [])
  }

  /** Committed cables always have both sides; a dangling half has exactly one. */
  predicate Valid<C>(s: State<C>) {
    && (forall i :: 0 <= i < |s.positions| ==> Complete(s.positions[i]))
    && (s.dangling.Some? ==> Partial(s.dangling.value))
  }

  /** No two committed cables join the same (source node, destination node) pair. */
  predicate NoDuplicatePairs<C>(ps: seq<Half<C>>) {
    forall i, j :: 0 <= i < j < |ps| && Complete(ps[i]) && Complete(ps[j]) ==> PairOf(ps[i]) != PairOf(ps[j])
  }

  /** `positions.find(...)` of the duplicate test found an entry. */
  predicate HasDuplicate<C>(ps: seq<Half<C>>, pending: Half<C>, c: Click<C>) {
    exists i :: 0 <= i < |ps| && DuplicateOf(ps[i], pending, c)
  }

  /** The graph call committing `h`: its source is connected to its destination when it is an `AudioNode`. */
  function ConnectOps<C>(h: Half<C>): seq<GraphOp>
    requires Complete(h)
  {
    if Connectable(h.input.value.node) then [Connect(h.input.value.node, h.output.value.node)] else []
  }

  /** The `connect` updater (one jack click). */
  function ConnectUpdate<C>(s: State<C>, c: Click<C>): (r: Step<C>)
    requires WellFormedClick(c)
    ensures !r.accepted ==> r.state == s && r.ops == []
    ensures r.accepted <==> s.dangling.None? || (!SameRole(s.dangling.value, c) && !HasDuplicate(s.positions, s.dangling.value, c))
    ensures r.accepted ==> r.state.toConnect == s.toConnect + [c.onConnect]
    ensures r.accepted && s.dangling.None? ==>
      r.state.dangling == Some(NewSide(c)) && r.state.positions == s.positions && r.ops == []
    ensures r.accepted && s.dangling.Some? ==>
      r.state.dangling.None? && r.state.positions == s.positions + [Merge(s.dangling.value, NewSide(c))]
    ensures Valid(s) && r.accepted && s.dangling.Some? ==>
      Complete(r.state.positions[|s.positions|]) && r.ops == ConnectOps(r.state.positions[|s.positions|])
  {
    var newConnection := NewSide(c);
    match s.dangling
    case None =>
      Step(State(Some(newConnection), s.positions, s.toConnect + [c.onConnect]), [], true)
    case Some(d) =>
      if SameRole(d, c) || HasDuplicate(s.positions, d, c) then Step(s, [], false)
      else
        var forward := if c.input.Some? && d.output.Some? && Connectable(c.input.value)
          then [Connect(c.input.value, d.output.value.node)] else [];
        var backward := if c.output.Some? && d.input.Some? && Connectable(d.input.value.node)
          then [Connect(d.input.value.node, c.output.value)] else [];
        Step(State(None, s.positions + [Merge(d, newConnection)], s.toConnect + [c.onConnect]), forward + backward, true)
  }

  /** A jack click as the component sees it: an accepted click also clears the cable selection. */
  function Request<C>(ui: Ui<C>, c: Click<C>): (r: (Ui<C>, seq<GraphOp>))
    requires WellFormedClick(c)
    ensures r.0.conns == ConnectUpdate(ui.conns, c).state && r.1 == ConnectUpdate(ui.conns, c).ops
    ensures r.0.selected == (if ConnectUpdate(ui.conns, c).accepted then None else ui.selected)
    ensures r.0.editing == ui.editing && r.0.cableToDelete == ui.cableToDelete
  {
    var step := ConnectUpdate(ui.conns, c);
    (ui.(conns := step.state, selected := if step.accepted then None else ui.selected), step.ops)
  }

  /**
   * The effect that runs queued callbacks: when the queue is non-empty every
   * callback runs once, in queue order, and the queue is emptied.
   */
  function Flush<C>(s: State<C>): (r: (State<C>, seq<C>))
    ensures r.1 == s.toConnect
    ensures r.0 == s.(toConnect := [])
  {
    if |s.toConnect| == 0 then (s, []) else (s.(toConnect := []), s.toConnect)
  }

  /** Clicking a drawn cable selects it by index. */
  function SelectCable<C>(ui: Ui<C>, i: nat): (r: Ui<C>)
    requires i < |ui.conns.positions|
    ensures r.selected == Some(i) && r.conns == ui.conns
  {
    ui.(selected := Some(i))
  }

  /** `onKeyDown`: 'c' edit mode, Backspace/Clear schedules deletion of the selection, Escape cancels. */
  function OnKeyDown<C>(ui: Ui<C>, key: string): (r: Ui<C>)
    ensures key == "Escape" ==>
      r.conns == ui.conns.(dangling := None) && !r.editing && r.selected.None? && r.cableToDelete == ui.cableToDelete
    ensures (key == "Backspace" || key == "Clear") ==>
      r.conns == ui.conns && r.editing == ui.editing && r.selected.None?
      && r.cableToDelete == (if ui.selected.Some? then ui.selected else ui.cableToDelete)
    ensures key == "c" ==>
      r == ui.(editing := forall i :: 0 <= i < |ui.conns.positions| ==> Complete(ui.conns.positions[i]))
    ensures key !in {"c", "Backspace", "Clear", "Escape"} ==> r == ui
  {
    if key == "c" then
      ui.(editing := !(exists i :: 0 <= i < |ui.conns.positions| && !Complete(ui.conns.positions[i])))
    else if key == "z" then
      ui  // cable opacity toggle: drawing only
    else if key == "Backspace" || key == "Clear" then
      if ui.selected.None? then ui else ui.(selected := None, cableToDelete := ui.selected)
    else if key == "Escape" then
      ui.(editing := false, selected := None, conns := ui.conns.(dangling := None))
    else ui
  }

  /** What the delete effect did: new UI state, `onDisconnect` callbacks run, graph calls made. */
  datatype Deletion<C> = Deletion(ui: Ui<C>, calls: seq<C>, ops: seq<GraphOp>)

  /**
   * The delete effect. Indexing a missing entry throws in the source, so the
   * scheduled index must name a committed cable.
   */
  function DeleteEffect<C>(ui: Ui<C>): (r: Deletion<C>)
    requires ui.cableToDelete.Some? ==> ui.cableToDelete.value < |ui.conns.positions|
    ensures ui.cableToDelete.None? ==> r == Deletion(ui, [], [])
    ensures r.ui.cableToDelete.None?
    ensures r.ui.conns.dangling == ui.conns.dangling && r.ui.conns.toConnect == ui.conns.toConnect
    ensures r.ui.editing == ui.editing && r.ui.selected == ui.selected
    ensures ui.cableToDelete.Some? ==>
      var k := ui.cableToDelete.value;
      var h := ui.conns.positions[k];
      && r.ui.conns.positions == RemoveAt(ui.conns.positions, k)
      && (Complete(h) ==> r.calls == [h.input.value.onDisconnect, h.output.value.onDisconnect])
      && (Complete(h) ==> r.ops == (if Connectable(h.input.value.node) then [Disconnect(h.input.value.node, h.output.value.node)] else []))
  {
    match ui.cableToDelete
    case None => Deletion(ui, [], [])
    case Some(k) =>
      var h := ui.conns.positions[k];
      var calls := (if h.input.Some? then [h.input.value.onDisconnect] else [])
        + (if h.output.Some? then [h.output.value.onDisconnect] else []);
      var ops := if Complete(h) && Connectable(h.input.value.node)
        then [Disconnect(h.input.value.node, h.output.value.node)] else [];
      var positions := ui.conns.positions[..k] + ui.conns.positions[k + 1..];
      Deletion(ui.(cableToDelete := None, conns := ui.conns.(positions := positions)), calls, ops)
  }
}

=== FILE: connector_props.dfy ===
/**
 * Invariants of the hook-based cable manager over whole sessions: committed
 * cables stay complete and pairwise distinct, at most one half dangles, and
 * the audio graph the manager built always equals the set of committed
 * cables whose source can `connect`.
 */
module ConnectorProperties {
  import opened Wrappers
  import opened AudioGraph
  import opened Wiring
  import opened Connector

  /** The graph edges the committed cables account for. */
  function Wired<C>(ps: seq<Half<C>>): set<(Node, Node)> {
    set i | 0 <= i < |ps| && Complete(ps[i]) && Connectable(ps[i].input.value.node) :: PairOf(ps[i])
  }

  lemma WiredAppend<C>(ps: seq<Half<C>>, h: Half<C>)
    requires Complete(h)
    ensures Wired(ps + [h]) == Wired(ps) + (if Connectable(h.input.value.node) then {PairOf(h)} else {})
  {
    var qs := ps + [h];
    assert forall i :: 0 <= i < |ps| ==> qs[i] == ps[i];
    forall e | e in Wired(qs) ensures e in Wired(ps) + (if Connectable(h.input.value.node) then {PairOf(h)} else {}) {
      var i :| 0 <= i < |qs| && Complete(qs[i]) && Connectable(qs[i].input.value.node) && PairOf(qs[i]) == e;
      if i < |ps| {
        assert e in Wired(ps);
      }
    }
    forall e | e in Wired(ps) ensures e in Wired(qs) {
      var i :| 0 <= i < |ps| && Complete(ps[i]) && Connectable(ps[i].input.value.node) && PairOf(ps[i]) == e;
      assert qs[i] == ps[i];
    }
    if Connectable(h.input.value.node) {
      assert qs[|ps|] == h;
      assert PairOf(h) in Wired(qs);
    }
  }

  lemma WiredRemove<C>(ps: seq<Half<C>>, k: nat)
    requires k < |ps| && Complete(ps[k]) && NoDuplicatePairs(ps)
    ensures Wired(RemoveAt(ps, k)) == Wired(ps) - (if Connectable(ps[k].input.value.node) then {PairOf(ps[k])} else {})
  {
    var qs := RemoveAt(ps, k);
    var gone := if Connectable(ps[k].input.value.node) then {PairOf(ps[k])} else {};
    forall e | e in Wired(qs) ensures e in Wired(ps) - gone {
      var i :| 0 <= i < |qs| && Complete(qs[i]) && Connectable(qs[i].input.value.node) && PairOf(qs[i]) == e;
      var j := if i < k then i else i + 1;
      assert qs[i] == ps[j] && j != k;
      assert e in Wired(ps);
      if j < k {
        assert PairOf(ps[j]) != PairOf(ps[k]);
      } else {
        assert PairOf(ps[k]) != PairOf(ps[j]);
      }
    }
    forall e | e in Wired(ps) - gone ensures e in Wired(qs) {
      var j :| 0 <= j < |ps| && Complete(ps[j]) && Connectable(ps[j].input.value.node) && PairOf(ps[j]) == e;
      assert j != k;
      var i := if j < k then j else j - 1;
      assert qs[i] == ps[j];
    }
  }

  /** Everything a session keeps true of the manager and the graph it built. */
  predicate Consistent<C>(ui: Ui<C>, edges: Edges) {
    && Valid(ui.conns)
    && NoDuplicatePairs(ui.conns.positions)
    && edges == Wired(ui.conns.positions)
  }

  /**
   * A jack click keeps the manager consistent with the graph: a first click
   * makes no graph call, and a completing click connects exactly the new
   * cable's source to its destination without ever committing a pair twice.
   */
  lemma {:induction false} ClickKeepsConsistent<C>(ui: Ui<C>, edges: Edges, c: Click<C>)
    requires WellFormedClick(c) && Consistent(ui, edges)
    ensures Consistent(Request(ui, c).0, Apply(edges, Request(ui, c).1))
  {
    var s := ui.conns;
    var r := ConnectUpdate(s, c);
    if r.accepted && s.dangling.Some? {
      var d := s.dangling.value;
      var m := Merge(d, NewSide(c));
      DuplicateMeansSamePair(m, d, c);
      var ps := r.state.positions;
      assert ps == s.positions + [m];
      forall i, j | 0 <= i < j < |ps| && Complete(ps[i]) && Complete(ps[j]) ensures PairOf(ps[i]) != PairOf(ps[j]) {
        if j == |s.positions| {
          assert ps[i] == s.positions[i];
          DuplicateMeansSamePair(s.positions[i], d, c);
          assert !DuplicateOf(s.positions[i], d, c);
        } else {
          assert ps[i] == s.positions[i] && ps[j] == s.positions[j];
        }
      }
      WiredAppend(s.positions, m);
      assert ps[|s.positions|] == m;
      if Connectable(m.input.value.node) {
        assert Apply(edges, r.ops) == Apply(edges + {PairOf(m)}, []);
      } else {
        assert r.ops == [];
      }
    }
  }

  /**
   * Deleting committed cable `k` keeps the manager consistent: the graph
   * loses exactly that cable's edge, because no other cable joins the same
   * pair.
   */
  lemma {:induction false} DeleteKeepsConsistent<C>(ui: Ui<C>, edges: Edges)
    requires Consistent(ui, edges)
    requires ui.cableToDelete.Some? ==> ui.cableToDelete.value < |ui.conns.positions|
    ensures Consistent(DeleteEffect(ui).ui, Apply(edges, DeleteEffect(ui).ops))
  {
    if ui.cableToDelete.Some? {
      var k := ui.cableToDelete.value;
      var ps := ui.conns.positions;
      var qs := RemoveAt(ps, k);
      var h := ps[k];
      assert Complete(h);
      WiredRemove(ps, k);
      forall i, j | 0 <= i < j < |qs| && Complete(qs[i]) && Complete(qs[j]) ensures PairOf(qs[i]) != PairOf(qs[j]) {
        var i' := if i < k then i else i + 1;
        var j' := if j < k then j else j + 1;
        assert qs[i] == ps[i'] && qs[j] == ps[j'] && i' < j';
      }
      if Connectable(h.input.value.node) {
        assert Apply(edges, DeleteEffect(ui).ops) == Apply(edges - {PairOf(h)}, []);
      }
    }
  }

  /** The user and effect events the manager reacts to. */
  datatype Event<C> =
    | JackClick(click: Click<C>)
    | KeyDown(key: string)
    | CableClick(index: nat)
    | DeleteRuns
    | FlushRuns

  /** An event the component can receive in this state. */
  predicate Enabled<C>(ui: Ui<C>, e: Event<C>) {
    match e
    case JackClick(c) => WellFormedClick(c)
    case CableClick(i) => i < |ui.conns.positions|
    case DeleteRuns => ui.cableToDelete.Some? ==> ui.cableToDelete.value < |ui.conns.positions|
    case _ => true
  }

  /** One event: the new UI state and the graph calls it made. */
  function Handle<C>(ui: Ui<C>, e: Event<C>): (Ui<C>, seq<GraphOp>)
    requires Enabled(ui, e)
  {
    match e
    case JackClick(c) => Request(ui, c)
    case KeyDown(key) => (OnKeyDown(ui, key), [])
    case CableClick(i) => (SelectCable(ui, i), [])
    case DeleteRuns => var d := DeleteEffect(ui); (d.ui, d.ops)
    case FlushRuns => (ui.(conns := Flush(ui.conns).0), [])
  }

  lemma {:induction false} HandleKeepsConsistent<C>(ui: Ui<C>, edges: Edges, e: Event<C>)
    requires Consistent(ui, edges) && Enabled(ui, e)
    ensures Consistent(Handle(ui, e).0, Apply(edges, Handle(ui, e).1))
  {
    match e
    case JackClick(c) => ClickKeepsConsistent(ui, edges, c);
    case KeyDown(key) =>
    case CableClick(i) =>
    case DeleteRuns => DeleteKeepsConsistent(ui, edges);
    case FlushRuns =>
  }

  /**
   * A session: the events are handled in turn, and the run ends at the first
   * event that is not `Enabled` (a malformed jack click, a click on a cable
   * that is not drawn, or a deletion effect whose index the source would
   * throw on), so the rest of the list is ignored.
   */
  function Run<C>(ui: Ui<C>, edges: Edges, events: seq<Event<C>>): (Ui<C>, Edges)
    decreases |events|
  {
    if |events| == 0 || !Enabled(ui, events[0]) then (ui, edges)
    else
      var h := Handle(ui, events[0]);
      var ui', ops := h.0, h.1;
      Run(ui', Apply(edges, ops), events[1..])
  }

  /**
   * For every session, up to its first event that is not `Enabled`: every committed cable is
   * complete, at most one half dangles, no pair is committed twice, and the
   * graph holds exactly the committed cables' edges.
   */
  lemma {:induction false} SessionStaysConsistent<C>(ui: Ui<C>, edges: Edges, events: seq<Event<C>>)
    requires Consistent(ui, edges)
    ensures Consistent(Run(ui, edges, events).0, Run(ui, edges, events).1)
    decreases |events|
  {
    if |events| > 0 && Enabled(ui, events[0]) {
      HandleKeepsConsistent(ui, edges, events[0]);
      var h := Handle(ui, events[0]);
      var ui', ops := h.0, h.1;
      SessionStaysConsistent(ui', Apply(edges, ops), events[1..]);
    }
  }

  /** In this revision 'c' always turns editing on, even while a half dangles. */
  lemma EditKeyIgnoresDangling<C>(ui: Ui<C>)
    requires Valid(ui.conns)
    ensures OnKeyDown(ui, "c").editing
  {
  }

  /**
   * Backspace on a selected cable followed by the delete effect calls both
   * sides' `onDisconnect` once, removes exactly that cable and keeps the
   * dangling half and the callback queue.
   */
  lemma BackspaceDeletesSelected<C>(ui: Ui<C>, key: string)
    requires Valid(ui.conns) && (key == "Backspace" || key == "Clear")
    requires ui.selected.Some? && ui.selected.value < |ui.conns.positions|
    ensures
      var h := ui.conns.positions[ui.selected.value];
      var d := DeleteEffect(OnKeyDown(ui, key));
      && d.calls == [h.input.value.onDisconnect, h.output.value.onDisconnect]
      && d.ui.conns == ui.conns.(positions := RemoveAt(ui.conns.positions, ui.selected.value))
      && d.ui.selected.None? && d.ui.cableToDelete.None?
  {
  }
}

=== FILE: gate_node.dfy ===
/**
 * `GateNode`: a pseudo audio node carrying an on/off value. It keeps a list
 * of destinations without duplicates, and `setValue` stores the value,
 * reports it through its callback and forwards it to every connected gate.
 * Gates are identified by number; a network is each gate's connection list
 * together with each gate's value.
 */
module GateNode {
  import opened Wrappers

  /** A destination: another gate, or any other audio node. */
  datatype Target = ToGate(gate: nat) | ToNode(node: nat)

  /** What `connect`/`disconnect` may be given. */
  datatype Arg = Dest(target: Target) | Param(param: nat) | Number(n: int) | Undefined

  datatype Gate = Gate(value: real, connections: seq<Target>)

  /** The constructor: value 0, no connections. */
  function New(): (g: Gate)
    ensures g.value == 0.0 && |g.connections| == 0
  {
    Gate(0.0, [])
  }

  predicate NoDuplicates(ts: seq<Target>) {
    forall i, j :: 0 <= i < j < |ts| ==> ts[i] != ts[j]
  }

  /** `connect`: parameters are ignored; a node already connected is not added again; the node is returned. */
  function Connect(g: Gate, a: Arg): (r: (Gate, Option<Target>))
    ensures a.Param? ==> r == (g, None)
    ensures a.Dest? ==> a.target in r.0.connections && r.1 == Some(a.target)
    ensures a.Dest? && a.target !in g.connections ==> r.0.connections == g.connections + [a.target]
    ensures forall t :: t in r.0.connections <==> t in g.connections || (a.Dest? && t == a.target)
    ensures NoDuplicates(g.connections) ==> NoDuplicates(r.0.connections)
    ensures r.0.value == g.value
  {
    match a
    case Dest(t) => (if t in g.connections then g else g.(connections := g.connections + [t]), Some(t))
    case _ => (g, None)
  }

  /** The first position of `t` (`indexOf`). */
  function IndexOf(ts: seq<Target>, t: Target): (i: nat)
    requires t in ts
    ensures i < |ts| && ts[i] == t && t !in ts[..i]
  {
    if ts[0] == t then 0 else 1 + IndexOf(ts[1..], t)
  }

  /** `disconnect`: `undefined`, numbers and parameters are ignored; a connected node loses its one entry. */
  function Disconnect(g: Gate, a: Arg): (r: Gate)
    ensures !a.Dest? || a.target !in g.connections ==> r == g
    ensures a.Dest? && a.target in g.connections ==>
      var i := IndexOf(g.connections, a.target);
      r.connections == g.connections[..i] + g.connections[i + 1..] && r.value == g.value
  {
    match a
    case Dest(t) =>
      if t in g.connections then
        var i := IndexOf(g.connections, t);
        g.(connections := g.connections[..i] + g.connections[i + 1..])
      else g
    case _ => g
  }

  /** With no duplicates, `disconnect` removes the node altogether and keeps the list duplicate-free. */
  lemma DisconnectRemoves(g: Gate, t: Target)
    requires NoDuplicates(g.connections)
    ensures var r := Disconnect(g, Dest(t));
      && t !in r.connections
      && NoDuplicates(r.connections)
      && forall u :: u != t ==> (u in r.connections <==> u in g.connections)
  {
    if t in g.connections {
      var i := IndexOf(g.connections, t);
      var cs := g.connections;
      var r := cs[..i] + cs[i + 1..];
      assert forall k :: 0 <= k < |r| ==> r[k] == (if k < i then cs[k] else cs[k + 1]);
      forall u | u in cs && u != t
        ensures u in r
      {
        var k :| 0 <= k < |cs| && cs[k] == u;
        if k < i { assert r[k] == u; } else { assert r[k - 1] == u; }
      }
    }
  }

  /** Connecting a new node and disconnecting it restores the gate. */
  lemma ConnectThenDisconnect(g: Gate, t: Target)
    requires t !in g.connections
    ensures Disconnect(Connect(g, Dest(t)).0, Dest(t)) == g
  {
    var cs := g.connections + [t];
    assert IndexOf(cs, t) == |g.connections|;
    assert cs[..|g.connections|] == g.connections;
  }

  /** Connecting twice is connecting once. */
  lemma ConnectIdempotent(g: Gate, a: Arg)
    ensures Connect(Connect(g, a).0, a) == Connect(g, a)
  {
  }

  /** Each gate's connection list, by gate number. */
  type Wiring = map<nat, seq<Target>>

  /** The gates a gate's list names, in list order (the `instanceof GateNode` filter). */
  function GateTargets(ts: seq<Target>): (r: seq<nat>)
    ensures forall x :: x in r <==> ToGate(x) in ts
  {
    if |ts| == 0 then []
    else
      var rest := GateTargets(ts[1..]);
      assert forall u :: u in ts <==> u == ts[0] || u in ts[1..];
      if ts[0].ToGate? then [ts[0].gate] + rest else rest
  }

  /**
   * A rank on gates that strictly decreases along every gate-to-gate
   * connection: the network has no cycle through gates. Without one,
   * `setValue` recurses forever.
   */
  predicate Ranked(w: Wiring, rank: map<nat, nat>) {
    forall a :: a in w ==> a in rank && forall x :: x in GateTargets(w[a]) ==> x in w && x in rank && rank[x] < rank[a]
  }

  /** One callback invocation: the gate, the value, the time, and the cancel flag. */
  datatype Report = Report(gate: nat, value: real, time: real, cancel: bool)

  /**
   * `setValue(value, time, cancelScheduled)` on gate `id`: store the value,
   * report it, then call `setValue` on each connected gate in list order.
   * Returns the gates' values afterwards and the reports in call order.
   */
  function SetValue(w: Wiring, rank: map<nat, nat>, values: map<nat, real>, id: nat, value: real, time: real, cancel: bool)
    : (r: (map<nat, real>, seq<Report>))
    requires Ranked(w, rank) && id in w
    ensures |r.1| > 0 && r.1[0] == Report(id, value, time, cancel)
    decreases rank[id], 1
  {
    var each := SetEach(w, rank, values[id := value], GateTargets(w[id]), rank[id], value, time, cancel);
    (each.0, [Report(id, value, time, cancel)] + each.1)
  }

  /** The `forEach` over the connected gates. */
  function SetEach(w: Wiring, rank: map<nat, nat>, values: map<nat, real>, ids: seq<nat>, bound: nat, value: real, time: real, cancel: bool)
    : (r: (map<nat, real>, seq<Report>))
    requires Ranked(w, rank)
    requires forall x :: x in ids ==> x in w && rank[x] < bound
    decreases bound, 0, |ids|
  {
    if |ids| == 0 then (values, [])
    else
      var first := SetValue(w, rank, values, ids[0], value, time, cancel);
      var rest := SetEach(w, rank, first.0, ids[1..], bound, value, time, cancel);
      (rest.0, first.1 + rest.1)
  }

  /** The gates `setValue` reaches from `id`, depth first: itself, then each connected gate's own walk. */
  function Visits(w: Wiring, rank: map<nat, nat>, id: nat): (r: seq<nat>)
    requires Ranked(w, rank) && id in w
    ensures |r| > 0 && r[0] == id
    ensures forall x :: x in r ==> x in w
    decreases rank[id], 1
  {
    [id] + VisitsEach(w, rank, GateTargets(w[id]), rank[id])
  }

  function VisitsEach(w: Wiring, rank: map<nat, nat>, ids: seq<nat>, bound: nat): (r: seq<nat>)
    requires Ranked(w, rank)
    requires forall x :: x in ids ==> x in w && rank[x] < bound
    ensures forall x :: x in r ==> x in w
    ensures forall x :: x in ids ==> x in r
    decreases bound, 0, |ids|
  {
    if |ids| == 0 then []
    else
      var r := Visits(w, rank, ids[0]) + VisitsEach(w, rank, ids[1..], bound);
      assert forall x :: x in ids ==> x == ids[0] || x in ids[1..];
      r
  }

  /** `values` after every gate in `xs` took `value`. */
  ghost predicate Assigned(before: map<nat, real>, after: map<nat, real>, xs: seq<nat>, value: real) {
    && (forall x :: x in after <==> x in before || x in xs)
    && (forall x :: x in after ==> after[x] == if x in xs then value else before[x])
  }

  function Reports(xs: seq<nat>, value: real, time: real, cancel: bool): (r: seq<Report>)
    ensures |r| == |xs| && forall i :: 0 <= i < |xs| ==> r[i] == Report(xs[i], value, time, cancel)
  {
    seq(|xs|, i requires 0 <= i < |xs| => Report(xs[i], value, time, cancel))
  }

  /**
   * The recursion amounts to a depth-first walk: every gate on the walk
   * takes the value (a gate reached along two paths is set twice, to the
   * same value), the others keep theirs, and there is one report per visit
   * in walk order.
   */
  lemma {:induction false} SetValueWalks(w: Wiring, rank: map<nat, nat>, values: map<nat, real>, id: nat, value: real, time: real, cancel: bool)
    requires Ranked(w, rank) && id in w
    ensures var r := SetValue(w, rank, values, id, value, time, cancel);
      && Assigned(values, r.0, Visits(w, rank, id), value)
      && r.1 == Reports(Visits(w, rank, id), value, time, cancel)
    decreases rank[id], 1
  {
    var ids := GateTargets(w[id]);
    TargetsBelow(w, rank, id);
    var stored := values[id := value];
    var each := SetEach(w, rank, stored, ids, rank[id], value, time, cancel);
    SetEachWalks(w, rank, stored, ids, rank[id], value, time, cancel);
    WalkStep(values, each.0, each.1, id, VisitsEach(w, rank, ids, rank[id]), value, time, cancel);
  }

  /** Storing at `id` and then walking `rest` is walking `[id] + rest`. */
  lemma WalkStep(values: map<nat, real>, vs: map<nat, real>, reports: seq<Report>, id: nat, rest: seq<nat>, value: real, time: real, cancel: bool)
    requires Assigned(values[id := value], vs, rest, value)
    requires reports == Reports(rest, value, time, cancel)
    ensures Assigned(values, vs, [id] + rest, value)
    ensures [Report(id, value, time, cancel)] + reports == Reports([id] + rest, value, time, cancel)
  {
    StoreAssigned(values, id, value);
    AssignedConcat(values, values[id := value], vs, [id], rest, value);
    ReportsConcat([id], rest, value, time, cancel);
  }

  lemma {:induction false} SetEachWalks(w: Wiring, rank: map<nat, nat>, values: map<nat, real>, ids: seq<nat>, bound: nat, value: real, time: real, cancel: bool)
    requires Ranked(w, rank)
    requires forall x :: x in ids ==> x in w && rank[x] < bound
    ensures var r := SetEach(w, rank, values, ids, bound, value, time, cancel);
      && Assigned(values, r.0, VisitsEach(w, rank, ids, bound), value)
      && r.1 == Reports(VisitsEach(w, rank, ids, bound), value, time, cancel)
    decreases bound, 0, |ids|
  {
    if |ids| > 0 {
      var first := SetValue(w, rank, values, ids[0], value, time, cancel);
      SetValueWalks(w, rank, values, ids[0], value, time, cancel);
      SetEachWalks(w, rank, first.0, ids[1..], bound, value, time, cancel);
      var rest := SetEach(w, rank, first.0, ids[1..], bound, value, time, cancel);
      var a := Visits(w, rank, ids[0]);
      var b := VisitsEach(w, rank, ids[1..], bound);
      assert VisitsEach(w, rank, ids, bound) == a + b;
      assert SetEach(w, rank, values, ids, bound, value, time, cancel) == (rest.0, first.1 + rest.1);
      AssignedConcat(values, first.0, rest.0, a, b, value);
      ReportsConcat(a, b, value, time, cancel);
    }
  }

  lemma AssignedConcat(before: map<nat, real>, mid: map<nat, real>, after: map<nat, real>, a: seq<nat>, b: seq<nat>, value: real)
    requires Assigned(before, mid, a, value) && Assigned(mid, after, b, value)
    ensures Assigned(before, after, a + b, value)
  {
    forall x
      ensures x in a + b <==> x in a || x in b
    {
    }
  }

  lemma TargetsBelow(w: Wiring, rank: map<nat, nat>, id: nat)
    requires Ranked(w, rank) && id in w
    ensures id in rank && forall x :: x in GateTargets(w[id]) ==> x in w && rank[x] < rank[id]
  {
  }

  lemma StoreAssigned(values: map<nat, real>, id: nat, value: real)
    ensures Assigned(values, values[id := value], [id], value)
  {
  }

  lemma ReportsConcat(a: seq<nat>, b: seq<nat>, value: real, time: real, cancel: bool)
    ensures Reports(a + b, value, time, cancel) == Reports(a, value, time, cancel) + Reports(b, value, time, cancel)
  {
  }

  /** `getValue` after `setValue` returns the value set, on the gate itself and on every gate connected to it. */
  lemma SetThenGet(w: Wiring, rank: map<nat, nat>, values: map<nat, real>, id: nat, value: real, time: real, cancel: bool, x: nat)
    requires Ranked(w, rank) && id in w
    requires x == id || ToGate(x) in w[id]
    ensures var vs := SetValue(w, rank, values, id, value, time, cancel).0; x in vs && vs[x] == value
  {
    SetValueWalks(w, rank, values, id, value, time, cancel);
    if x != id {
      assert x in GateTargets(w[id]);
      assert x in VisitsEach(w, rank, GateTargets(w[id]), rank[id]);
    }
  }

  /** The default arguments: value 1, the context's current time, no cancellation. */
  function Defaults(value: Option<real>, time: Option<real>, cancel: Option<bool>, currentTime: real): (r: (real, real, bool))
    ensures value.Some? ==> r.0 == value.value
    ensures value.None? ==> r.0 == 1.0
    ensures time.Some? ==> r.1 == time.value
    ensures time.None? ==> r.1 == currentTime
    ensures cancel.Some? ==> r.2 == cancel.value
    ensures cancel.None? ==> !r.2
  {
    (if value.Some? then value.value else 1.0,
     if time.Some? then time.value else currentTime,
     if cancel.Some? then cancel.value else false)
  }

  /** Propagation is transitive: whatever a visited gate reaches is reached from the start. */
  lemma {:induction false} VisitsTransitive(w: Wiring, rank: map<nat, nat>, id: nat, x: nat, y: nat)
    requires Ranked(w, rank) && id in w
    requires x in Visits(w, rank, id) && y in Visits(w, rank, x)
    ensures y in Visits(w, rank, id)
    decreases rank[id]
  {
    if x != id {
      var ids := GateTargets(w[id]);
      var z := EachVisitor(w, rank, ids, rank[id], x);
      VisitsTransitive(w, rank, z, x, y);
      EachContains(w, rank, ids, rank[id], z, y);
    }
  }

  /** A gate in a walk over several starting gates lies on the walk of one of them. */
  lemma {:induction false} EachVisitor(w: Wiring, rank: map<nat, nat>, ids: seq<nat>, bound: nat, x: nat) returns (z: nat)
    requires Ranked(w, rank)
    requires forall i :: i in ids ==> i in w && rank[i] < bound
    requires x in VisitsEach(w, rank, ids, bound)
    ensures z in ids && x in Visits(w, rank, z)
    decreases |ids|
  {
    if x in Visits(w, rank, ids[0]) {
      z := ids[0];
    } else {
      z := EachVisitor(w, rank, ids[1..], bound, x);
    }
  }

  /** A walk over several starting gates contains each starting gate's whole walk. */
  lemma {:induction false} EachContains(w: Wiring, rank: map<nat, nat>, ids: seq<nat>, bound: nat, z: nat, y: nat)
    requires Ranked(w, rank)
    requires forall i :: i in ids ==> i in w && rank[i] < bound
    requires z in ids && y in Visits(w, rank, z)
    ensures y in VisitsEach(w, rank, ids, bound)
    decreases |ids|
  {
    if ids[0] != z {
      assert z in ids[1..];
      EachContains(w, rank, ids[1..], bound, z, y);
    }
  }
}

=== FILE: jack_plug.dfy ===
/**
 * A patch jack: the per-jack connection counter the cable manager drives
 * through two callbacks, the click handler that hands the jack's node(s) to
 * the manager, and the preset registration of that handler. Both revisions
 * (hook-based and class-based) use the same counter rule.
 */
module JackPlug {
  import opened Wrappers
  import opened AudioGraph
  import opened Wiring
  import Preset

  /** The two callbacks a jack passes with each click, tagged with the jack they update. */
  datatype Callback = OnConnect(jack: nat) | OnDisconnect(jack: nat)

  /**
   * A jack as rendered: its identity, label (`name`), and the node it offers as the
   * `input` (signal source) and/or `output` (destination) prop.
   */
  datatype Jack = Jack(id: nat, name: string, input: Option<Node>, output: Option<Node>)

  /** The props type demands at least one of the two nodes. */
  predicate WellFormed(j: Jack) {
    j.input.Some? || j.output.Some?
  }

  /** The per-jack counters of a whole patch; a jack never touched reads 0 (its initial state). */
  type Counts = map<nat, int>

  function Count(m: Counts, jack: nat): int {
    if jack in m then m[jack] else 0
  }

  /** The `onConnect` updater. */
  function Connected(n: int): int {
    n + 1
  }

  /** The `onDisconnect` updater, floored at zero with `Math.max`. */
  function Disconnected(n: int): int {
    if 0 > n - 1 then 0 else n - 1
  }

  /** The plug is drawn plugged in. */
  predicate Plugged(n: int) {
    n > 0
  }

  /** Running one callback updates only the jack it is tagged with. */
  function RunCallback(m: Counts, c: Callback): (r: Counts)
    ensures forall j :: j != c.jack ==> Count(r, j) == Count(m, j)
    ensures c.OnConnect? ==> Count(r, c.jack) == Count(m, c.jack) + 1
    ensures c.OnDisconnect? ==> Count(r, c.jack) >= 0 && Count(r, c.jack) >= Count(m, c.jack) - 1
    ensures c.OnDisconnect? && Count(m, c.jack) > 0 ==> Count(r, c.jack) == Count(m, c.jack) - 1
  {
    match c
    case OnConnect(j) => m[j := Connected(Count(m, j))]
    case OnDisconnect(j) => m[j := Disconnected(Count(m, j))]
  }

  /** Running callbacks in order, as the cable manager's effects do. */
  function RunCallbacks(m: Counts, calls: seq<Callback>): (r: Counts)
    ensures forall j :: (forall i :: 0 <= i < |calls| ==> calls[i].jack != j) ==> Count(r, j) == Count(m, j)
    decreases |calls|
  {
    if |calls| == 0 then m else RunCallbacks(RunCallback(m, calls[0]), calls[1..])
  }

  /** A counter that starts non-negative stays non-negative whatever callbacks run. */
  lemma {:induction false} CountNeverNegative(m: Counts, calls: seq<Callback>, j: nat)
    requires Count(m, j) >= 0
    ensures Count(RunCallbacks(m, calls), j) >= 0
    decreases |calls|
  {
    if |calls| > 0 {
      CountNeverNegative(RunCallback(m, calls[0]), calls[1..], j);
    }
  }

  /** A disconnect undoes a connect, and on a plugged jack a connect undoes a disconnect. */
  lemma ConnectDisconnectInverse(m: Counts, j: nat)
    requires Count(m, j) >= 0
    ensures Count(RunCallbacks(m, [OnConnect(j), OnDisconnect(j)]), j) == Count(m, j)
    ensures Plugged(Count(m, j)) ==> Count(RunCallbacks(m, [OnDisconnect(j), OnConnect(j)]), j) == Count(m, j)
  {
    var a := RunCallback(m, OnConnect(j));
    assert RunCallbacks(m, [OnConnect(j), OnDisconnect(j)]) == RunCallbacks(a, [OnDisconnect(j)]);
    var b := RunCallback(m, OnDisconnect(j));
    assert RunCallbacks(m, [OnDisconnect(j), OnConnect(j)]) == RunCallbacks(b, [OnConnect(j)]);
  }

  /** A connect always leaves the jack drawn plugged; a disconnect unplugs it exactly when it was its last cable. */
  lemma PluggedAfterCallback(m: Counts, j: nat)
    requires Count(m, j) >= 0
    ensures Plugged(Count(RunCallback(m, OnConnect(j)), j))
    ensures Plugged(Count(RunCallback(m, OnDisconnect(j)), j)) <==> Count(m, j) > 1
  {
  }

  /**
   * `createConnection` of the hook-based jack: nothing when the plug element
   * is not mounted, otherwise one call of the connector with the jack's own
   * `input` and `output` unchanged and its two counter callbacks.
   */
  function CreateConnection(mounted: bool, jack: Jack, pos: Position): (r: Option<Click<Callback>>)
    ensures r.Some? <==> mounted
    ensures r.Some? ==>
      && r.value.input == jack.input && r.value.output == jack.output && r.value.pos == pos
      && r.value.onConnect == OnConnect(jack.id) && r.value.onDisconnect == OnDisconnect(jack.id)
    ensures r.Some? && WellFormed(jack) ==> WellFormedClick(r.value)
  {
    if !mounted then None
    else Some(Click(jack.input, jack.output, pos, OnConnect(jack.id), OnDisconnect(jack.id)))
  }

  /**
   * `onMouseDown` of the class-based jack: the same connector call, made
   * unconditionally (the class reads its plug element without a guard).
   */
  function LegacyMouseDown(jack: Jack, pos: Position): (r: Click<Callback>)
    ensures Some(r) == CreateConnection(true, jack, pos)
  {
    Click(jack.input, jack.output, pos, OnConnect(jack.id), OnDisconnect(jack.id))
  }

  /** What a mounted jack registers in its preset scope: its label (`name`), bound to its click handler. */
  function Registration<Cb>(jack: Jack, handler: Cb): (r: map<string, Cb>)
    ensures r.Keys == {jack.name} && r[jack.name] == handler
  {
    map[jack.name := handler]
  }

  /** What the jack deregisters on cleanup. */
  function RegisteredKeys(jack: Jack): (r: seq<string>)
    ensures forall k :: k in r <==> k in Registration(jack, 0)
  {
    [jack.name]
  }

  /**
   * Mounting a jack under preset instance `i` and unmounting it restores the
   * registry, provided the root held no entry under the jack's full name.
   */
  lemma MountThenUnmount<Cb>(ps: seq<Preset.Instance<Cb>>, i: nat, jack: Jack, handler: Cb)
    requires Preset.Chain(ps) && i < |ps|
    requires Preset.FullName(Preset.Ids(ps[..i + 1]), jack.name) !in ps[0].registrations
    ensures Preset.DeregisterVia(Preset.RegisterVia(ps, i, Registration(jack, handler)), i, RegisteredKeys(jack)) == ps
  {
    Preset.RegisterThenDeregister(ps, i, Registration(jack, handler), RegisteredKeys(jack));
  }
}

=== FILE: keymap.dfy ===
/**
 * The computer-keyboard layout of the keyboard module and its voice modes.
 * A key map is an ordered list of (key, semitone) pairs, semitone 0 being
 * A4; the object's property order is the list order.
 */
module Keymap {
  import opened Wrappers

  type Layout = seq<(string, int)>

  /** `keymap` of the hook-based keyboard: the home row and the row above it, two octaves minus a bit. */
  function KeyMap(): (r: Layout)
    ensures |r| == 18 && r[9] == ("h", 0)
    ensures forall i :: 0 <= i < |r| ==> |r[i].0| == 1 && r[i].1 == i - 9
  {
    Spelled("awsedftgyhujkolp;'", -9)
  }

  /** `keymap` of the class-based keyboard: the same layout without the `'` key. */
  function LegacyKeyMap(): (r: Layout)
    ensures |r| == 17 && r == KeyMap()[..17]
  {
    Spelled("awsedftgyhujkolp;", -9)
  }

  /** `keymap[key]`: the semitone of the first pair with that key, `undefined` if none. */
  function Lookup(layout: Layout, key: string): (r: Option<int>)
    ensures r.Some? <==> exists i :: 0 <= i < |layout| && layout[i].0 == key
    ensures r.Some? ==> exists i :: 0 <= i < |layout| && layout[i] == (key, r.value)
  {
    if |layout| == 0 then None
    else if layout[0].0 == key then Some(layout[0].1)
    else
      var r := Lookup(layout[1..], key);
      assert forall i :: 0 < i < |layout| ==> layout[i] == layout[1..][i - 1];
      r
  }

  /** `isMappedKey`: the key is one of the layout's property names. */
  predicate IsMappedKey(layout: Layout, key: string) {
    exists i :: 0 <= i < |layout| && layout[i].0 == key
  }

  /** A layout whose keys are distinct and whose semitones run up by one from `low`. */
  predicate Chromatic(layout: Layout, low: int) {
    && (forall i :: 0 <= i < |layout| ==> layout[i].1 == low + i)
    && (forall i, j :: 0 <= i < j < |layout| ==> layout[i].0 != layout[j].0)
  }

  /** In a chromatic layout, the lookup is a bijection between its keys and the semitones it covers. */
  lemma {:induction false} ChromaticLookup(layout: Layout, low: int, i: nat)
    requires Chromatic(layout, low) && i < |layout|
    ensures Lookup(layout, layout[i].0) == Some(low + i)
    decreases i
  {
    if i > 0 {
      var rest := layout[1..];
      assert Chromatic(rest, low + 1) by {
        assert forall k :: 0 <= k < |rest| ==> rest[k] == layout[k + 1];
      }
      assert layout[0].0 != layout[i].0;
      ChromaticLookup(rest, low + 1, i - 1);
      assert rest[i - 1] == layout[i];
    }
  }

  /** A layout of one-character keys read from a string, the semitones counting up from `low`. */
  function Spelled(chars: string, low: int): (r: Layout)
    ensures |r| == |chars|
    ensures forall i :: 0 <= i < |chars| ==> r[i] == ([chars[i]], low + i)
  {
    seq(|chars|, i requires 0 <= i < |chars| => ([chars[i]], low + i))
  }

  /** Distinct characters spell a chromatic layout. */
  lemma SpelledChromatic(chars: string, low: int)
    requires forall i, j :: 0 <= i < j < |chars| ==> chars[i] != chars[j]
    ensures Chromatic(Spelled(chars, low), low)
  {
    var r := Spelled(chars, low);
    forall i, j | 0 <= i < j < |r|
      ensures r[i].0 != r[j].0
    {
      assert r[i].0[0] == chars[i] && r[j].0[0] == chars[j];
    }
  }

  /** Neither layout maps the space bar, which releases every note instead. */
  lemma SpaceUnmapped()
    ensures !IsMappedKey(KeyMap(), " ") && !IsMappedKey(LegacyKeyMap(), " ")
  {
    var chars := "awsedftgyhujkolp;'";
    assert forall i :: 0 <= i < |chars| ==> chars[i] != ' ';
    assert forall i :: 0 <= i < 18 ==> KeyMap()[i].0[0] == chars[i];
    assert forall i :: 0 <= i < 17 ==> LegacyKeyMap()[i].0[0] == chars[i];
  }

  lemma DistinctKeys()
    ensures var chars := "awsedftgyhujkolp;'"; forall i, j :: 0 <= i < j < |chars| ==> chars[i] != chars[j]
  {
    var chars := "awsedftgyhujkolp;'";
    forall i | 0 <= i < |chars|
      ensures forall j :: i < j < |chars| ==> chars[i] != chars[j]
    {
    }
  }

  /** The hook-based layout: 18 distinct keys onto the contiguous semitones -9..8, `h` being 0. */
  lemma KeysLayout()
    ensures |KeyMap()| == 18 && Chromatic(KeyMap(), -9)
    ensures forall s :: -9 <= s <= 8 ==> Lookup(KeyMap(), KeyMap()[s + 9].0) == Some(s)
    ensures KeyMap()[9].0 == "h"
    ensures !IsMappedKey(KeyMap(), " ")
  {
    var chars := "awsedftgyhujkolp;'";
    DistinctKeys();
    SpelledChromatic(chars, -9);
    forall s | -9 <= s <= 8
      ensures Lookup(KeyMap(), KeyMap()[s + 9].0) == Some(s)
    {
      ChromaticLookup(KeyMap(), -9, s + 9);
    }
    assert forall i :: 0 <= i < 18 ==> KeyMap()[i].0[0] == chars[i] != ' ';
  }

  /** The class-based layout: 17 distinct keys onto -9..7, and no `'` key. */
  lemma LegacyKeysLayout()
    ensures |LegacyKeyMap()| == 17 && Chromatic(LegacyKeyMap(), -9)
    ensures LegacyKeyMap() == KeyMap()[..17]
    ensures !IsMappedKey(LegacyKeyMap(), "'") && !IsMappedKey(LegacyKeyMap(), " ")
    ensures forall s :: -9 <= s <= 7 ==> Lookup(LegacyKeyMap(), LegacyKeyMap()[s + 9].0) == Some(s)
  {
    var chars := "awsedftgyhujkolp;";
    DistinctKeys();
    assert forall i :: 0 <= i < |chars| ==> chars[i] == "awsedftgyhujkolp;'"[i];
    SpelledChromatic(chars, -9);
    forall s | -9 <= s <= 7
      ensures Lookup(LegacyKeyMap(), LegacyKeyMap()[s + 9].0) == Some(s)
    {
      ChromaticLookup(LegacyKeyMap(), -9, s + 9);
    }
    assert forall i :: 0 <= i < 17 ==> LegacyKeyMap()[i].0[0] == chars[i] != '\'' && chars[i] != ' ';
  }

  /** `String.prototype.toLowerCase` on the ASCII letters; every other character is kept. */
  function Lower(s: string): (r: string)
    ensures |r| == |s|
    ensures forall i :: 0 <= i < |s| ==> ('A' <= s[i] <= 'Z' <==> r[i] != s[i])
    ensures forall i :: 0 <= i < |s| && 'A' <= s[i] <= 'Z' ==> r[i] as int == s[i] as int + 32
  {
    if |s| == 0 then []
    else
      var c := if 'A' <= s[0] <= 'Z' then (s[0] as int + 32) as char else s[0];
      [c] + Lower(s[1..])
  }

  /** The three voice modes; `types[type]`, any other index taking the `default` (mono) branch. */
  datatype Mode = Mono | Chord | Poly

  function Types(): seq<string> {
    ["mono", "chord", "poly"]
  }

  function ModeOf(index: int): (r: Mode)
    ensures 0 <= index < |Types()| && Types()[index] == "chord" <==> r == Chord
    ensures 0 <= index < |Types()| && Types()[index] == "poly" <==> r == Poly
  {
    if index == 1 then Chord else if index == 2 then Poly else Mono
  }
}

=== FILE: legacy_connector.dfy ===
/**
 * The class-based revision of the cable manager. It keeps one list of
 * connection records: committed cables, and, as the LAST record, the
 * dangling half-connection if there is one. `setState` updaters become pure
 * functions; each `setState` completion callback becomes a second function
 * that returns the callbacks it runs and the graph calls it makes.
 */
module LegacyConnector {
  import opened Wrappers
  import opened AudioGraph
  import opened Wiring

  /** A record of `connectionPositions`: the sides plus the two bookkeeping flags. */
  datatype Entry<C> = Entry(half: Half<C>, handled: bool, toDelete: bool)

  /** `selected` is the index of a drawn cable, or `null`. */
  datatype State<C> = State(entries: seq<Entry<C>>, editing: bool, failed: bool, selected: Option<nat>)

  /** What a completion callback did: the state it left, the jack callbacks it ran, the graph calls it made. */
  datatype Effect<C> = Effect(state: State<C>, calls: seq<C>, ops: seq<GraphOp>)

  function Initial<C>(): (s: State<C>)
    ensures Valid(s)
  {
    State([], false, false, None)
  }

  /** `connectionPositions.slice(-1)[0] || {}`: the last record, or the empty record. */
  function LastEntry<C>(es: seq<Entry<C>>): Entry<C> {
    if |es| == 0 then Entry(Half(None, None), false, false) else es[|es| - 1]
  }

  /** The list shape: every record but the last is complete; the last is complete or a dangling half; no flag is stale. */
  predicate Valid<C>(s: State<C>) {
    var es := s.entries;
    && (forall i :: 0 <= i < |es| - 1 ==> Complete(es[i].half))
    && (|es| > 0 ==> Complete(es[|es| - 1].half) || Partial(es[|es| - 1].half))
    && (forall i :: 0 <= i < |es| ==> !es[i].toDelete && es[i].handled == Complete(es[i].half))
    && (forall i, j :: 0 <= i < j < |es| && Complete(es[i].half) && Complete(es[j].half) ==> PairOf(es[i].half) != PairOf(es[j].half))
  }

  /** Records not yet complete (at most the last one, in a valid state). */
  predicate HasIncomplete<C>(es: seq<Entry<C>>) {
    exists i :: 0 <= i < |es| && !Complete(es[i].half)
  }

  /**
   * The `onConnect` updater. `lastConnection === {}` compares object
   * identities and is never true, so on an empty list the click goes down
   * the completing path and merges into the empty record.
   */
  function Update<C>(s: State<C>, c: Click<C>): (r: State<C>)
    requires WellFormedClick(c)
    ensures
      var last := LastEntry(s.entries).half;
      var rejected := !Complete(last) && (SameRole(last, c) || exists i :: 0 <= i < |s.entries| && DuplicateOf(s.entries[i].half, last, c));
      && (rejected ==> r == s.(failed := true))
      && (!rejected ==> !r.failed && r.selected.None? && r.editing == s.editing)
      && (!rejected && Complete(last) ==> r.entries == s.entries + [Entry(NewSide(c), false, false)])
      && (!rejected && !Complete(last) && |s.entries| > 0 ==>
            r.entries == s.entries[..|s.entries| - 1] + [LastEntry(s.entries).(half := Merge(last, NewSide(c)))])
      && (|s.entries| == 0 ==> r.entries == [Entry(NewSide(c), false, false)])
  {
    var lastEntry := LastEntry(s.entries);
    var last := lastEntry.half;
    var isNewConnection := Complete(last);
    if !isNewConnection && (SameRole(last, c) || exists i :: 0 <= i < |s.entries| && DuplicateOf(s.entries[i].half, last, c)) then
      s.(failed := true)
    else
      var newConnection := NewSide(c);
      var entries := if isNewConnection then s.entries + [Entry(newConnection, false, false)]
        else s.entries[..if |s.entries| == 0 then 0 else |s.entries| - 1] + [lastEntry.(half := Merge(last, newConnection))];
      s.(entries := entries, failed := false, selected := None)
  }

  /** `handled` becomes completeness, record by record. */
  function MarkHandled<C>(es: seq<Entry<C>>): (r: seq<Entry<C>>)
    ensures |r| == |es| && forall i :: 0 <= i < |es| ==> r[i] == es[i].(handled := Complete(es[i].half))
  {
    seq(|es|, i requires 0 <= i < |es| => es[i].(handled := Complete(es[i].half)))
  }

  /**
   * The completion callback of `onConnect`: nothing after a rejection;
   * otherwise the `onConnect` of each side of the last record that the
   * click itself offered, a `connect` when the last record is complete, and
   * `handled` refreshed.
   */
  function AfterConnect<C>(s: State<C>, c: Click<C>): (r: Effect<C>)
    ensures s.failed ==> r == Effect(s, [], [])
    ensures !s.failed ==>
      var last := LastEntry(s.entries).half;
      && r.state == s.(entries := MarkHandled(s.entries))
      && r.calls == (if c.input.Some? && last.input.Some? then [last.input.value.onConnect] else [])
                    + (if c.output.Some? && last.output.Some? then [last.output.value.onConnect] else [])
      && (Complete(last) ==> r.ops == [Connect(last.input.value.node, last.output.value.node)])
      && (!Complete(last) ==> r.ops == [])
  {
    if s.failed then Effect(s, [], [])
    else
      var last := LastEntry(s.entries).half;
      var calls := (if c.input.Some? && last.input.Some? then [last.input.value.onConnect] else [])
        + (if c.output.Some? && last.output.Some? then [last.output.value.onConnect] else []);
      var ops := if Complete(last) then [Connect(last.input.value.node, last.output.value.node)] else [];
      Effect(s.(entries := MarkHandled(s.entries)), calls, ops)
  }

  /**
   * A jack click: the updater, then its completion callback. A rejected
   * click only raises the failure flag; an accepted one runs the clicked
   * jack's `onConnect` first and makes at most one graph call, a `connect`.
   */
  function OnConnect<C>(s: State<C>, c: Click<C>): (r: Effect<C>)
    requires WellFormedClick(c)
    ensures r.state.editing == s.editing
    ensures |r.ops| <= 1 && forall i :: 0 <= i < |r.ops| ==> r.ops[i].Connect?
    ensures var last := LastEntry(s.entries).half;
      !Complete(last) && SameRole(last, c) ==> r == Effect(s.(failed := true), [], [])
    ensures r.state.failed ==> r.calls == [] && r.ops == []
    ensures !r.state.failed ==> 1 <= |r.calls| <= 2 && r.calls[0] == c.onConnect && r.state.selected.None?
    ensures |s.entries| == 0 ==> r.state.entries == [Entry(NewSide(c), false, false)] && r.ops == []
  {
    AfterConnect(Update(s, c), c)
  }

  /** Records flagged for deletion, in list order. */
  function Marked<C>(es: seq<Entry<C>>): seq<Entry<C>> {
    if |es| == 0 then [] else (if es[0].toDelete then [es[0]] else []) + Marked(es[1..])
  }

  /** Records kept by `filter(connection => !connection.toDelete)`. */
  function Kept<C>(es: seq<Entry<C>>): (r: seq<Entry<C>>)
    ensures |r| <= |es|
    ensures forall i :: 0 <= i < |r| ==> !r[i].toDelete
  {
    if |es| == 0 then [] else (if es[0].toDelete then [] else [es[0]]) + Kept(es[1..])
  }

  /** The `onDisconnect` callbacks of the present sides of `es`, record by record. */
  function Unplug<C>(es: seq<Entry<C>>): seq<C> {
    if |es| == 0 then []
    else
      var h := es[0].half;
      (if h.input.Some? then [h.input.value.onDisconnect] else [])
      + (if h.output.Some? then [h.output.value.onDisconnect] else [])
      + Unplug(es[1..])
  }

  /** The graph calls `deleteConnections` makes as written: it `connect`s each complete deleted cable again. */
  function Rewire<C>(es: seq<Entry<C>>): (r: seq<GraphOp>)
    ensures |r| <= |es|
    ensures forall i :: 0 <= i < |r| ==> r[i].Connect?
  {
    if |es| == 0 then []
    else
      var h := es[0].half;
      (if Complete(h) then [Connect(h.input.value.node, h.output.value.node)] else []) + Rewire(es[1..])
  }

  /** The graph calls a `deleteConnections` tearing down the deleted cables makes. */
  function Unwire<C>(es: seq<Entry<C>>): (r: seq<GraphOp>)
    ensures |r| <= |es|
    ensures forall i :: 0 <= i < |r| ==> r[i].Disconnect?
  {
    if |es| == 0 then []
    else
      var h := es[0].half;
      (if Complete(h) then [Disconnect(h.input.value.node, h.output.value.node)] else []) + Unwire(es[1..])
  }

  /** `deleteConnections` exactly as written (calls `connect` where `disconnect` is meant). */
  function DeleteConnectionsAsWritten<C>(s: State<C>): (r: Effect<C>)
    ensures r.state == s.(entries := Kept(s.entries))
    ensures r.calls == Unplug(Marked(s.entries)) && r.ops == Rewire(Marked(s.entries))
  {
    Effect(s.(entries := Kept(s.entries)), Unplug(Marked(s.entries)), Rewire(Marked(s.entries)))
  }

  /** `deleteConnections` with the deleted cables disconnected; the model's key handling uses this one. */
  function DeleteConnections<C>(s: State<C>): (r: Effect<C>)
    ensures r.state == s.(entries := Kept(s.entries))
    ensures r.calls == Unplug(Marked(s.entries)) && r.ops == Unwire(Marked(s.entries))
  {
    Effect(s.(entries := Kept(s.entries)), Unplug(Marked(s.entries)), Unwire(Marked(s.entries)))
  }

  /** Flag record `k` for deletion by rebuilding the list around it; past the end this appends a bare flagged record. */
  function MarkSelected<C>(es: seq<Entry<C>>, k: nat): (r: seq<Entry<C>>)
    ensures k < |es| ==> |r| == |es| && r[k] == es[k].(toDelete := true)
    ensures k < |es| ==> forall i :: 0 <= i < |es| && i != k ==> r[i] == es[i]
    ensures k >= |es| ==> r == es + [Entry(Half(None, None), false, true)]
  {
    var at := if k < |es| then es[k] else Entry(Half(None, None), false, false);
    es[..if k < |es| then k else |es|] + [at.(toDelete := true)] + es[if k + 1 < |es| then k + 1 else |es|..]
  }

  /** Escape's updater: every incomplete record is flagged, every complete one unflagged. */
  function MarkIncomplete<C>(es: seq<Entry<C>>): (r: seq<Entry<C>>)
    ensures |r| == |es| && forall i :: 0 <= i < |es| ==> r[i] == es[i].(toDelete := !Complete(es[i].half))
  {
    seq(|es|, i requires 0 <= i < |es| => es[i].(toDelete := !Complete(es[i].half)))
  }

  /** Backspace and Clear's updater: flag the selected record, if any, and clear the selection (`undefined` leaves the state alone). */
  function BackspaceMarks<C>(s: State<C>): State<C> {
    if s.selected.Some? then s.(entries := MarkSelected(s.entries, s.selected.value), selected := None) else s
  }

  /** Escape's updater: leave edit mode, flag the incomplete records, clear the selection. */
  function EscapeMarks<C>(s: State<C>): State<C> {
    s.(editing := false, entries := MarkIncomplete(s.entries), selected := None)
  }

  /**
   * Backspace and Clear with the corrected deletion callback: the selection
   * is cleared, no record stays flagged, and the graph is only disconnected.
   */
  function Backspace<C>(s: State<C>): (r: Effect<C>)
    ensures r.state.selected.None? && r.state.editing == s.editing
    ensures forall i :: 0 <= i < |r.state.entries| ==> !r.state.entries[i].toDelete
    ensures forall i :: 0 <= i < |r.ops| ==> r.ops[i].Disconnect?
  {
    DeleteConnections(BackspaceMarks(s))
  }

  /**
   * Escape with the corrected deletion callback: edit mode ends, the
   * selection is cleared, and only complete records remain.
   */
  function Escape<C>(s: State<C>): (r: Effect<C>)
    ensures !r.state.editing && r.state.selected.None?
    ensures forall i :: 0 <= i < |r.state.entries| ==> Complete(r.state.entries[i].half) && !r.state.entries[i].toDelete
    ensures forall i :: 0 <= i < |r.ops| ==> r.ops[i].Disconnect?
  {
    var marked := EscapeMarks(s);
    KeptFrom(marked.entries);
    DeleteConnections(marked)
  }

  /** What the filter keeps are records of the list. */
  lemma {:induction false} KeptFrom<C>(es: seq<Entry<C>>)
    ensures forall i :: 0 <= i < |Kept(es)| ==> Kept(es)[i] in es
    decreases |es|
  {
    if |es| > 0 {
      KeptFrom(es[1..]);
      var rest := Kept(es[1..]);
      assert Kept(es) == (if es[0].toDelete then [] else [es[0]]) + rest;
      forall i | 0 <= i < |Kept(es)| ensures Kept(es)[i] in es {
        if !es[0].toDelete && i > 0 {
          assert Kept(es)[i] == rest[i - 1];
        } else if es[0].toDelete {
          assert Kept(es)[i] == rest[i];
        }
      }
    }
  }

  /** `onKeyDown` with its updaters and, for Backspace/Clear/Escape, the corrected deletion callback. */
  function OnKeyDown<C>(s: State<C>, key: string): (r: Effect<C>)
    ensures key !in {"c", "Backspace", "Clear", "Escape"} ==> r == Effect(s, [], [])
    ensures key == "c" ==> r.calls == [] && r.ops == [] && r.state.entries == s.entries
    ensures key == "c" ==> (r.state.editing <==> s.editing || !HasIncomplete(s.entries))
    ensures key == "Backspace" || key == "Clear" ==> r.state.selected.None? && r.state.editing == s.editing
    ensures key == "Escape" ==> r.state.selected.None? && !r.state.editing
    ensures key in {"Backspace", "Clear", "Escape"} ==> forall i :: 0 <= i < |r.state.entries| ==> !r.state.entries[i].toDelete
  {
    if key == "c" then
      Effect(if HasIncomplete(s.entries) then s else s.(editing := true), [], [])
    else if key == "Backspace" || key == "Clear" then Backspace(s)
    else if key == "Escape" then Escape(s)
    else Effect(s, [], [])
  }

  /**
   * `onKeyDown` exactly as written: the same updates and jack callbacks,
   * with a deletion callback that `connect`s each deleted cable's nodes.
   */
  function OnKeyDownAsWritten<C>(s: State<C>, key: string): (r: Effect<C>)
    ensures r.state == OnKeyDown(s, key).state && r.calls == OnKeyDown(s, key).calls
    ensures forall i :: 0 <= i < |r.ops| ==> r.ops[i].Connect?
  {
    if key == "Backspace" || key == "Clear" then
      RewireConnects(Marked(BackspaceMarks(s).entries));
      DeleteConnectionsAsWritten(BackspaceMarks(s))
    else if key == "Escape" then
      RewireConnects(Marked(EscapeMarks(s).entries));
      DeleteConnectionsAsWritten(EscapeMarks(s))
    else OnKeyDown(s, key)
  }

  /** The calls of the as-written deletion are all `connect`s. */
  lemma {:induction false} RewireConnects<C>(es: seq<Entry<C>>)
    ensures forall i :: 0 <= i < |Rewire(es)| ==> Rewire(es)[i].Connect?
    decreases |es|
  {
    if |es| > 0 {
      RewireConnects(es[1..]);
    }
  }

  /** The cables of a list are those of its first record and those of the rest. */
  lemma WiredCons<C>(es: seq<Entry<C>>)
    requires |es| > 0
    ensures Wired(es) == (if Complete(es[0].half) then {PairOf(es[0].half)} else {}) + Wired(es[1..])
  {
    var rest := es[1..];
    forall x | x in Wired(es) ensures x in (if Complete(es[0].half) then {PairOf(es[0].half)} else {}) + Wired(rest) {
      var i :| 0 <= i < |es| && Complete(es[i].half) && PairOf(es[i].half) == x;
      if i > 0 {
        assert rest[i - 1] == es[i];
      }
    }
    forall x | x in Wired(rest) ensures x in Wired(es) {
      var i :| 0 <= i < |rest| && Complete(rest[i].half) && PairOf(rest[i].half) == x;
      assert es[i + 1] == rest[i];
    }
  }

  /** As written, the deletion puts back the edge of every deleted cable: the graph only gains. */
  lemma {:induction false} RewireAdds<C>(edges: Edges, es: seq<Entry<C>>)
    ensures Apply(edges, Rewire(es)) == edges + Wired(es)
    decreases |es|
  {
    if |es| == 0 {
      assert Wired(es) == {};
    } else {
      var h := es[0].half;
      WiredCons(es);
      var rest := Rewire(es[1..]);
      if Complete(h) {
        var op := Connect(h.input.value.node, h.output.value.node);
        assert Rewire(es) == [op] + rest;
        assert ([op] + rest)[1..] == rest;
        RewireAdds(edges + {PairOf(h)}, es[1..]);
      } else {
        assert Rewire(es) == rest;
        RewireAdds(edges, es[1..]);
      }
    }
  }

  /** The corrected deletion takes out the edge of every deleted cable and nothing else. */
  lemma {:induction false} UnwireRemoves<C>(edges: Edges, es: seq<Entry<C>>)
    ensures Apply(edges, Unwire(es)) == edges - Wired(es)
    decreases |es|
  {
    if |es| == 0 {
      assert Wired(es) == {};
    } else {
      var h := es[0].half;
      WiredCons(es);
      var rest := Unwire(es[1..]);
      if Complete(h) {
        var op := Disconnect(h.input.value.node, h.output.value.node);
        assert Unwire(es) == [op] + rest;
        assert ([op] + rest)[1..] == rest;
        UnwireRemoves(edges - {PairOf(h)}, es[1..]);
      } else {
        assert Unwire(es) == rest;
        UnwireRemoves(edges, es[1..]);
      }
    }
  }

  /** The calls of the corrected deletion are all `disconnect`s. */
  lemma {:induction false} UnwireDisconnects<C>(es: seq<Entry<C>>)
    ensures forall i :: 0 <= i < |Unwire(es)| ==> Unwire(es)[i].Disconnect?
    decreases |es|
  {
    if |es| > 0 {
      UnwireDisconnects(es[1..]);
    }
  }

  // ---------------------------------------------------------------------
  // Filtering lemmas

  lemma SweepConcat<C>(a: seq<Entry<C>>, b: seq<Entry<C>>)
    ensures Kept(a + b) == Kept(a) + Kept(b)
    ensures Marked(a + b) == Marked(a) + Marked(b)
  {
    KeptConcat(a, b);
    MarkedConcat(a, b);
  }

  lemma {:induction false} KeptConcat<C>(a: seq<Entry<C>>, b: seq<Entry<C>>)
    ensures Kept(a + b) == Kept(a) + Kept(b)
    decreases |a|
  {
    if |a| == 0 {
      assert a + b == b;
    } else {
      assert (a + b)[0] == a[0] && (a + b)[1..] == a[1..] + b;
      KeptConcat(a[1..], b);
    }
  }

  lemma {:induction false} MarkedConcat<C>(a: seq<Entry<C>>, b: seq<Entry<C>>)
    ensures Marked(a + b) == Marked(a) + Marked(b)
    decreases |a|
  {
    if |a| == 0 {
      assert a + b == b;
    } else {
      assert (a + b)[0] == a[0] && (a + b)[1..] == a[1..] + b;
      MarkedConcat(a[1..], b);
    }
  }

  lemma {:induction false} SweepUnflagged<C>(es: seq<Entry<C>>)
    requires forall i :: 0 <= i < |es| ==> !es[i].toDelete
    ensures Kept(es) == es && Marked(es) == []
    decreases |es|
  {
    if |es| > 0 {
      SweepUnflagged(es[1..]);
    }
  }

  lemma SweepOne<C>(e: Entry<C>)
    requires e.toDelete
    ensures Kept([e]) == [] && Marked([e]) == [e]
    ensures Unplug([e]) == (if e.half.input.Some? then [e.half.input.value.onDisconnect] else [])
                           + (if e.half.output.Some? then [e.half.output.value.onDisconnect] else [])
    ensures Unwire([e]) == (if Complete(e.half) then [Disconnect(e.half.input.value.node, e.half.output.value.node)] else [])
    ensures Rewire([e]) == (if Complete(e.half) then [Connect(e.half.input.value.node, e.half.output.value.node)] else [])
  {
    assert [e][1..] == [];
  }

  /** Backspace's rebuild flags exactly the selected record, or appends a bare flagged one past the end. */
  lemma SweepSelected<C>(es: seq<Entry<C>>, k: nat)
    requires forall i :: 0 <= i < |es| ==> !es[i].toDelete
    ensures k < |es| ==> Kept(MarkSelected(es, k)) == RemoveAt(es, k) && Marked(MarkSelected(es, k)) == [es[k].(toDelete := true)]
    ensures k >= |es| ==> Kept(MarkSelected(es, k)) == es && Marked(MarkSelected(es, k)) == [Entry(Half(None, None), false, true)]
  {
    if k < |es| {
      SweepSelectedWithin(es, k);
    } else {
      var e: Entry<C> := Entry(Half(None, None), false, true);
      assert MarkSelected(es, k) == es + [e];
      SweepConcat(es, [e]);
      SweepUnflagged(es);
      SweepFlagged(e);
    }
  }

  lemma SweepFlagged<C>(e: Entry<C>)
    requires e.toDelete
    ensures Kept([e]) == [] && Marked([e]) == [e]
  {
    assert [e][1..] == [];
  }

  lemma SweepSelectedWithin<C>(es: seq<Entry<C>>, k: nat)
    requires forall i :: 0 <= i < |es| ==> !es[i].toDelete
    requires k < |es|
    ensures Kept(MarkSelected(es, k)) == RemoveAt(es, k) && Marked(MarkSelected(es, k)) == [es[k].(toDelete := true)]
  {
    var e := es[k].(toDelete := true);
    var pre, post := es[..k], es[k + 1..];
    assert MarkSelected(es, k) == (pre + [e]) + post;
    assert forall i :: 0 <= i < |post| ==> !post[i].toDelete by {
      assert forall i :: 0 <= i < |post| ==> post[i] == es[k + 1 + i];
    }
    SweepAround(pre, e, post);
  }

  /** One flagged record between unflagged ones: the sweep keeps the others and deletes it. */
  lemma SweepAround<C>(pre: seq<Entry<C>>, e: Entry<C>, post: seq<Entry<C>>)
    requires forall i :: 0 <= i < |pre| ==> !pre[i].toDelete
    requires forall i :: 0 <= i < |post| ==> !post[i].toDelete
    requires e.toDelete
    ensures Kept((pre + [e]) + post) == pre + post && Marked((pre + [e]) + post) == [e]
  {
    var front := pre + [e];
    SweepUnflagged(pre);
    SweepUnflagged(post);
    SweepFlagged(e);
    KeptConcat(pre, [e]);
    assert Kept(front) == pre by {
      assert pre + [] == pre;
    }
    KeptConcat(front, post);
    MarkedConcat(pre, [e]);
    assert Marked(front) == [e];
    MarkedConcat(front, post);
    assert [e] + [] == [e];
  }

  /** Escape's update flags exactly the dangling last record of a valid list. */
  lemma SweepEscape<C>(s: State<C>)
    requires Valid(s)
    ensures var es := s.entries; var n := |es| - 1;
      && (|es| > 0 && !Complete(es[n].half) ==>
            Kept(MarkIncomplete(es)) == es[..n] && Marked(MarkIncomplete(es)) == [es[n].(toDelete := true)])
      && (|es| == 0 || Complete(es[n].half) ==> Kept(MarkIncomplete(es)) == es && Marked(MarkIncomplete(es)) == [])
  {
    var es := s.entries;
    var marked := MarkIncomplete(es);
    if |es| > 0 && !Complete(es[|es| - 1].half) {
      var n := |es| - 1;
      assert marked == es[..n] + [es[n].(toDelete := true)];
      SweepConcat(es[..n], [es[n].(toDelete := true)]);
      SweepUnflagged(es[..n]);
      SweepOne(es[n].(toDelete := true));
    } else {
      assert marked == es;
      SweepUnflagged(es);
    }
  }

  // ---------------------------------------------------------------------
  // Properties

  /** The `onConnect` state machine keeps the list shape: only the last record may dangle. */
  lemma OnConnectKeepsValid<C>(s: State<C>, c: Click<C>)
    requires Valid(s) && WellFormedClick(c)
    ensures Valid(OnConnect(s, c).state)
  {
    var u := Update(s, c);
    var r := OnConnect(s, c);
    var es := s.entries;
    var last := LastEntry(es).half;
    if u.failed {
      assert r.state == u && u.entries == es;
    } else {
      assert r.state == u.(entries := MarkHandled(u.entries));
      var e := Entry(NewSide(c), false, false);
      if |es| == 0 {
        assert u.entries == es + [e];
        AppendKeepsValid(s, e, r.state);
      } else if Complete(last) {
        AppendKeepsValid(s, e, r.state);
      } else {
        var m := MergedPair(s, c);
        MergeKeepsValid(s, m, r.state);
      }
    }
  }

  /**
   * A successful click on a dangling record completes it into a pair no
   * committed cable already has.
   */
  lemma MergedPair<C>(s: State<C>, c: Click<C>) returns (m: Half<C>)
    requires Valid(s) && WellFormedClick(c) && !Update(s, c).failed
    requires |s.entries| > 0 && !Complete(LastEntry(s.entries).half)
    ensures m == Merge(LastEntry(s.entries).half, NewSide(c)) && Complete(m)
    ensures Update(s, c).entries == s.entries[..|s.entries| - 1] + [s.entries[|s.entries| - 1].(half := m)]
    ensures forall i :: 0 <= i < |s.entries| - 1 && Complete(s.entries[i].half) ==> PairOf(s.entries[i].half) != PairOf(m)
  {
    var es := s.entries;
    var last := LastEntry(es).half;
    m := Merge(last, NewSide(c));
    DuplicateMeansSamePair(es[0].half, last, c);
    forall i | 0 <= i < |es| - 1 && Complete(es[i].half)
      ensures PairOf(es[i].half) != PairOf(m)
    {
      DuplicateMeansSamePair(es[i].half, last, c);
    }
  }

  /** Appending a dangling record after committed ones and refreshing `handled` keeps the list shape. */
  lemma AppendKeepsValid<C>(s: State<C>, e: Entry<C>, t: State<C>)
    requires Valid(s) && (|s.entries| == 0 || Complete(s.entries[|s.entries| - 1].half))
    requires Partial(e.half) && !e.toDelete
    requires t.entries == MarkHandled(s.entries + [e])
    ensures Valid(t)
  {
    var es := s.entries;
    assert forall i :: 0 <= i < |es| ==> t.entries[i] == es[i];
    assert t.entries[|es|] == e.(handled := false);
  }

  /** Completing the dangling record into a fresh pair and refreshing `handled` keeps the list shape. */
  lemma MergeKeepsValid<C>(s: State<C>, m: Half<C>, t: State<C>)
    requires Valid(s) && |s.entries| > 0 && Complete(m)
    requires forall i :: 0 <= i < |s.entries| - 1 && Complete(s.entries[i].half) ==> PairOf(s.entries[i].half) != PairOf(m)
    requires t.entries == MarkHandled(s.entries[..|s.entries| - 1] + [s.entries[|s.entries| - 1].(half := m)])
    ensures Valid(t)
  {
    var es := s.entries;
    var n := |es| - 1;
    assert |t.entries| == |es|;
    assert forall i :: 0 <= i < n ==> t.entries[i] == es[i];
    assert t.entries[n] == Entry(m, true, false);
    forall i, j | 0 <= i < j < |es| && Complete(t.entries[i].half) && Complete(t.entries[j].half)
      ensures PairOf(t.entries[i].half) != PairOf(t.entries[j].half)
    {
      if j < n {
        assert t.entries[i] == es[i] && t.entries[j] == es[j];
      }
    }
  }

  /** A click offering the role the dangling record already has only raises the failure flag. */
  lemma SameRoleOnlyFails<C>(s: State<C>, c: Click<C>)
    requires Valid(s) && WellFormedClick(c) && |s.entries| > 0
    requires Partial(s.entries[|s.entries| - 1].half) && SameRole(s.entries[|s.entries| - 1].half, c)
    ensures OnConnect(s, c) == Effect(s.(failed := true), [], [])
  {
  }

  /**
   * A successful click by a jack offering one node runs only that jack's
   * `onConnect`, and connects nodes exactly when it completes the dangling
   * record; the record it completes is then committed as a cable.
   */
  lemma SuccessfulClick<C>(s: State<C>, c: Click<C>)
    requires Valid(s) && WellFormedClick(c) && (c.input.None? || c.output.None?)
    requires !Update(s, c).failed
    ensures OnConnect(s, c).calls == [c.onConnect]
    ensures var last := LastEntry(s.entries).half;
      (|s.entries| > 0 && !Complete(last)) <==> |OnConnect(s, c).ops| == 1
    ensures |s.entries| > 0 && !Complete(LastEntry(s.entries).half) ==>
      var m := Merge(LastEntry(s.entries).half, NewSide(c));
      && OnConnect(s, c).ops == [Connect(m.input.value.node, m.output.value.node)]
      && OnConnect(s, c).state.entries == s.entries[..|s.entries| - 1] + [Entry(m, true, false)]
  {
    var es := s.entries;
    var last := LastEntry(es).half;
    if |es| > 0 && !Complete(last) {
      DuplicateMeansSamePair(es[0].half, last, c);
      var u := Update(s, c);
      assert u.entries == es[..|es| - 1] + [LastEntry(es).(half := Merge(last, NewSide(c)))];
      assert MarkHandled(u.entries) == es[..|es| - 1] + [Entry(Merge(last, NewSide(c)), true, false)];
    }
  }

  /** The 'c' key turns editing on exactly when no record dangles; it never turns it off. */
  lemma EditKey<C>(s: State<C>)
    ensures OnKeyDown(s, "c").state.editing <==> s.editing || !HasIncomplete(s.entries)
    ensures OnKeyDown(s, "c").state.entries == s.entries
  {
  }

  /**
   * Backspace with a selected cable: that record alone is removed, both of
   * its sides' `onDisconnect` run once, and its edge is torn down. An
   * out-of-range selection only clears the selection.
   */
  lemma BackspaceDeletesSelected<C>(s: State<C>, key: string)
    requires Valid(s) && (key == "Backspace" || key == "Clear") && s.selected.Some?
    ensures var k := s.selected.value; var r := OnKeyDown(s, key);
      && r.state.selected.None? && r.state.editing == s.editing
      && (k < |s.entries| ==>
            var h := s.entries[k].half;
            && r.state.entries == RemoveAt(s.entries, k)
            && r.calls == (if h.input.Some? then [h.input.value.onDisconnect] else [])
                          + (if h.output.Some? then [h.output.value.onDisconnect] else [])
            && r.ops == (if Complete(h) then [Disconnect(h.input.value.node, h.output.value.node)] else []))
      && (k >= |s.entries| ==> r.state.entries == s.entries && r.calls == [] && r.ops == [])
  {
    assert OnKeyDown(s, key) == Backspace(s);
    if s.selected.value < |s.entries| {
      BackspaceWithin(s);
    } else {
      BackspaceBeyond(s);
    }
  }

  lemma BackspaceWithin<C>(s: State<C>)
    requires Valid(s) && s.selected.Some? && s.selected.value < |s.entries|
    ensures var k := s.selected.value; var r := Backspace(s); var h := s.entries[k].half;
      && r.state == s.(entries := RemoveAt(s.entries, k), selected := None)
      && r.calls == (if h.input.Some? then [h.input.value.onDisconnect] else [])
                    + (if h.output.Some? then [h.output.value.onDisconnect] else [])
      && r.ops == (if Complete(h) then [Disconnect(h.input.value.node, h.output.value.node)] else [])
  {
    var k := s.selected.value;
    var e := s.entries[k].(toDelete := true);
    var marked := s.(entries := MarkSelected(s.entries, k), selected := None);
    assert Backspace(s) == DeleteConnections(marked);
    SweepSelectedWithin(s.entries, k);
    assert Marked(marked.entries) == [e];
    DeletesOne(Backspace(s), e);
  }

  /** The deletion of one flagged record, in terms of its two sides. */
  lemma DeletesOne<C>(r: Effect<C>, e: Entry<C>)
    requires e.toDelete && r.calls == Unplug([e]) && r.ops == Unwire([e])
    ensures r.calls == (if e.half.input.Some? then [e.half.input.value.onDisconnect] else [])
                       + (if e.half.output.Some? then [e.half.output.value.onDisconnect] else [])
    ensures r.ops == (if Complete(e.half) then [Disconnect(e.half.input.value.node, e.half.output.value.node)] else [])
  {
    SweepOne(e);
  }

  lemma BackspaceBeyond<C>(s: State<C>)
    requires Valid(s) && s.selected.Some? && s.selected.value >= |s.entries|
    ensures Backspace(s) == Effect(s.(selected := None), [], [])
  {
    SweepSelected(s.entries, s.selected.value);
    SweepOne<C>(Entry(Half(None, None), false, true));
  }

  lemma BackspaceUnselected<C>(s: State<C>)
    requires Valid(s) && s.selected.None?
    ensures Backspace(s) == Effect(s, [], [])
  {
    SweepUnflagged(s.entries);
  }

  /**
   * Escape removes the dangling record, if any, running its one side's
   * `onDisconnect`, and leaves every committed cable and the graph alone.
   */
  lemma EscapeDropsDangling<C>(s: State<C>)
    requires Valid(s)
    ensures var r := OnKeyDown(s, "Escape"); var es := s.entries;
      && !r.state.editing && r.state.selected.None? && r.ops == []
      && (|es| > 0 && !Complete(es[|es| - 1].half) ==>
            var h := es[|es| - 1].half;
            && r.state.entries == es[..|es| - 1]
            && r.calls == (if h.input.Some? then [h.input.value.onDisconnect] else [h.output.value.onDisconnect]))
      && (|es| == 0 || Complete(es[|es| - 1].half) ==> r.state.entries == es && r.calls == [])
  {
    assert OnKeyDown(s, "Escape") == Escape(s);
    var es := s.entries;
    if |es| > 0 && !Complete(es[|es| - 1].half) {
      EscapeDangling(s);
    } else {
      EscapeClean(s);
    }
  }

  lemma EscapeDangling<C>(s: State<C>)
    requires Valid(s) && |s.entries| > 0 && !Complete(s.entries[|s.entries| - 1].half)
    ensures var es := s.entries; var h := es[|es| - 1].half; var r := Escape(s);
      && r.state == s.(editing := false, entries := es[..|es| - 1], selected := None)
      && r.calls == (if h.input.Some? then [h.input.value.onDisconnect] else [h.output.value.onDisconnect])
      && r.ops == []
  {
    SweepEscape(s);
    var es := s.entries;
    SweepOne(es[|es| - 1].(toDelete := true));
  }

  lemma EscapeClean<C>(s: State<C>)
    requires Valid(s) && (|s.entries| == 0 || Complete(s.entries[|s.entries| - 1].half))
    ensures Escape(s) == Effect(s.(editing := false, selected := None), [], [])
  {
    SweepEscape(s);
    var es := s.entries;
    assert MarkIncomplete(es) == es by {
      assert |MarkIncomplete(es)| == |es|;
      forall i | 0 <= i < |es| ensures MarkIncomplete(es)[i] == es[i] {
        if i < |es| - 1 {
          assert Complete(es[i].half);
        }
      }
    }
  }

  // ---------------------------------------------------------------------
  // The graph

  /** The edges the committed cables account for (this revision connects without checking the source). */
  function Wired<C>(es: seq<Entry<C>>): set<(Node, Node)> {
    set i | 0 <= i < |es| && Complete(es[i].half) :: PairOf(es[i].half)
  }

  predicate Consistent<C>(s: State<C>, edges: Edges) {
    Valid(s) && edges == Wired(s.entries)
  }

  lemma WiredRemove<C>(es: seq<Entry<C>>, k: nat)
    requires k < |es| && Complete(es[k].half)
    requires forall i, j :: 0 <= i < j < |es| && Complete(es[i].half) && Complete(es[j].half) ==> PairOf(es[i].half) != PairOf(es[j].half)
    ensures Wired(RemoveAt(es, k)) == Wired(es) - {PairOf(es[k].half)}
  {
    var qs := RemoveAt(es, k);
    forall e | e in Wired(qs) ensures e in Wired(es) - {PairOf(es[k].half)} {
      var i :| 0 <= i < |qs| && Complete(qs[i].half) && PairOf(qs[i].half) == e;
      var j := if i < k then i else i + 1;
      assert qs[i] == es[j];
      assert e in Wired(es);
    }
    forall e | e in Wired(es) - {PairOf(es[k].half)} ensures e in Wired(qs) {
      var j :| 0 <= j < |es| && Complete(es[j].half) && PairOf(es[j].half) == e;
      var i := if j < k then j else j - 1;
      assert qs[i] == es[j];
    }
  }

  lemma WiredDropLast<C>(es: seq<Entry<C>>)
    requires |es| > 0 && !Complete(es[|es| - 1].half)
    ensures Wired(es[..|es| - 1]) == Wired(es)
  {
    var front := es[..|es| - 1];
    forall e | e in Wired(es) ensures e in Wired(front) {
      var i :| 0 <= i < |es| && Complete(es[i].half) && PairOf(es[i].half) == e;
      assert front[i] == es[i];
    }
  }

  lemma WiredAppend<C>(es: seq<Entry<C>>, e: Entry<C>)
    ensures Wired(es + [e]) == Wired(es) + (if Complete(e.half) then {PairOf(e.half)} else {})
  {
    var qs := es + [e];
    forall x | x in Wired(qs) ensures x in Wired(es) + (if Complete(e.half) then {PairOf(e.half)} else {}) {
      var i :| 0 <= i < |qs| && Complete(qs[i].half) && PairOf(qs[i].half) == x;
      if i < |es| {
        assert qs[i] == es[i];
      }
    }
    forall x | x in Wired(es) ensures x in Wired(qs) {
      var i :| 0 <= i < |es| && Complete(es[i].half) && PairOf(es[i].half) == x;
      assert qs[i] == es[i];
    }
    if Complete(e.half) {
      assert qs[|es|] == e;
    }
  }

  lemma WiredHandled<C>(es: seq<Entry<C>>)
    ensures Wired(MarkHandled(es)) == Wired(es)
  {
    assert forall i :: 0 <= i < |es| ==> MarkHandled(es)[i].half == es[i].half;
  }

  /** The entries after a successful click, before `handled` is refreshed, in terms of the committed ones. */
  lemma UpdatedWired<C>(s: State<C>, c: Click<C>)
    requires Valid(s) && WellFormedClick(c) && !Update(s, c).failed
    ensures var last := LastEntry(s.entries).half;
      && (Complete(last) || |s.entries| == 0 ==> Wired(Update(s, c).entries) == Wired(s.entries))
      && (!Complete(last) && |s.entries| > 0 ==>
            Wired(Update(s, c).entries) == Wired(s.entries) + {PairOf(Merge(last, NewSide(c)))})
  {
    var es := s.entries;
    var last := LastEntry(es).half;
    var u := Update(s, c);
    if Complete(last) {
      WiredAppend(es, Entry(NewSide(c), false, false));
    } else if |es| == 0 {
      WiredAppend(es, Entry(NewSide(c), false, false));
      assert es + [Entry(NewSide(c), false, false)] == u.entries;
    } else {
      var n := |es| - 1;
      DuplicateMeansSamePair(es[0].half, last, c);
      WiredAppend(es[..n], es[n].(half := Merge(last, NewSide(c))));
      WiredDropLast(es);
    }
  }

  /** A successful completing click connects exactly the new cable; every click keeps the graph equal to the cables. */
  lemma OnConnectKeepsGraph<C>(s: State<C>, edges: Edges, c: Click<C>)
    requires Consistent(s, edges) && WellFormedClick(c)
    ensures Consistent(OnConnect(s, c).state, Apply(edges, OnConnect(s, c).ops))
  {
    OnConnectKeepsValid(s, c);
    var u := Update(s, c);
    var r := OnConnect(s, c);
    if u.failed {
      assert r.state == u && u.entries == s.entries && r.ops == [];
    } else if |s.entries| > 0 && !Complete(LastEntry(s.entries).half) {
      CompletingClickWires(s, c);
    } else {
      OpeningClickWires(s, c);
    }
  }

  /** A click completing the dangling record adds its pair to the cables and connects exactly that pair. */
  lemma CompletingClickWires<C>(s: State<C>, c: Click<C>)
    requires Valid(s) && WellFormedClick(c) && !Update(s, c).failed
    requires |s.entries| > 0 && !Complete(LastEntry(s.entries).half)
    ensures forall edges: Edges :: edges == Wired(s.entries) ==>
      Wired(OnConnect(s, c).state.entries) == Apply(edges, OnConnect(s, c).ops)
  {
    var u := Update(s, c);
    var r := OnConnect(s, c);
    assert r.state.entries == MarkHandled(u.entries);
    WiredHandled(u.entries);
    UpdatedWired(s, c);
    var m := MergedPair(s, c);
    CommitConnects(u, m);
  }

  /** A click opening a new dangling record leaves the cables as they were and makes no graph call. */
  lemma OpeningClickWires<C>(s: State<C>, c: Click<C>)
    requires Valid(s) && WellFormedClick(c) && !Update(s, c).failed
    requires |s.entries| == 0 || Complete(LastEntry(s.entries).half)
    ensures Wired(OnConnect(s, c).state.entries) == Wired(s.entries) && OnConnect(s, c).ops == []
  {
    var u := Update(s, c);
    var r := OnConnect(s, c);
    assert r.state.entries == MarkHandled(u.entries);
    WiredHandled(u.entries);
    UpdatedWired(s, c);
    assert LastEntry(u.entries).half == NewSide(c);
  }

  /** The completion callback of a click that completed `m` connects exactly its pair. */
  lemma CommitConnects<C>(u: State<C>, m: Half<C>)
    requires !u.failed && |u.entries| > 0 && u.entries[|u.entries| - 1].half == m && Complete(m)
    ensures forall c: Click<C>, edges: Edges :: Apply(edges, AfterConnect(u, c).ops) == edges + {PairOf(m)}
  {
    forall c: Click<C>, edges: Edges
      ensures Apply(edges, AfterConnect(u, c).ops) == edges + {PairOf(m)}
    {
      assert AfterConnect(u, c).ops == [Connect(m.input.value.node, m.output.value.node)];
      assert Apply(edges, AfterConnect(u, c).ops) == Apply(edges + {PairOf(m)}, []);
    }
  }

  /** Valid lists stay valid when a record is dropped. */
  lemma ValidRemove<C>(s: State<C>, k: nat)
    requires Valid(s) && k < |s.entries|
    ensures Valid(s.(entries := RemoveAt(s.entries, k)))
  {
    var es := s.entries;
    var qs := RemoveAt(es, k);
    forall i, j | 0 <= i < j < |qs| && Complete(qs[i].half) && Complete(qs[j].half) ensures PairOf(qs[i].half) != PairOf(qs[j].half) {
      assert qs[i] == es[if i < k then i else i + 1] && qs[j] == es[if j < k then j else j + 1];
    }
    if |qs| > 0 {
      assert qs[|qs| - 1] == es[if |qs| - 1 < k then |qs| - 1 else |qs|];
    }
  }

  lemma BackspaceKeepsGraph<C>(s: State<C>, edges: Edges)
    requires Consistent(s, edges)
    ensures Consistent(Backspace(s).state, Apply(edges, Backspace(s).ops))
  {
    if s.selected.None? {
      BackspaceUnselected(s);
    } else if s.selected.value >= |s.entries| {
      BackspaceBeyond(s);
    } else {
      BackspaceWithinKeepsGraph(s, edges);
    }
  }

  lemma BackspaceWithinKeepsGraph<C>(s: State<C>, edges: Edges)
    requires Consistent(s, edges)
    requires s.selected.Some? && s.selected.value < |s.entries|
    ensures Consistent(Backspace(s).state, Apply(edges, Backspace(s).ops))
  {
    BackspaceWithin(s);
    RemovalKeepsGraph(s, edges, s.selected.value, Backspace(s));
  }

  /** An effect that drops record `k` and disconnects its pair, if it has one, keeps the graph equal to the cables. */
  lemma RemovalKeepsGraph<C>(s: State<C>, edges: Edges, k: nat, r: Effect<C>)
    requires Consistent(s, edges) && k < |s.entries|
    requires r.state.entries == RemoveAt(s.entries, k)
    requires var h := s.entries[k].half;
      r.ops == (if Complete(h) then [Disconnect(h.input.value.node, h.output.value.node)] else [])
    ensures Consistent(r.state, Apply(edges, r.ops))
  {
    var es := s.entries;
    ValidRemove(s, k);
    SameEntriesValid(s.(entries := RemoveAt(es, k)), r.state);
    var h := es[k].half;
    if Complete(h) {
      WiredRemove(es, k);
      ApplyDisconnect(edges, h.input.value.node, h.output.value.node);
    } else {
      assert k == |es| - 1;
      assert RemoveAt(es, k) == es[..|es| - 1];
      WiredDropLast(es);
    }
  }

  lemma SameEntriesValid<C>(s: State<C>, t: State<C>)
    requires Valid(s) && t.entries == s.entries
    ensures Valid(t)
  {
  }

  lemma ApplyDisconnect(edges: Edges, a: Node, b: Node)
    ensures Apply(edges, [Disconnect(a, b)]) == edges - {(a, b)}
  {
    assert Apply(edges, [Disconnect(a, b)]) == Apply(edges - {(a, b)}, []);
  }

  lemma EscapeKeepsGraph<C>(s: State<C>, edges: Edges)
    requires Consistent(s, edges)
    ensures Consistent(Escape(s).state, Apply(edges, Escape(s).ops))
  {
    var es := s.entries;
    if |es| > 0 && !Complete(es[|es| - 1].half) {
      EscapeDanglingKeepsGraph(s, edges);
    } else {
      EscapeClean(s);
    }
  }

  lemma EscapeDanglingKeepsGraph<C>(s: State<C>, edges: Edges)
    requires Consistent(s, edges)
    requires |s.entries| > 0 && !Complete(s.entries[|s.entries| - 1].half)
    ensures Consistent(Escape(s).state, Apply(edges, Escape(s).ops))
  {
    var es := s.entries;
    EscapeDangling(s);
    assert RemoveAt(es, |es| - 1) == es[..|es| - 1];
    RemovalKeepsGraph(s, edges, |es| - 1, Escape(s));
  }

  /** With the corrected deletion, every key keeps the graph equal to the cables. */
  lemma OnKeyDownKeepsGraph<C>(s: State<C>, edges: Edges, key: string)
    requires Consistent(s, edges)
    ensures Consistent(OnKeyDown(s, key).state, Apply(edges, OnKeyDown(s, key).ops))
  {
    if key == "Backspace" || key == "Clear" {
      BackspaceKeepsGraph(s, edges);
    } else if key == "Escape" {
      EscapeKeepsGraph(s, edges);
    }
  }

  /** The events the class receives: jack clicks, key presses, clicks on drawn cables. */
  datatype Event<C> = JackClick(click: Click<C>) | KeyDown(key: string) | CableClick(index: nat)

  /**
   * One event with its completion callback: the new state and the graph
   * calls made; `asWritten` picks the deletion callback of the code as
   * written over the corrected one.
   */
  function Handle<C>(s: State<C>, e: Event<C>, asWritten: bool): (State<C>, seq<GraphOp>)
    requires e.JackClick? ==> WellFormedClick(e.click)
  {
    match e
    case JackClick(c) => var r := OnConnect(s, c); (r.state, r.ops)
    case KeyDown(key) => var r := if asWritten then OnKeyDownAsWritten(s, key) else OnKeyDown(s, key); (r.state, r.ops)
    case CableClick(i) => (s.(selected := Some(i)), [])
  }

  function Run<C>(s: State<C>, edges: Edges, events: seq<Event<C>>, asWritten: bool): (State<C>, Edges)
    decreases |events|
  {
    if |events| == 0 || (events[0].JackClick? && !WellFormedClick(events[0].click)) then (s, edges)
    else
      var h := Handle(s, events[0], asWritten);
      var s', ops := h.0, h.1;
      Run(s', Apply(edges, ops), events[1..], asWritten)
  }

  /**
   * Over every session (with the corrected deletion): only the last record
   * may dangle, no pair is committed twice, and the graph holds exactly the
   * committed cables' edges.
   */
  lemma {:induction false} SessionStaysConsistent<C>(s: State<C>, edges: Edges, events: seq<Event<C>>)
    requires Consistent(s, edges)
    ensures Consistent(Run(s, edges, events, false).0, Run(s, edges, events, false).1)
    decreases |events|
  {
    if |events| > 0 && !(events[0].JackClick? && !WellFormedClick(events[0].click)) {
      match events[0] {
        case JackClick(c) => OnConnectKeepsGraph(s, edges, c);
        case KeyDown(key) => OnKeyDownKeepsGraph(s, edges, key);
        case CableClick(i) =>
      }
      var h := Handle(s, events[0], false);
      var s', ops := h.0, h.1;
      SessionStaysConsistent(s', Apply(edges, ops), events[1..]);
    }
  }

  // ---------------------------------------------------------------------
  // The graph under the deletion as written

  /** A graph holding at least the edges of the committed cables. */
  predicate Covers<C>(s: State<C>, edges: Edges) {
    Valid(s) && Wired(s.entries) <= edges
  }

  /** Performing the same calls on a larger graph gives a larger graph. */
  lemma {:induction false} ApplyMonotone(a: Edges, b: Edges, ops: seq<GraphOp>)
    requires a <= b
    ensures Apply(a, ops) <= Apply(b, ops)
    decreases |ops|
  {
    if |ops| > 0 {
      match ops[0] {
        case Connect(x, y) => ApplyMonotone(a + {(x, y)}, b + {(x, y)}, ops[1..]);
        case Disconnect(x, y) => ApplyMonotone(a - {(x, y)}, b - {(x, y)}, ops[1..]);
      }
    }
  }

  /** `connect` calls alone never remove an edge. */
  lemma {:induction false} ConnectsOnlyGrow(edges: Edges, ops: seq<GraphOp>)
    requires forall i :: 0 <= i < |ops| ==> ops[i].Connect?
    ensures edges <= Apply(edges, ops)
    decreases |ops|
  {
    if |ops| > 0 {
      var next := edges + {(ops[0].src, ops[0].dst)};
      ConnectsOnlyGrow(next, ops[1..]);
    }
  }

  /** The corrected key handler only ever disconnects. */
  lemma KeyDisconnectsOnly<C>(s: State<C>, key: string)
    ensures forall i :: 0 <= i < |OnKeyDown(s, key).ops| ==> OnKeyDown(s, key).ops[i].Disconnect?
  {
    if key == "Backspace" || key == "Clear" {
      UnwireDisconnects(Marked(BackspaceMarks(s).entries));
    } else if key == "Escape" {
      UnwireDisconnects(Marked(EscapeMarks(s).entries));
    }
  }

  /**
   * As written, Backspace on a selected cable drops its record and runs its
   * sides' `onDisconnect`, but `connect`s its pair again: the graph is left
   * exactly as it was and still holds the edge of the deleted cable.
   */
  lemma BackspaceAsWrittenKeepsGraph<C>(s: State<C>, edges: Edges, key: string)
    requires Consistent(s, edges) && (key == "Backspace" || key == "Clear") && s.selected.Some?
    ensures var k := s.selected.value; var r := OnKeyDownAsWritten(s, key);
      && r.state.selected.None? && r.state.editing == s.editing
      && Apply(edges, r.ops) == edges
      && (k < |s.entries| ==>
            var h := s.entries[k].half;
            && r.state.entries == RemoveAt(s.entries, k)
            && r.calls == (if h.input.Some? then [h.input.value.onDisconnect] else [])
                          + (if h.output.Some? then [h.output.value.onDisconnect] else [])
            && r.ops == (if Complete(h) then [Connect(h.input.value.node, h.output.value.node)] else [])
            && (Complete(h) ==> PairOf(h) in Apply(edges, r.ops) && PairOf(h) !in Wired(r.state.entries)))
      && (k >= |s.entries| ==> r.state.entries == s.entries && r.calls == [] && r.ops == [])
  {
    BackspaceDeletesSelected(s, key);
    if s.selected.value < |s.entries| {
      BackspaceAsWrittenWithin(s, edges, key);
    } else {
      BackspaceAsWrittenBeyond(s, key);
    }
  }

  /** A selection past the end flags only the appended bare record, which the sweep drops again. */
  lemma BackspaceAsWrittenBeyond<C>(s: State<C>, key: string)
    requires (key == "Backspace" || key == "Clear") && s.selected.Some? && s.selected.value >= |s.entries|
    requires forall i :: 0 <= i < |s.entries| ==> !s.entries[i].toDelete
    ensures var r := OnKeyDownAsWritten(s, key);
      r.state.entries == s.entries && r.calls == [] && r.ops == []
  {
    var r := OnKeyDownAsWritten(s, key);
    assert r == DeleteConnectionsAsWritten(BackspaceMarks(s));
    SweepSelected(s.entries, s.selected.value);
    SweepOne<C>(Entry(Half(None, None), false, true));
  }

  lemma BackspaceAsWrittenWithin<C>(s: State<C>, edges: Edges, key: string)
    requires Consistent(s, edges) && (key == "Backspace" || key == "Clear")
    requires s.selected.Some? && s.selected.value < |s.entries|
    ensures var k := s.selected.value; var r := OnKeyDownAsWritten(s, key); var h := s.entries[k].half;
      && r.state.entries == RemoveAt(s.entries, k)
      && r.calls == (if h.input.Some? then [h.input.value.onDisconnect] else [])
                    + (if h.output.Some? then [h.output.value.onDisconnect] else [])
      && r.ops == (if Complete(h) then [Connect(h.input.value.node, h.output.value.node)] else [])
      && Apply(edges, r.ops) == edges
      && (Complete(h) ==> PairOf(h) in Apply(edges, r.ops) && PairOf(h) !in Wired(r.state.entries))
  {
    var k := s.selected.value;
    var r := OnKeyDownAsWritten(s, key);
    BackspaceAsWrittenIs(s, key);
    BackspaceAsWrittenEffect(s);
    var h := s.entries[k].half;
    if Complete(h) {
      assert PairOf(h) in Wired(s.entries);
      assert Apply(edges, r.ops) == Apply(edges + {PairOf(h)}, []);
      WiredRemove(s.entries, k);
    }
  }

  lemma BackspaceAsWrittenEffect<C>(s: State<C>)
    requires Valid(s) && s.selected.Some? && s.selected.value < |s.entries|
    ensures var k := s.selected.value; var r := DeleteConnectionsAsWritten(BackspaceMarks(s)); var h := s.entries[k].half;
      && r.state.entries == RemoveAt(s.entries, k)
      && r.calls == (if h.input.Some? then [h.input.value.onDisconnect] else [])
                    + (if h.output.Some? then [h.output.value.onDisconnect] else [])
      && r.ops == (if Complete(h) then [Connect(h.input.value.node, h.output.value.node)] else [])
  {
    var k := s.selected.value;
    SweepSelectedWithin(s.entries, k);
    DeleteOneAsWritten(BackspaceMarks(s), s.entries[k].(toDelete := true));
  }

  /** The as-written deletion with one flagged record: its `onDisconnect`s, and a `connect` of its pair. */
  lemma DeleteOneAsWritten<C>(t: State<C>, e: Entry<C>)
    requires Marked(t.entries) == [e] && e.toDelete
    ensures var r := DeleteConnectionsAsWritten(t);
      && r.calls == (if e.half.input.Some? then [e.half.input.value.onDisconnect] else [])
                    + (if e.half.output.Some? then [e.half.output.value.onDisconnect] else [])
      && r.ops == (if Complete(e.half) then [Connect(e.half.input.value.node, e.half.output.value.node)] else [])
  {
    SweepOne(e);
  }

  lemma BackspaceAsWrittenIs<C>(s: State<C>, key: string)
    requires key == "Backspace" || key == "Clear"
    ensures OnKeyDownAsWritten(s, key) == DeleteConnectionsAsWritten(BackspaceMarks(s))
  {
  }


  /** A click keeps the graph covering the cables, whichever deletion callback is in use. */
  lemma OnConnectKeepsCover<C>(s: State<C>, edges: Edges, c: Click<C>)
    requires Covers(s, edges) && WellFormedClick(c)
    ensures Covers(OnConnect(s, c).state, Apply(edges, OnConnect(s, c).ops))
  {
    var w := Wired(s.entries);
    OnConnectKeepsGraph(s, w, c);
    ApplyMonotone(w, edges, OnConnect(s, c).ops);
  }

  /** A key as written keeps the graph covering the cables: it drops cables and never removes an edge. */
  lemma KeyAsWrittenKeepsCover<C>(s: State<C>, edges: Edges, key: string)
    requires Covers(s, edges)
    ensures Covers(OnKeyDownAsWritten(s, key).state, Apply(edges, OnKeyDownAsWritten(s, key).ops))
  {
    var w := Wired(s.entries);
    OnKeyDownKeepsGraph(s, w, key);
    KeyDisconnectsOnly(s, key);
    var a := OnKeyDownAsWritten(s, key);
    ConnectsOnlyGrow(edges, a.ops);
    assert Apply(w, OnKeyDown(s, key).ops) <= w;
  }

  /**
   * Over every session of the code as written: only the last record may
   * dangle, no pair is committed twice, and every committed cable's edge is
   * in the graph; deleted cables stay connected, so the graph may hold more.
   */
  lemma {:induction false} AsWrittenSessionCovers<C>(s: State<C>, edges: Edges, events: seq<Event<C>>)
    requires Covers(s, edges)
    ensures Covers(Run(s, edges, events, true).0, Run(s, edges, events, true).1)
    decreases |events|
  {
    if |events| > 0 && !(events[0].JackClick? && !WellFormedClick(events[0].click)) {
      match events[0] {
        case JackClick(c) => OnConnectKeepsCover(s, edges, c);
        case KeyDown(key) => KeyAsWrittenKeepsCover(s, edges, key);
        case CableClick(i) =>
      }
      var h := Handle(s, events[0], true);
      var s', ops := h.0, h.1;
      AsWrittenSessionCovers(s', Apply(edges, ops), events[1..]);
    }
  }

  /**
   * `deleteConnections` as written re-`connect`s the deleted cable: after
   * Backspace removes the only cable, its edge is still in the graph.
   */
  lemma AsWrittenKeepsDeletedEdge<C>(h: Half<C>)
    requires Complete(h)
    ensures var s := State([Entry(h, true, true)], false, false, None);
      var r := DeleteConnectionsAsWritten(s);
      && r.state.entries == []
      && PairOf(h) in Apply({PairOf(h)}, r.ops)
  {
    var e := Entry(h, true, true);
    SweepOne(e);
    assert [e][1..] == [];
    var ops := Rewire([e]);
    assert ops == [Connect(h.input.value.node, h.output.value.node)];
    assert Apply({PairOf(h)}, ops) == Apply({PairOf(h)}, []);
  }

  /** The corrected deletion tears the same edge down. */
  lemma CorrectedRemovesDeletedEdge<C>(h: Half<C>)
    requires Complete(h)
    ensures var s := State([Entry(h, true, true)], false, false, None);
      var r := DeleteConnections(s);
      && r.state.entries == []
      && Apply({PairOf(h)}, r.ops) == {}
  {
    var e := Entry(h, true, true);
    SweepOne(e);
    assert [e][1..] == [];
    var ops := Unwire([e]);
    assert ops == [Disconnect(h.input.value.node, h.output.value.node)];
    assert Apply({PairOf(h)}, ops) == Apply({}, []);
  }
}

=== FILE: legacy_keyboard.dfy ===
/**
 * The class-based keyboard: held keys are tracked by key character, the
 * voice updaters return `null` for "no change", there is no gate, and the
 * release button stops the frequency of every sounding oscillator without
 * touching the held keys.
 */
module LegacyKeyboard {
  import opened Wrappers
  import opened Keymap
  import opened Voices
  import opened Pressed
  import Keyboard

  /** Type index, held key characters with their press times, oscillator list. */
  datatype State = State(mode: int, pressed: seq<Entry<string>>, oscs: seq<Oscillator>)

  /** `startFrequency` with its `null` result read as "no change": the same list as the hook-based version. */
  function Start(k: State, f: int, now: int): (r: seq<Oscillator>)
    ensures r == StartFrequency(ModeOf(k.mode), k.oscs, f, now)
    ensures ModeOf(k.mode) != Chord || |k.oscs| > 0 ==> Sounding(r, f)
  {
    LegacyStartAgrees(ModeOf(k.mode), k.oscs, f, now);
    ApplyNullable(k.oscs, LegacyStartFrequency(ModeOf(k.mode), k.oscs, f, now))
  }

  /** `stopFrequency` with its `null` result read as "no change": the same list as the hook-based version. */
  function Stop(mode: Mode, oscs: seq<Oscillator>, f: int): (r: seq<Oscillator>)
    ensures r == StopFrequency(mode, oscs, f)
    ensures |r| == |oscs|
  {
    LegacyStopAgrees(mode, oscs, f);
    ApplyNullable(oscs, LegacyStopFrequency(mode, oscs, f))
  }

  /** The frequencies of the sounding oscillators, in list order. */
  function ActiveFrequencies(oscs: seq<Oscillator>): (r: seq<int>)
    ensures forall f :: f in r <==> Sounding(oscs, f)
  {
    if |oscs| == 0 then []
    else
      var rest := ActiveFrequencies(oscs[1..]);
      assert forall f :: Sounding(oscs, f) <==> (oscs[0].active && oscs[0].frequency == f) || Sounding(oscs[1..], f) by {
        forall f | Sounding(oscs, f) && !(oscs[0].active && oscs[0].frequency == f)
          ensures Sounding(oscs[1..], f)
        {
          var i :| 0 <= i < |oscs| && oscs[i].active && oscs[i].frequency == f;
          assert oscs[1..][i - 1] == oscs[i];
        }
        forall f | Sounding(oscs[1..], f)
          ensures Sounding(oscs, f)
        {
          var i :| 0 <= i < |oscs[1..]| && oscs[1..][i].active && oscs[1..][i].frequency == f;
          assert oscs[i + 1] == oscs[1..][i];
        }
      }
      if oscs[0].active then [oscs[0].frequency] + rest else rest
  }

  /** `stopFrequency` for each frequency in turn, each updater seeing the list the previous one left. */
  function StopEach(mode: Mode, oscs: seq<Oscillator>, fs: seq<int>): (r: seq<Oscillator>)
    ensures |r| == |oscs|
    decreases |fs|
  {
    if |fs| == 0 then oscs else StopEach(mode, Stop(mode, oscs, fs[0]), fs[1..])
  }

  /** `onRelease`: stop what the oscillator list was sounding; the held keys stay recorded. */
  function OnRelease(k: State): (r: State)
    ensures r.pressed == k.pressed && r.mode == k.mode
    ensures |k.oscs| > 0 ==> |r.oscs| == |k.oscs|
  {
    k.(oscs := StopEach(ModeOf(k.mode), k.oscs, ActiveFrequencies(k.oscs)))
  }

  /** Idle in the sense of the mode: oscillator 0 for mono, every oscillator for chord. */
  predicate Idle(mode: Mode, oscs: seq<Oscillator>) {
    && (mode == Mono && |oscs| > 0 ==> !oscs[0].active)
    && (mode == Chord ==> forall i :: 0 <= i < |oscs| ==> !oscs[i].active)
  }

  lemma {:induction false} StopEachKeepsIdle(mode: Mode, oscs: seq<Oscillator>, fs: seq<int>)
    requires Idle(mode, oscs)
    ensures Idle(mode, StopEach(mode, oscs, fs))
    decreases |fs|
  {
    if |fs| > 0 {
      StopEachKeepsIdle(mode, Stop(mode, oscs, fs[0]), fs[1..]);
    }
  }

  /** In mono and chord mode, a release with anything sounding leaves the mode's oscillators idle. */
  lemma ReleaseIdles(k: State)
    requires ModeOf(k.mode) != Poly && exists f :: Sounding(k.oscs, f)
    ensures Idle(ModeOf(k.mode), OnRelease(k).oscs)
  {
    var fs := ActiveFrequencies(k.oscs);
    var f :| Sounding(k.oscs, f);
    assert f in fs;
    assert fs[0] in fs && Sounding(k.oscs, fs[0]);
    var i :| 0 <= i < |k.oscs| && k.oscs[i].active && k.oscs[i].frequency == fs[0];
    assert FindFrequency(k.oscs, fs[0]).Some?;
    StopEachKeepsIdle(ModeOf(k.mode), Stop(ModeOf(k.mode), k.oscs, fs[0]), fs[1..]);
  }

  /** `onKeyDown` (no auto-repeat check): space releases, a mapped key is recorded and its frequency requested. */
  function OnKeyDown(k: State, key: string, now: int): (r: State)
    ensures Lower(key) == " " ==> r == OnRelease(k)
    ensures Lower(key) != " " && !IsMappedKey(LegacyKeyMap(), Lower(key)) ==> r == k
    ensures Lower(key) != " " && IsMappedKey(LegacyKeyMap(), Lower(key)) ==> Lower(key) in Keys(r.pressed)
    ensures Lower(key) != " " && Lookup(LegacyKeyMap(), Lower(key)).Some? ==>
      var f := Keyboard.Frequency(Lookup(LegacyKeyMap(), Lower(key)).value);
      && r.mode == k.mode
      && r.oscs == StartFrequency(ModeOf(k.mode), k.oscs, f, now)
      && (ModeOf(k.mode) != Chord || |k.oscs| > 0 ==> Sounding(r.oscs, f))
  {
    var name := Lower(key);
    if name == " " then OnRelease(k)
    else
      match Lookup(LegacyKeyMap(), name)
      case None => k
      case Some(s) =>
        HoldKeys(k.pressed, name, now);
        LegacyStartAgrees(ModeOf(k.mode), k.oscs, Keyboard.Frequency(s), now);
        k.(pressed := Hold(k.pressed, name, now), oscs := Start(k, Keyboard.Frequency(s), now))
  }

  /**
   * `onKeyUp`: forget the key; in mono and chord mode with keys still held,
   * request the newest held key's frequency, otherwise stop the released one.
   */
  function OnKeyUp(k: State, key: string, now: int): (r: State)
    ensures !IsMappedKey(LegacyKeyMap(), Lower(key)) ==> r == k
    ensures IsMappedKey(LegacyKeyMap(), Lower(key)) ==> Lower(key) !in Keys(r.pressed)
    ensures forall x :: x in Keys(r.pressed) ==> x in Keys(k.pressed)
    ensures r.mode == k.mode
    ensures Lookup(LegacyKeyMap(), Lower(key)).Some? && ModeOf(k.mode) != Poly && |r.pressed| > 0 ==>
      var t := Lookup(LegacyKeyMap(), r.pressed[Newest(r.pressed)].key);
      && (PressedMapped(k) ==> t.Some?)
      && (t.Some? ==> r.oscs == StartFrequency(ModeOf(k.mode), k.oscs, Keyboard.Frequency(t.value), now))
    ensures Lookup(LegacyKeyMap(), Lower(key)).Some? && (ModeOf(k.mode) == Poly || |r.pressed| == 0) ==>
      r.oscs == StopFrequency(ModeOf(k.mode), k.oscs, Keyboard.Frequency(Lookup(LegacyKeyMap(), Lower(key)).value))
  {
    var name := Lower(key);
    match Lookup(LegacyKeyMap(), name)
    case None => k
    case Some(s) =>
      var pressed := Remove(k.pressed, name);
      RemoveContents(k.pressed, name);
      var mode := ModeOf(k.mode);
      LegacyStopAgrees(mode, k.oscs, Keyboard.Frequency(s));
      var oscs :=
        if mode != Poly && |pressed| > 0 then
          match Lookup(LegacyKeyMap(), pressed[Newest(pressed)].key)
          case Some(t) =>
            (LegacyStartAgrees(mode, k.oscs, Keyboard.Frequency(t), now);
             Start(k, Keyboard.Frequency(t), now))
          case None => k.oscs
        else Stop(mode, k.oscs, Keyboard.Frequency(s));
      assert |pressed| > 0 ==> pressed[Newest(pressed)].key in Keys(k.pressed);
      k.(pressed := pressed, oscs := oscs)
  }

  /** An auto-repeat of a held key whose note sounds only refreshes the key's time. */
  lemma RepeatRefreshes(k: State, key: string, s: int, now: int)
    requires Lookup(LegacyKeyMap(), Lower(key)) == Some(s)
    requires Lower(key) in Keys(k.pressed) && Sounding(k.oscs, Keyboard.Frequency(s))
    ensures OnKeyDown(k, key, now).oscs == k.oscs
    ensures Keys(OnKeyDown(k, key, now).pressed) == Keys(k.pressed)
    ensures Distinct(k.pressed) ==> forall i :: 0 <= i < |k.pressed| ==>
      OnKeyDown(k, key, now).pressed[i] == (if k.pressed[i].key == Lower(key) then Entry(Lower(key), now) else k.pressed[i])
  {
    assert Lower(key) != " " by {
      SpaceUnmapped();
    }
  }

  /** Pressing a key that was not held and letting it go leaves the held keys as they were. */
  lemma KeyDownThenUp(k: State, key: string, s: int, now: int, later: int)
    requires Lookup(LegacyKeyMap(), Lower(key)) == Some(s) && Lower(key) !in Keys(k.pressed)
    ensures OnKeyUp(OnKeyDown(k, key, now), key, later).pressed == k.pressed
  {
    assert Lower(key) != " " by {
      SpaceUnmapped();
    }
    HoldThenRemove(k.pressed, Lower(key), now);
  }

  /** `setType`: release with the old type, then switch; in mono and chord mode that leaves the old mode's oscillators idle. */
  function SetType(k: State, t: int): (r: State)
    ensures r.mode == t && r.pressed == k.pressed
    ensures r.oscs == OnRelease(k).oscs
    ensures ModeOf(k.mode) != Poly && (exists f :: Sounding(k.oscs, f)) ==> Idle(ModeOf(k.mode), r.oscs)
  {
    var released := OnRelease(k);
    if ModeOf(k.mode) != Poly && |ActiveFrequencies(k.oscs)| > 0 then
      assert Sounding(k.oscs, ActiveFrequencies(k.oscs)[0]);
      ReleaseIdles(k);
      released.(mode := t)
    else released.(mode := t)
  }

  /**
   * Clicking on-screen button `i`: the same toggle as the hook-based
   * keyboard, on frequencies only. A stop in poly mode silences the first
   * oscillator carrying the frequency, which may be an idle one.
   */
  function ClickKey(k: State, i: nat, now: int): (r: State)
    requires i < |Keyboard.ScreenKeys()|
    ensures r.pressed == k.pressed && r.mode == k.mode
    ensures |k.oscs| > 0 ==> |r.oscs| == |k.oscs|
    ensures var f := Keyboard.Frequency(Keyboard.ScreenKeys()[i]);
      !Sounding(k.oscs, f) && (ModeOf(k.mode) != Chord || |k.oscs| > 0) ==> Sounding(r.oscs, f)
    ensures var f := Keyboard.Frequency(Keyboard.ScreenKeys()[i]);
      Sounding(k.oscs, f) ==>
        && FindFrequency(k.oscs, f).Some?
        && (ModeOf(k.mode) == Mono ==> !r.oscs[0].active && r.oscs[1..] == k.oscs[1..])
        && (ModeOf(k.mode) == Poly ==> var j := FindFrequency(k.oscs, f).value;
              r.oscs == k.oscs[j := k.oscs[j].(active := false, started := 0)])
        && (ModeOf(k.mode) == Chord ==> forall g :: !Sounding(r.oscs, g))
  {
    var f := Keyboard.Frequency(Keyboard.ScreenKeys()[i]);
    if Sounding(k.oscs, f) then
      LegacyStopSounding(ModeOf(k.mode), k.oscs, f);
      k.(oscs := Stop(ModeOf(k.mode), k.oscs, f))
    else
      LegacyStartAgrees(ModeOf(k.mode), k.oscs, f, now);
      k.(oscs := Start(k, f, now))
  }

  /** Every recorded key is one of the layout's keys. */
  predicate PressedMapped(k: State) {
    forall x :: x in Keys(k.pressed) ==> IsMappedKey(LegacyKeyMap(), x)
  }

  datatype Gesture = KeyDown(key: string) | KeyUp(key: string) | Click(button: nat) | ReleaseButton | TypeSlider(t: int)

  function Step(k: State, g: Gesture, now: int): State {
    match g
    case KeyDown(key) => OnKeyDown(k, key, now)
    case KeyUp(key) => OnKeyUp(k, key, now)
    case Click(i) => if i < |Keyboard.ScreenKeys()| then ClickKey(k, i, now) else k
    case ReleaseButton => OnRelease(k)
    case TypeSlider(t) => SetType(k, t)
  }

  /** Only mapped keys are ever recorded, so the newest held key always has a semitone. */
  lemma StepKeepsPressedMapped(k: State, g: Gesture, now: int)
    requires PressedMapped(k)
    ensures PressedMapped(Step(k, g, now))
    ensures Distinct(k.pressed) ==> Distinct(Step(k, g, now).pressed)
  {
    if g.KeyDown? && Lower(g.key) != " " && IsMappedKey(LegacyKeyMap(), Lower(g.key)) {
      var name := Lower(g.key);
      var r := Step(k, g, now);
      assert r.pressed == Hold(k.pressed, name, now);
      HoldKeys(k.pressed, name, now);
      if name !in Keys(k.pressed) {
        KeysAppend(k.pressed, Entry(name, now));
      }
    } else if g.KeyUp? && IsMappedKey(LegacyKeyMap(), Lower(g.key)) && Distinct(k.pressed) {
      RemoveDistinct(k.pressed, Lower(g.key));
    }
  }
}

=== FILE: midi_parser.dfy ===
/**
 * The MIDI input decoder: one call per incoming packet of bytes, keeping a
 * buffer for a System Exclusive message that arrives in several chunks.
 * Status bytes follow Table I ("Summary of Status Bytes") of the MIDI 1.0
 * Detailed Specification: channel voice messages 0x80-0xEF are named by the
 * high nibble with the channel in the low nibble, system messages 0xF0-0xFF
 * by the whole byte. A byte the packet does not have is JavaScript's
 * `undefined`, modelled as `None`.
 */
module MidiParser {
  import opened Wrappers

  type Byte = b: int | 0 <= b < 256

  /** A data field read from the packet: absent when the packet is too short. */
  type Field = Option<Byte>

  /** The message names of the two status tables. */
  datatype Kind =
    | NoteOffKind | NoteOnKind | PolyAftertouchKind | ControlChangeKind | ProgramKind | ChannelAftertouchKind | PitchKind
    | SysexKind | MtcKind | PositionKind | SelectKind | TuneKind | SysexEndKind
    | ClockKind | StartKind | ContinueKind | StopKind | ActiveSenseKind | ResetKind

  /**
   * A decoded event. A 14-bit value computed from an absent byte is `NaN`
   * in the source, here `None`.
   */
  datatype Event =
    | NoteOn(channel: nat, note: Field, velocity: Field)
    | NoteOff(channel: nat, note: Field, velocity: Field)
    | PolyAftertouch(channel: nat, note: Field, pressure: Field)
    | ControlChange(channel: nat, controller: Field, value: Field)
    | Program(channel: nat, number: Field)
    | ChannelAftertouch(channel: nat, pressure: Field)
    | Pitch(channel: nat, value14: Option<nat>)
    | SongPosition(channel: nat, value14: Option<nat>)
    | Mtc(mtcType: nat, mtcValue: nat)
    | SongSelect(song: Field)
    | Sysex(bytes: seq<Byte>)

  /** The events that carry the channel of their status byte. */
  predicate HasChannel(e: Event) {
    e.NoteOn? || e.NoteOff? || e.PolyAftertouch? || e.ControlChange? || e.Program? || e.ChannelAftertouch?
    || e.Pitch? || e.SongPosition?
  }

  /** `INPUT_TYPES`: channel voice messages by high nibble. */
  function VoiceKind(nibble: nat): Option<Kind> {
    match nibble
    case 0x8 => Some(NoteOffKind)
    case 0x9 => Some(NoteOnKind)
    case 0xa => Some(PolyAftertouchKind)
    case 0xb => Some(ControlChangeKind)
    case 0xc => Some(ProgramKind)
    case 0xd => Some(ChannelAftertouchKind)
    case 0xe => Some(PitchKind)
    case _ => None
  }

  /** `INPUT_EXTENDED_TYPES`: system messages by the whole byte. */
  function SystemKind(b: Byte): Option<Kind> {
    match b
    case 0xf0 => Some(SysexKind)
    case 0xf1 => Some(MtcKind)
    case 0xf2 => Some(PositionKind)
    case 0xf3 => Some(SelectKind)
    case 0xf6 => Some(TuneKind)
    case 0xf7 => Some(SysexEndKind)
    case 0xf8 => Some(ClockKind)
    case 0xfa => Some(StartKind)
    case 0xfb => Some(ContinueKind)
    case 0xfc => Some(StopKind)
    case 0xfe => Some(ActiveSenseKind)
    case 0xff => Some(ResetKind)
    case _ => None
  }

  /** The message name of a status byte; an absent first byte shifts to 0, which names nothing. */
  function StatusKind(status: Field): Option<Kind> {
    match status
    case None => None
    case Some(b) => if b >= 0xf0 then SystemKind(b) else VoiceKind(b / 16)
  }

  /** `bytes[i]`, `undefined` past the end. */
  function At(bytes: seq<Byte>, i: nat): Field {
    if i < |bytes| then Some(bytes[i]) else None
  }

  /** `lsb + msb * 128`; `NaN` when either byte is missing. */
  function Value14(lsb: Field, msb: Field): Option<nat> {
    if lsb.Some? && msb.Some? then Some(lsb.value + msb.value * 128) else None
  }

  /** `x >> 4 & 0x07` and `x & 0x0f` of the quarter-frame byte; `undefined` converts to 0. */
  function MtcFields(b: Field): (r: (nat, nat))
    ensures r.0 < 8 && r.1 < 16
  {
    var x := if b.Some? then b.value else 0;
    ((x / 16) % 8, x % 16)
  }

  /** `parseMessage`: the event a packet encodes, or `undefined`. */
  function ParseMessage(bytes: seq<Byte>): (r: Option<Event>)
    ensures |bytes| == 0 || bytes[0] < 0x80 ==> r.None?
    ensures |bytes| > 0 && 0x80 <= bytes[0] < 0xf0 ==> r.Some?
    ensures |bytes| > 0 && bytes[0] >= 0xf0 ==> (r.Some? <==> bytes[0] in {0xf0, 0xf1, 0xf2, 0xf3})
    ensures r.Some? && HasChannel(r.value) ==> r.value.channel == bytes[0] % 16 && r.value.channel < 16
  {
    var channel := if |bytes| > 0 then bytes[0] % 16 else 0;
    match StatusKind(At(bytes, 0))
    case Some(NoteOnKind) => Some(NoteOn(channel, At(bytes, 1), At(bytes, 2)))
    case Some(NoteOffKind) => Some(NoteOff(channel, At(bytes, 1), At(bytes, 2)))
    case Some(ControlChangeKind) => Some(ControlChange(channel, At(bytes, 1), At(bytes, 2)))
    case Some(PolyAftertouchKind) => Some(PolyAftertouch(channel, At(bytes, 1), At(bytes, 2)))
    case Some(ChannelAftertouchKind) => Some(ChannelAftertouch(channel, At(bytes, 1)))
    case Some(ProgramKind) => Some(Program(channel, At(bytes, 1)))
    case Some(PitchKind) => Some(Pitch(channel, Value14(At(bytes, 1), At(bytes, 2))))
    case Some(PositionKind) => Some(SongPosition(channel, Value14(At(bytes, 1), At(bytes, 2))))
    case Some(SysexKind) => Some(Sysex(bytes))
    case Some(SelectKind) => Some(SongSelect(At(bytes, 1)))
    case Some(MtcKind) => var (t, v) := MtcFields(At(bytes, 1)); Some(Mtc(t, v))
    case _ => None
  }

  /**
   * `parseMtc`: its message counter is a local that starts at 0, so it is
   * never 7 and every call returns no timecode event.
   */
  function ParseMtc(t: nat, v: nat): (r: seq<Event>)
    ensures |r| == 0
  {
    []
  }

  /** The decoder's state: the SysEx bytes gathered so far and whether one is pending. */
  datatype ParserState = ParserState(sysex: seq<Byte>, pending: bool)

  function Initial(): ParserState {
    ParserState([], false)
  }

  /** A pending SysEx is a started message (0xF0 first) still waiting for its 0xF7. */
  predicate Valid(st: ParserState) {
    if st.pending then |st.sysex| > 0 && st.sysex[0] == 0xf0 && st.sysex[|st.sysex| - 1] != 0xf7
    else st.sysex == []
  }

  predicate EndsSysex(bytes: seq<Byte>) {
    |bytes| > 0 && bytes[|bytes| - 1] == 0xf7
  }

  /** `parse`: the new state and the events of one packet. */
  function Parse(st: ParserState, bytes: seq<Byte>): (r: (ParserState, seq<Event>))
    requires Valid(st)
    ensures Valid(r.0)
    ensures |r.1| <= 1
    ensures |bytes| == 0 ==> r == (st, [])
    ensures st.pending && |bytes| > 0 && bytes[0] < 0x80 ==>
      if EndsSysex(bytes) then r == (Initial(), [Sysex(st.sysex + bytes)]) else r == (ParserState(st.sysex + bytes, true), [])
    ensures !st.pending && ParseMessage(bytes).None? ==> r == (st, [])
    ensures !st.pending && ParseMessage(bytes).Some? ==>
      if ParseMessage(bytes).value.Sysex? && !EndsSysex(bytes) then r == (ParserState(bytes, true), [])
      else r == (st, [ParseMessage(bytes).value])
  {
    if st.pending && |bytes| > 0 && bytes[0] < 0x80 then
      var sysex := st.sysex + bytes;
      if EndsSysex(bytes) then (Initial(), [Sysex(sysex)]) else (ParserState(sysex, true), [])
    else
      var st' := if st.pending && |bytes| > 0 then Initial() else st;
      match ParseMessage(bytes)
      case None => (st', [])
      case Some(data) =>
        if data.Sysex? && !EndsSysex(bytes) then (ParserState(bytes, true), [])
        else
          var timecode := if data.Mtc? then ParseMtc(data.mtcType, data.mtcValue) else [];
          assert [data] + timecode == [data];
          (st', [data] + timecode)
  }

  /** A packet that starts with a status byte abandons a pending SysEx and is decoded as a fresh message. */
  lemma StatusDiscardsSysex(st: ParserState, bytes: seq<Byte>)
    requires Valid(st) && st.pending && |bytes| > 0 && bytes[0] >= 0x80
    ensures Parse(st, bytes) == Parse(Initial(), bytes)
  {
  }

  /** Feeds packets in order; returns the final state and each packet's events. */
  function ParseAll(st: ParserState, packets: seq<seq<Byte>>): (r: (ParserState, seq<seq<Event>>))
    requires Valid(st)
    ensures Valid(r.0) && |r.1| == |packets|
    decreases |packets|
  {
    if |packets| == 0 then (st, [])
    else
      var first := Parse(st, packets[0]);
      var rest := ParseAll(first.0, packets[1..]);
      (rest.0, [first.1] + rest.1)
  }

  function Concat(packets: seq<seq<Byte>>): seq<Byte> {
    if |packets| == 0 then [] else packets[0] + Concat(packets[1..])
  }

  /** Continuation chunks of a SysEx: non-empty data-byte chunks, only the last ending in 0xF7. */
  predicate Continuation(chunks: seq<seq<Byte>>) {
    && |chunks| > 0
    && (forall i :: 0 <= i < |chunks| ==> |chunks[i]| > 0 && chunks[i][0] < 0x80)
    && (forall i :: 0 <= i < |chunks| - 1 ==> !EndsSysex(chunks[i]))
    && EndsSysex(chunks[|chunks| - 1])
  }

  lemma {:induction false} ContinuationCompletes(st: ParserState, chunks: seq<seq<Byte>>)
    requires Valid(st) && st.pending && Continuation(chunks)
    ensures ParseAll(st, chunks).0 == Initial()
    ensures forall i :: 0 <= i < |chunks| - 1 ==> ParseAll(st, chunks).1[i] == []
    ensures ParseAll(st, chunks).1[|chunks| - 1] == [Sysex(st.sysex + Concat(chunks))]
    decreases |chunks|
  {
    var st', events := Parse(st, chunks[0]).0, Parse(st, chunks[0]).1;
    if |chunks| == 1 {
      assert Concat(chunks) == chunks[0] + Concat(chunks[1..]);
      assert chunks[1..] == [];
      assert chunks[0] + [] == chunks[0];
      assert Concat(chunks) == chunks[0];
      assert events == [Sysex(st.sysex + chunks[0])];
      assert ParseAll(st, chunks) == (st', [events] + ParseAll(st', []).1);
    } else {
      var rest := chunks[1..];
      assert forall i :: 0 <= i < |rest| ==> rest[i] == chunks[i + 1];
      assert st' == ParserState(st.sysex + chunks[0], true);
      ContinuationCompletes(st', rest);
      assert Concat(chunks) == chunks[0] + Concat(rest);
      assert st.sysex + Concat(chunks) == st'.sysex + Concat(rest);
    }
  }

  /**
   * A SysEx sent in chunks: the opening chunk and every chunk but the last
   * emit nothing; the last emits one SysEx event holding all the bytes, and
   * the decoder is back in its initial state.
   */
  lemma ChunkedSysex(first: seq<Byte>, chunks: seq<seq<Byte>>)
    requires |first| > 0 && first[0] == 0xf0 && !EndsSysex(first)
    requires Continuation(chunks)
    ensures var r := ParseAll(Initial(), [first] + chunks);
      && r.0 == Initial()
      && |r.1| == |chunks| + 1
      && (forall i :: 0 <= i < |chunks| ==> r.1[i] == [])
      && r.1[|chunks|] == [Sysex(Concat([first] + chunks))]
  {
    var all := [first] + chunks;
    OpensSysex(first);
    var st1 := ParserState(first, true);
    assert all[0] == first && all[1..] == chunks;
    var tail := ParseAll(st1, chunks);
    var r := ParseAll(Initial(), all);
    assert r == (tail.0, [[]] + tail.1);
    ContinuationCompletes(st1, chunks);
    forall i | 0 < i < |chunks|
      ensures r.1[i] == []
    {
      assert r.1[i] == tail.1[i - 1];
    }
    assert r.1[|chunks|] == tail.1[|chunks| - 1];
    assert Concat(all) == first + Concat(chunks);
  }

  /** An opening SysEx packet without its 0xF7 emits nothing and leaves the message pending. */
  lemma OpensSysex(first: seq<Byte>)
    requires |first| > 0 && first[0] == 0xf0 && !EndsSysex(first)
    ensures Parse(Initial(), first) == (ParserState(first, true), [])
  {
    assert ParseMessage(first) == Some(Sysex(first));
  }

  /** The pitch-bend and song-position value is 14 bits wide when both data bytes are 7-bit. */
  lemma Value14Range(lsb: Byte, msb: Byte)
    requires lsb < 128 && msb < 128
    ensures Value14(Some(lsb), Some(msb)).Some? && Value14(Some(lsb), Some(msb)).value < 16384
  {
  }

  /** Encoding a 14-bit value LSB first and decoding it gives it back, and conversely. */
  lemma Value14RoundTrip(v: nat, lsb: Byte, msb: Byte)
    requires v < 16384 && lsb < 128 && msb < 128
    ensures Value14(Some(v % 128), Some(v / 128)) == Some(v)
    ensures var w := Value14(Some(lsb), Some(msb)).value; w % 128 == lsb && w / 128 == msb
  {
  }

  /** A quarter-frame byte `type * 16 + value` decodes back to its type (0..7) and value (0..15). */
  lemma MtcRoundTrip(t: nat, v: nat)
    requires t < 8 && v < 16
    ensures MtcFields(Some(t * 16 + v)) == (t, v)
    ensures ParseMessage([0xf1, t * 16 + v]) == Some(Mtc(t, v))
  {
  }

  /** A quarter-frame message yields exactly its own event: the timecode assembly adds nothing. */
  lemma MtcYieldsOneEvent(st: ParserState, b: Byte)
    requires Valid(st) && !st.pending
    ensures Parse(st, [0xf1, b]).1 == [Mtc((b / 16) % 8, b % 16)]
  {
  }

  /** Channel voice messages: the name depends only on the high nibble and the channel is the low nibble. */
  lemma VoiceStatus(b: Byte, data: seq<Byte>)
    requires 0x80 <= b < 0xf0
    ensures var r := ParseMessage([b] + data);
      && r.Some? && HasChannel(r.value) && r.value.channel == b % 16
      && (b / 16 == 0x9 ==> r.value == NoteOn(b % 16, At(data, 0), At(data, 1)))
      && (b / 16 == 0x8 ==> r.value == NoteOff(b % 16, At(data, 0), At(data, 1)))
      && (b / 16 == 0xb ==> r.value == ControlChange(b % 16, At(data, 0), At(data, 1)))
      && (b / 16 == 0xa ==> r.value == PolyAftertouch(b % 16, At(data, 0), At(data, 1)))
      && (b / 16 == 0xc ==> r.value == Program(b % 16, At(data, 0)))
      && (b / 16 == 0xd ==> r.value == ChannelAftertouch(b % 16, At(data, 0)))
      && (b / 16 == 0xe ==> r.value == Pitch(b % 16, Value14(At(data, 0), At(data, 1))))
  {
    var bytes := [b] + data;
    assert forall i: nat :: i < |data| ==> At(bytes, i + 1) == At(data, i);
    assert At(bytes, 1) == At(data, 0) && At(bytes, 2) == At(data, 1);
  }

  /** System real-time, tune request and a bare end-of-exclusive produce nothing. */
  lemma UnhandledSystemBytes(b: Byte, data: seq<Byte>)
    requires b >= 0xf4
    ensures ParseMessage([b] + data).None?
  {
  }
}

=== FILE: midi_selection.dfy ===
/**
 * Which MIDI input the synth listens to. The inputs of the MIDI access
 * object are a map whose keys, in insertion order, are given here as a
 * duplicate-free sequence; the selection is one key or `""` for none.
 */
module MidiSelection {
  /** A usable selection: nothing, or an available input. */
  predicate Sound(keys: seq<string>, selected: string) {
    selected == "" || selected in keys
  }

  /** The `onMIDIStateChange` updater: applied to the previous selection whenever a device appears or goes away. */
  function OnStateChange(keys: seq<string>, prev: string): (r: string)
    ensures Sound(keys, r)
    ensures |keys| > 0 ==> r in keys
    ensures prev in keys ==> r == prev
    ensures |keys| > 0 && prev !in keys ==> r == keys[0]
    ensures |keys| == 0 ==> r == ""
  {
    if |keys| > 0 && prev !in keys then keys[0]
    else if |keys| == 0 && prev != "" then ""
    else prev
  }

  /** A selection already sound for the current inputs survives the rule, unless it is `""` while inputs exist. */
  lemma SoundSelectionKept(keys: seq<string>, prev: string)
    requires Sound(keys, prev) && (|keys| > 0 ==> prev != "" || "" in keys)
    ensures OnStateChange(keys, prev) == prev
  {
  }

  /** Applying the rule twice equals applying it once. */
  lemma StateChangeIdempotent(keys: seq<string>, prev: string)
    ensures OnStateChange(keys, OnStateChange(keys, prev)) == OnStateChange(keys, prev)
  {
  }

  /** The one-time initial selection and its guard. */
  datatype Selection = Selection(initialized: bool, selected: string)

  function Initial(): Selection {
    Selection(false, "")
  }

  /**
   * The initialisation effect: once MIDI access is granted and the flag is
   * still clear, it sets the flag and selects the first input if there is
   * one; otherwise it does nothing.
   */
  function Initialize(granted: bool, keys: seq<string>, s: Selection): (r: Selection)
    ensures !granted || s.initialized ==> r == s
    ensures granted ==> r.initialized
    ensures granted && !s.initialized && |keys| > 0 ==> r.selected == keys[0]
    ensures |keys| == 0 ==> r.selected == s.selected
  {
    if granted && !s.initialized then
      Selection(true, if |keys| > 0 then keys[0] else s.selected)
    else s
  }

  /** Initialisation runs once: whatever the inputs are at later renders, it no longer changes the selection. */
  lemma InitializeOnce(keys: seq<string>, later: seq<string>, s: Selection)
    ensures Initialize(true, later, Initialize(true, keys, s)) == Initialize(true, keys, s)
  {
  }

  /** The message listener is attached only with MIDI access and a selection that names an input. */
  predicate Listening(granted: bool, keys: seq<string>, selected: string) {
    granted && |keys| > 0 && selected in keys
  }

  /** After a state change, input messages are listened to exactly when some input exists. */
  lemma ListeningAfterStateChange(keys: seq<string>, prev: string)
    ensures Listening(true, keys, OnStateChange(keys, prev)) <==> |keys| > 0
  {
  }
}

=== FILE: notes.dfy ===
/**
 * The hook-based keyboard: held-note bookkeeping with the newest-note
 * fallback, the gate it drives, the computer-keyboard handlers, the type
 * switch and the 25 on-screen keys. `setOscillators` updaters run in call
 * order, so each one is applied as it is issued; gate writes are logged.
 */
module Keyboard {
  import opened Wrappers
  import opened Keymap
  import opened Voices
  import opened Pressed

  /**
   * The frequency of a semitone. The source's `440 * 2^(s/12)` is injective
   * and frequencies are only compared for equality, so the semitone stands
   * for its own frequency.
   */
  function Frequency(semitone: int): int {
    semitone
  }

  /** Type index, held semitones with their press times, oscillator list, and the values written to the gate. */
  datatype State = State(mode: int, held: seq<Entry<int>>, oscs: seq<Oscillator>, gate: seq<int>)

  /** The held object as `Object.keys` sees it: unique names, index names first and ascending. */
  predicate HeldValid(held: seq<Entry<int>>) {
    Distinct(held) && IndexOrder(held)
  }

  /** `startNote`: record the semitone as held now, request its frequency, open the gate. */
  function StartNote(k: State, s: int, now: int): (r: State)
    ensures s in Keys(r.held)
    ensures HeldValid(k.held) ==> HeldValid(r.held)
    ensures r.gate == k.gate + [1] && r.mode == k.mode
    ensures ModeOf(k.mode) != Chord || |k.oscs| > 0 ==> Sounding(r.oscs, Frequency(s))
  {
    if IndexOrder(k.held) then HoldSemitoneKeeps(k.held, s, now); StartedNote(k, s, now)
    else
      HoldKeys(k.held, s, now);
      if IsIndex(s) && s !in Keys(k.held) then InsertKeys(k.held, Entry(s, now), s); StartedNote(k, s, now)
      else StartedNote(k, s, now)
  }

  function StartedNote(k: State, s: int, now: int): State {
    k.(held := HoldSemitone(k.held, s, now),
       oscs := StartFrequency(ModeOf(k.mode), k.oscs, Frequency(s), now),
       gate := k.gate + [1])
  }

  /**
   * `stopNote`: forget the semitone; close the gate when nothing is left
   * held; in mono and chord mode with notes still held, sound the newest
   * of them again instead of stopping.
   */
  function StopNote(k: State, s: int, now: int): (r: State)
    ensures r.held == Remove(k.held, s) && r.mode == k.mode
    ensures s !in Keys(r.held) && |r.held| <= |k.held|
    ensures s in Keys(k.held) ==> |r.held| < |k.held|
    ensures HeldValid(k.held) ==> HeldValid(r.held)
    ensures r.gate == (if |r.held| == 0 then k.gate + [0] else k.gate)
    ensures ModeOf(k.mode) != Poly && |r.held| > 0 ==>
      r.oscs == StartFrequency(ModeOf(k.mode), k.oscs, Frequency(r.held[Newest(r.held)].key), now)
    ensures ModeOf(k.mode) == Poly || |r.held| == 0 ==> r.oscs == StopFrequency(ModeOf(k.mode), k.oscs, Frequency(s))
  {
    var held := Remove(k.held, s);
    RemoveContents(k.held, s);
    if HeldValid(k.held) then RemoveDistinct(k.held, s); RemoveKeepsOrder(k.held, s); Released(k, held, s, now)
    else Released(k, held, s, now)
  }

  function Released(k: State, held: seq<Entry<int>>, s: int, now: int): State {
    var gate := if |held| == 0 then k.gate + [0] else k.gate;
    var mode := ModeOf(k.mode);
    var oscs :=
      if mode != Poly && |held| > 0 then StartFrequency(mode, k.oscs, Frequency(held[Newest(held)].key), now)
      else StopFrequency(mode, k.oscs, Frequency(s));
    k.(held := held, oscs := oscs, gate := gate)
  }

  /** `forEach(stopNote)` over a snapshot of the held names: none of them is held afterwards, and nothing is added. */
  function StopAll(k: State, names: seq<int>, now: int): (r: State)
    ensures r.mode == k.mode
    ensures forall x :: x in Keys(r.held) ==> x in Keys(k.held)
    ensures forall i :: 0 <= i < |names| ==> names[i] !in Keys(r.held)
    decreases |names|
  {
    if |names| == 0 then k
    else
      var k' := StopNote(k, names[0], now);
      RemoveContents(k.held, names[0]);
      var r := StopAll(k', names[1..], now);
      assert forall i :: 1 <= i < |names| ==> names[i] == names[1..][i - 1];
      r
  }

  /** `onRelease`: stop every note held when it is called; nothing is held afterwards. */
  function OnRelease(k: State, now: int): (r: State)
    ensures |r.held| == 0 && r.mode == k.mode
  {
    var r := StopAll(k, Keys(k.held), now);
    assert |r.held| > 0 ==> r.held[0].key in Keys(r.held);
    r
  }

  /** After a release nothing is held, and the gate was closed exactly once if anything had been. */
  lemma {:induction false} ReleaseEmpties(k: State, now: int)
    requires HeldValid(k.held)
    ensures var r := OnRelease(k, now);
      && |r.held| == 0 && r.mode == k.mode
      && r.gate == k.gate + (if |k.held| > 0 then [0] else [])
    decreases |k.held|
  {
    if |k.held| > 0 {
      RemoveFirst(k.held);
      var k' := StopNote(k, k.held[0].key, now);
      assert k'.held == k.held[1..];
      ReleaseEmpties(k', now);
      assert Keys(k.held)[1..] == Keys(k'.held);
    }
  }

  /**
   * Mono mode with two or more notes held: each stop but the last sounds a
   * remaining note on oscillator 0's slot, so the last stop finds its
   * frequency and the release leaves oscillator 0 idle. In chord mode it
   * leaves every oscillator idle.
   */
  lemma {:induction false} ReleaseSilences(k: State, now: int)
    requires HeldValid(k.held) && |k.held| >= 2 && |k.oscs| > 0 && ModeOf(k.mode) != Poly
    ensures var r := OnRelease(k, now);
      && |r.oscs| == |k.oscs|
      && (ModeOf(k.mode) == Mono ==> !r.oscs[0].active)
      && (ModeOf(k.mode) == Chord ==> forall i :: 0 <= i < |r.oscs| ==> !r.oscs[i].active)
    decreases |k.held|
  {
    RemoveFirst(k.held);
    var k' := StopNote(k, k.held[0].key, now);
    assert k'.held == k.held[1..];
    assert Keys(k.held)[1..] == Keys(k'.held);
    assert OnRelease(k, now) == OnRelease(k', now);
    if |k'.held| >= 2 {
      ReleaseSilences(k', now);
    } else {
      var last := k'.held[0].key;
      assert Newest(k'.held) == 0;
      assert Sounding(k'.oscs, Frequency(last));
      RemoveFirst(k'.held);
      var k'' := StopNote(k', last, now);
      assert k''.oscs == StopFrequency(ModeOf(k.mode), k'.oscs, Frequency(last));
      assert FindFrequency(k'.oscs, Frequency(last)).Some?;
      assert OnRelease(k', now) == StopAll(k'', Keys(k'.held)[1..], now);
      assert Keys(k'.held)[1..] == [];
    }
  }

  /** `setType`: release everything under the old mode, then switch. */
  function SetType(k: State, t: int, now: int): (r: State)
    ensures r.mode == t && |r.held| == 0
    ensures r.oscs == OnRelease(k, now).oscs && r.held == OnRelease(k, now).held
  {
    OnRelease(k, now).(mode := t)
  }

  /** Switching type never leaves a note held. */
  lemma SetTypeReleasesFirst(k: State, t: int, now: int)
    requires HeldValid(k.held)
    ensures |SetType(k, t, now).held| == 0
  {
    ReleaseEmpties(k, now);
  }

  /** `onKeyDown`: auto-repeat and unmapped keys are ignored, space releases, a mapped key starts its note. */
  function OnKeyDown(k: State, key: string, repeat: bool, now: int): (r: State)
    ensures repeat ==> r == k
    ensures !repeat && Lower(key) != " " && !IsMappedKey(KeyMap(), Lower(key)) ==> r == k
    ensures !repeat && Lower(key) == " " ==> r == OnRelease(k, now)
    ensures !repeat && IsMappedKey(KeyMap(), Lower(key)) ==>
      && Lookup(KeyMap(), Lower(key)).value in Keys(r.held)
      && r.gate == k.gate + [1]
      && r == StartNote(k, Lookup(KeyMap(), Lower(key)).value, now)
  {
    SpaceUnmapped();
    if repeat then k
    else
      var name := Lower(key);
      if name == " " then OnRelease(k, now)
      else
        match Lookup(KeyMap(), name)
        case None => k
        case Some(s) => StartNote(k, s, now)
  }

  /** `onKeyUp`: auto-repeat and unmapped keys are ignored, a mapped key stops its note. */
  function OnKeyUp(k: State, key: string, repeat: bool, now: int): (r: State)
    ensures repeat || !IsMappedKey(KeyMap(), Lower(key)) ==> r == k
    ensures !repeat && IsMappedKey(KeyMap(), Lower(key)) ==> Lookup(KeyMap(), Lower(key)).value !in Keys(r.held)
  {
    if repeat then k
    else
      match Lookup(KeyMap(), Lower(key))
      case None => k
      case Some(s) => StopNote(k, s, now)
  }

  /** Pressing a key whose note is not held and letting it go leaves the held notes as they were. */
  lemma KeyDownThenUp(k: State, key: string, s: int, now: int, later: int)
    requires Lookup(KeyMap(), Lower(key)) == Some(s) && s !in Keys(k.held)
    ensures OnKeyUp(OnKeyDown(k, key, false, now), key, false, later).held == k.held
  {
    assert Lower(key) != " " by {
      SpaceUnmapped();
    }
    var k1 := OnKeyDown(k, key, false, now);
    assert k1 == StartNote(k, s, now);
    assert k1.held == HoldSemitone(k.held, s, now);
    assert OnKeyUp(k1, key, false, later) == StopNote(k1, s, later);
    HoldSemitoneThenRemove(k.held, s, now);
  }

  /** The on-screen keys: one button per semitone from -12 to 12. */
  function ScreenKeys(): (r: seq<int>)
    ensures |r| == 25 && r[0] == -12 && r[24] == 12
    ensures forall i :: 0 < i < |r| ==> r[i] == r[i - 1] + 1
  {
    seq(25, i => i - 12)
  }

  /** Clicking button `i`: stop its note if an oscillator is sounding it, else start it. */
  function ClickKey(k: State, i: nat, now: int): (r: State)
    requires i < |ScreenKeys()|
    ensures var s := ScreenKeys()[i];
      && (Sounding(k.oscs, Frequency(s)) ==> s !in Keys(r.held))
      && (!Sounding(k.oscs, Frequency(s)) ==> s in Keys(r.held) && r.gate == k.gate + [1])
      && (!Sounding(k.oscs, Frequency(s)) && (ModeOf(k.mode) != Chord || |k.oscs| > 0) ==> Sounding(r.oscs, Frequency(s)))
  {
    var s := ScreenKeys()[i];
    if Sounding(k.oscs, Frequency(s)) then StopNote(k, s, now) else StartNote(k, s, now)
  }

  /** What the user can do. */
  datatype Gesture = KeyDown(key: string, repeat: bool) | KeyUp(key: string, repeat: bool)
                   | Click(button: nat) | ReleaseButton | TypeSlider(t: int)

  function Step(k: State, g: Gesture, now: int): State {
    match g
    case KeyDown(key, repeat) => OnKeyDown(k, key, repeat, now)
    case KeyUp(key, repeat) => OnKeyUp(k, key, repeat, now)
    case Click(i) => if i < |ScreenKeys()| then ClickKey(k, i, now) else k
    case ReleaseButton => OnRelease(k, now)
    case TypeSlider(t) => SetType(k, t, now)
  }

  /** Each held semitone appears once, in `Object.keys` order, whatever the user does. */
  lemma {:induction false} StopAllValid(k: State, names: seq<int>, now: int)
    requires HeldValid(k.held)
    ensures HeldValid(StopAll(k, names, now).held)
    decreases |names|
  {
    if |names| > 0 {
      StopAllValid(StopNote(k, names[0], now), names[1..], now);
    }
  }

  lemma StepKeepsValid(k: State, g: Gesture, now: int)
    requires HeldValid(k.held)
    ensures HeldValid(Step(k, g, now).held)
  {
    StopAllValid(k, Keys(k.held), now);
  }
}

=== FILE: patch.dfy ===
/**
 * The hook-based cable manager and its jacks together: a rack whose jacks
 * are clicked, whose cables are selected and deleted from the keyboard, and
 * whose jack counters are driven by the callbacks the manager runs. After
 * each gesture React renders and runs the manager's effects (the `onConnect`
 * queue flush and the delete effect) before the next gesture arrives; a
 * gesture below is the event together with those effects.
 */
module Patch {
  import opened Wrappers
  import opened AudioGraph
  import opened Wiring
  import opened Connector
  import opened ConnectorProperties
  import opened JackPlug
  import Preset

  /** The manager's state, the audio graph it built, and every jack's counter. */
  datatype Rack = Rack(ui: Ui<Callback>, edges: Edges, counts: Counts)

  function Initial(): Rack {
    Rack(Ui(Empty(), false, None, None), {}, map[])
  }

  /** A user gesture: a plug pressed, a key pressed, a drawn cable clicked. */
  datatype Gesture = Press(jack: Jack, pos: Position) | KeyPress(key: string) | PickCable(index: nat)

  /** Side `s` carries the two callbacks of one jack, as `createConnection` passes them. */
  predicate Tagged(s: Side<Callback>) {
    s.onConnect.OnConnect? && s.onDisconnect == OnDisconnect(s.onConnect.jack)
  }

  predicate HalfTagged(h: Half<Callback>) {
    (h.input.Some? ==> Tagged(h.input.value)) && (h.output.Some? ==> Tagged(h.output.value))
  }

  /** Sides of `h` offered by jack `j`. */
  function HalfUses(h: Half<Callback>, j: nat): nat {
    (if h.input.Some? && h.input.value.onConnect == OnConnect(j) then 1 else 0)
    + (if h.output.Some? && h.output.value.onConnect == OnConnect(j) then 1 else 0)
  }

  /** Cable ends, over committed cables, offered by jack `j`. */
  function CableUses(ps: seq<Half<Callback>>, j: nat): nat
    decreases |ps|
  {
    if |ps| == 0 then 0 else CableUses(ps[..|ps| - 1], j) + HalfUses(ps[|ps| - 1], j)
  }

  /** How many cable ends jack `j` holds: committed cables plus the dangling half. */
  function Uses(ui: Ui<Callback>, j: nat): nat {
    CableUses(ui.conns.positions, j) + (if ui.conns.dangling.Some? then HalfUses(ui.conns.dangling.value, j) else 0)
  }

  /** Between gestures: effects have run, every side is a jack's, and the selection names a cable. */
  predicate Settled(ui: Ui<Callback>) {
    && ui.conns.toConnect == []
    && ui.cableToDelete.None?
    && (ui.selected.Some? ==> ui.selected.value < |ui.conns.positions|)
    && (forall i :: 0 <= i < |ui.conns.positions| ==> HalfTagged(ui.conns.positions[i]))
    && (ui.conns.dangling.Some? ==> HalfTagged(ui.conns.dangling.value))
  }

  /**
   * The manager agrees with the graph, and every jack's counter covers the
   * cable ends it holds (it may exceed them: see `EscapeLeaksCount`).
   */
  ghost predicate Honest(r: Rack) {
    && Consistent(r.ui, r.edges)
    && Settled(r.ui)
    && forall j :: Count(r.counts, j) >= Uses(r.ui, j)
  }

  /** As `Honest`, with every counter equal to the cable ends its jack holds. */
  ghost predicate Exact(r: Rack) {
    Honest(r) && forall j :: Count(r.counts, j) == Uses(r.ui, j)
  }

  predicate Enabled(r: Rack, g: Gesture) {
    match g
    case Press(jack, _) => WellFormed(jack)
    case KeyPress(_) => true
    case PickCable(i) => i < |r.ui.conns.positions|
  }

  /** The click a mounted jack plug hands to the manager when pressed (`createConnection`). */
  function PlugClick(jack: Jack, pos: Position): (c: Click<Callback>)
    ensures Some(c) == CreateConnection(true, jack, pos)
  {
    CreateConnection(true, jack, pos).value
  }

  /** One gesture followed by the effects of the render it causes. */
  function Step(r: Rack, g: Gesture): Rack
    requires Enabled(r, g) && Settled(r.ui)
  {
    match g
    case Press(jack, pos) =>
      var req := Request(r.ui, PlugClick(jack, pos));
      var flushed := Flush(req.0.conns);
      Rack(req.0.(conns := flushed.0), Apply(r.edges, req.1), RunCallbacks(r.counts, flushed.1))
    case KeyPress(key) =>
      var d := DeleteEffect(OnKeyDown(r.ui, key));
      Rack(d.ui, Apply(r.edges, d.ops), RunCallbacks(r.counts, d.calls))
    case PickCable(i) =>
      r.(ui := SelectCable(r.ui, i))
  }

  /** A session of gestures; a gesture the rack cannot receive ends it. */
  function Session(r: Rack, gs: seq<Gesture>): Rack
    decreases |gs|
  {
    if |gs| == 0 || !Enabled(r, gs[0]) || !Settled(r.ui) then r else Session(Step(r, gs[0]), gs[1..])
  }

  lemma CableUsesAppend(ps: seq<Half<Callback>>, h: Half<Callback>, j: nat)
    ensures CableUses(ps + [h], j) == CableUses(ps, j) + HalfUses(h, j)
  {
    assert (ps + [h])[..|ps|] == ps;
  }

  lemma {:induction false} CableUsesConcat(a: seq<Half<Callback>>, b: seq<Half<Callback>>, j: nat)
    ensures CableUses(a + b, j) == CableUses(a, j) + CableUses(b, j)
    decreases |b|
  {
    if |b| > 0 {
      var front, last := b[..|b| - 1], b[|b| - 1];
      assert a + b == (a + front) + [last];
      CableUsesAppend(a + front, last, j);
      CableUsesConcat(a, front, j);
      assert CableUses(b, j) == CableUses(front, j) + HalfUses(last, j);
    } else {
      assert a + b == a;
    }
  }

  /** Removing cable `k` gives up exactly that cable's ends. */
  lemma CableUsesRemove(ps: seq<Half<Callback>>, k: nat, j: nat)
    requires k < |ps|
    ensures CableUses(RemoveAt(ps, k), j) + HalfUses(ps[k], j) == CableUses(ps, j)
  {
    assert ps == ps[..k] + [ps[k]] + ps[k + 1..];
    CableUsesConcat(ps[..k] + [ps[k]], ps[k + 1..], j);
    CableUsesAppend(ps[..k], ps[k], j);
    CableUsesConcat(ps[..k], ps[k + 1..], j);
  }

  /** The half a press offers is held by the pressed jack alone. */
  lemma PressUses(jack: Jack, pos: Position, j: nat)
    requires WellFormed(jack)
    ensures HalfUses(NewSide(PlugClick(jack, pos)), j) == (if j == jack.id then 1 else 0)
    ensures HalfTagged(NewSide(PlugClick(jack, pos)))
  {
  }

  /** Completing a dangling half with the other role adds the new side's ends to the half's. */
  lemma MergeUses(d: Half<Callback>, c: Click<Callback>, j: nat)
    requires WellFormedClick(c) && Partial(d) && !SameRole(d, c)
    ensures HalfUses(Merge(d, NewSide(c)), j) == HalfUses(d, j) + HalfUses(NewSide(c), j)
  {
  }

  /**
   * The delete effect's two `onDisconnect` calls take each jack's counter
   * down by at most the ends it held on the cable, never below zero, and by
   * exactly that many when the counter covered them.
   */
  lemma DisconnectCalls(m: Counts, h: Half<Callback>, j: nat)
    requires Complete(h) && HalfTagged(h) && Count(m, j) >= 0
    ensures var r := RunCallbacks(m, [h.input.value.onDisconnect, h.output.value.onDisconnect]);
      && Count(r, j) >= 0
      && Count(r, j) >= Count(m, j) - HalfUses(h, j)
      && (Count(m, j) >= HalfUses(h, j) ==> Count(r, j) == Count(m, j) - HalfUses(h, j))
  {
    var a, b := h.input.value.onDisconnect, h.output.value.onDisconnect;
    var m1 := RunCallback(m, a);
    var m2 := RunCallback(m1, b);
    assert RunCallbacks(m, [a, b]) == RunCallbacks(m1, [b]);
    assert RunCallbacks(m1, [b]) == RunCallbacks(m2, []);
  }

  /** A plug press keeps the rack honest, and exact when it was exact. */
  lemma {:induction false} PressKeepsHonest(r: Rack, jack: Jack, pos: Position)
    requires Honest(r) && WellFormed(jack)
    ensures Honest(Step(r, Press(jack, pos)))
    ensures Exact(r) ==> Exact(Step(r, Press(jack, pos)))
  {
    var c := PlugClick(jack, pos);
    var r' := Step(r, Press(jack, pos));
    ClickKeepsConsistent(r.ui, r.edges, c);
    if ConnectUpdate(r.ui.conns, c).accepted {
      PressCounts(r, jack, pos);
      if r.ui.conns.dangling.None? {
        PressStartsHalf(r, jack, pos);
      } else {
        PressCompletesHalf(r, jack, pos);
      }
    } else {
      assert r'.ui == r.ui && r'.counts == r.counts;
    }
  }

  /** An accepted press runs exactly the pressed jack's `onConnect`. */
  lemma PressCounts(r: Rack, jack: Jack, pos: Position)
    requires Settled(r.ui) && WellFormed(jack) && ConnectUpdate(r.ui.conns, PlugClick(jack, pos)).accepted
    ensures var r' := Step(r, Press(jack, pos));
      forall j :: Count(r'.counts, j) == Count(r.counts, j) + (if j == jack.id then 1 else 0)
  {
    var c := PlugClick(jack, pos);
    assert Request(r.ui, c).0.conns.toConnect == [OnConnect(jack.id)];
    assert RunCallbacks(r.counts, [OnConnect(jack.id)]) == RunCallbacks(RunCallback(r.counts, OnConnect(jack.id)), []);
  }

  /** An accepted press with nothing dangling adds one end, held by the pressed jack, and stays settled. */
  lemma PressStartsHalf(r: Rack, jack: Jack, pos: Position)
    requires Settled(r.ui) && WellFormed(jack) && r.ui.conns.dangling.None?
    ensures var r' := Step(r, Press(jack, pos));
      && Settled(r'.ui)
      && forall j :: Uses(r'.ui, j) == Uses(r.ui, j) + (if j == jack.id then 1 else 0)
  {
    var r' := Step(r, Press(jack, pos));
    forall j ensures Uses(r'.ui, j) == Uses(r.ui, j) + (if j == jack.id then 1 else 0) {
      PressUses(jack, pos, j);
    }
  }

  /** An accepted press completing the dangling half commits a cable of tagged sides with one more end. */
  lemma PressCompletesHalf(r: Rack, jack: Jack, pos: Position)
    requires Settled(r.ui) && Connector.Valid(r.ui.conns) && WellFormed(jack) && r.ui.conns.dangling.Some?
    requires ConnectUpdate(r.ui.conns, PlugClick(jack, pos)).accepted
    ensures var r' := Step(r, Press(jack, pos));
      && Settled(r'.ui)
      && forall j :: Uses(r'.ui, j) == Uses(r.ui, j) + (if j == jack.id then 1 else 0)
  {
    var c := PlugClick(jack, pos);
    var s := r.ui.conns;
    var r' := Step(r, Press(jack, pos));
    var d := s.dangling.value;
    var m := Merge(d, NewSide(c));
    assert r'.ui.conns.positions == s.positions + [m];
    forall j ensures Uses(r'.ui, j) == Uses(r.ui, j) + (if j == jack.id then 1 else 0) {
      PressUses(jack, pos, j);
      MergeUses(d, c, j);
      CableUsesAppend(s.positions, m, j);
    }
    PressUses(jack, pos, 0);
    assert HalfTagged(m);
    assert forall i :: 0 <= i < |r'.ui.conns.positions| ==> HalfTagged(r'.ui.conns.positions[i]);
  }

  /** A key press keeps the rack honest; it keeps it exact unless it is Escape while a half dangles. */
  lemma {:induction false} KeyKeepsHonest(r: Rack, key: string)
    requires Honest(r)
    ensures Honest(Step(r, KeyPress(key)))
    ensures Exact(r) && !(key == "Escape" && r.ui.conns.dangling.Some?) ==> Exact(Step(r, KeyPress(key)))
  {
    var ui1 := OnKeyDown(r.ui, key);
    assert Consistent(ui1, r.edges);
    DeleteKeepsConsistent(ui1, r.edges);
    if ui1.cableToDelete.Some? {
      KeyDeletesCable(r, key);
    } else {
      KeyDeletesNothing(r, key);
    }
  }

  /** A key press whose delete effect removes a cable gives up that cable's ends and their counts. */
  lemma KeyDeletesCable(r: Rack, key: string)
    requires Honest(r) && OnKeyDown(r.ui, key).cableToDelete.Some?
    ensures var r' := Step(r, KeyPress(key));
      && Settled(r'.ui)
      && (forall j :: Count(r'.counts, j) >= Uses(r'.ui, j))
      && (Exact(r) ==> forall j :: Count(r'.counts, j) == Uses(r'.ui, j))
  {
    var ui1 := OnKeyDown(r.ui, key);
    var r' := Step(r, KeyPress(key));
    var k := ui1.cableToDelete.value;
    var ps := ui1.conns.positions;
    var h := ps[k];
    assert r'.ui.conns.positions == RemoveAt(ps, k);
    forall j ensures Count(r'.counts, j) >= Uses(r'.ui, j)
      ensures Exact(r) ==> Count(r'.counts, j) == Uses(r'.ui, j)
    {
      CableUsesRemove(ps, k, j);
      DisconnectCalls(r.counts, h, j);
    }
    forall i | 0 <= i < |r'.ui.conns.positions| ensures HalfTagged(r'.ui.conns.positions[i]) {
      assert r'.ui.conns.positions[i] == ps[if i < k then i else i + 1];
    }
  }

  /** A key press that deletes nothing holds no more ends than before, and the same unless Escape drops a half. */
  lemma KeyDeletesNothing(r: Rack, key: string)
    requires Honest(r) && OnKeyDown(r.ui, key).cableToDelete.None?
    ensures var r' := Step(r, KeyPress(key));
      && Settled(r'.ui) && r'.counts == r.counts
      && (forall j :: Uses(r'.ui, j) <= Uses(r.ui, j))
      && (!(key == "Escape" && r.ui.conns.dangling.Some?) ==> forall j :: Uses(r'.ui, j) == Uses(r.ui, j))
  {
    var r' := Step(r, KeyPress(key));
    assert r'.ui == OnKeyDown(r.ui, key);
    assert r'.counts == RunCallbacks(r.counts, []);
  }

  lemma {:induction false} StepKeepsHonest(r: Rack, g: Gesture)
    requires Honest(r) && Enabled(r, g)
    ensures Honest(Step(r, g))
    ensures Exact(r) && !(g.KeyPress? && g.key == "Escape" && r.ui.conns.dangling.Some?) ==> Exact(Step(r, g))
  {
    match g
    case Press(jack, pos) => PressKeepsHonest(r, jack, pos);
    case KeyPress(key) => KeyKeepsHonest(r, key);
    case PickCable(i) =>
  }

  lemma InitialExact()
    ensures Exact(Initial())
  {
    forall j ensures Count(Initial().counts, j) == Uses(Initial().ui, j) {}
  }

  /**
   * Over every session the graph equals the committed cables (no duplicates,
   * all complete, at most one dangling half), and every jack that holds a
   * cable end, committed or dangling, is drawn plugged.
   */
  lemma {:induction false} SessionHonest(r: Rack, gs: seq<Gesture>)
    requires Honest(r)
    ensures Honest(Session(r, gs))
    ensures forall j :: Uses(Session(r, gs).ui, j) > 0 ==> Plugged(Count(Session(r, gs).counts, j))
    decreases |gs|
  {
    if |gs| > 0 && Enabled(r, gs[0]) {
      StepKeepsHonest(r, gs[0]);
      SessionHonest(Step(r, gs[0]), gs[1..]);
    }
  }

  /** A gesture that could discard a dangling half without releasing its jack. */
  predicate Cancels(g: Gesture) {
    g.KeyPress? && g.key == "Escape"
  }

  /**
   * Without Escape, counters stay exact: a jack is drawn plugged if and only
   * if it holds a cable end, committed or dangling.
   */
  lemma {:induction false} SessionWithoutEscapeExact(r: Rack, gs: seq<Gesture>)
    requires Exact(r)
    requires forall i :: 0 <= i < |gs| ==> !Cancels(gs[i])
    ensures Exact(Session(r, gs))
    ensures forall j :: Plugged(Count(Session(r, gs).counts, j)) <==> Uses(Session(r, gs).ui, j) > 0
    decreases |gs|
  {
    if |gs| > 0 && Enabled(r, gs[0]) {
      StepKeepsHonest(r, gs[0]);
      SessionWithoutEscapeExact(Step(r, gs[0]), gs[1..]);
    }
  }

  /** An oscillator's "Out" jack (the source) and a mixer's "In" jack (the destination). */
  function OscOut(): Jack { Jack(1, "Out", Some(AudioNode(10)), None) }
  function MixIn(): Jack { Jack(2, "In", None, Some(AudioNode(20))) }

  function At(): Position { Position(0, 0) }

  /** Pressing the oscillator's output then the mixer's input commits one cable and plugs both jacks once. */
  lemma TwoClicksCommitOneCable()
    ensures var r := Session(Initial(), [Press(OscOut(), At()), Press(MixIn(), At())]);
      && |r.ui.conns.positions| == 1 && r.ui.conns.dangling.None?
      && r.edges == {(AudioNode(10), AudioNode(20))}
      && Count(r.counts, 1) == 1 && Count(r.counts, 2) == 1
  {
    var r1 := Step(Initial(), Press(OscOut(), At()));
    var r2 := Step(r1, Press(MixIn(), At()));
    FirstCable();
    assert Session(Initial(), [Press(OscOut(), At()), Press(MixIn(), At())]) == Session(r1, [Press(MixIn(), At())]);
    assert Session(r1, [Press(MixIn(), At())]) == Session(r2, []);
  }

  /** The rack after the oscillator's output and then the mixer's input were pressed. */
  lemma FirstCable()
    ensures var r2 := Step(Step(Initial(), Press(OscOut(), At())), Press(MixIn(), At()));
      && Settled(r2.ui) && r2.ui.selected.None?
      && r2.ui.conns.positions == [Merge(NewSide(PlugClick(OscOut(), At())), NewSide(PlugClick(MixIn(), At())))]
      && r2.ui.conns.dangling.None?
      && r2.edges == {(AudioNode(10), AudioNode(20))}
      && Count(r2.counts, 1) == 1 && Count(r2.counts, 2) == 1
  {
    var r1 := Step(Initial(), Press(OscOut(), At()));
    assert r1.ui.conns.dangling == Some(NewSide(PlugClick(OscOut(), At())));
    assert r1.ui.conns.positions == [];
    assert !HasDuplicate(r1.ui.conns.positions, r1.ui.conns.dangling.value, PlugClick(MixIn(), At()));
  }

  /** With no half dangling, pressing the mixer's input starts a new half and counts the mixer once more. */
  lemma MixerStartsHalf(r: Rack)
    requires Settled(r.ui) && r.ui.conns.dangling.None?
    ensures var r' := Step(r, Press(MixIn(), At()));
      && Settled(r'.ui)
      && r'.ui.conns.positions == r.ui.conns.positions
      && r'.ui.conns.dangling == Some(NewSide(PlugClick(MixIn(), At())))
      && r'.edges == r.edges
      && Count(r'.counts, 1) == Count(r.counts, 1) && Count(r'.counts, 2) == Count(r.counts, 2) + 1
  {
    var c := PlugClick(MixIn(), At());
    assert RunCallbacks(r.counts, [c.onConnect]) == RunCallbacks(RunCallback(r.counts, c.onConnect), []);
  }

  /** Pressing the oscillator's output to complete a pair already committed is rejected and changes nothing. */
  lemma DuplicateRejected(r: Rack)
    requires Settled(r.ui) && |r.ui.conns.positions| > 0
    requires r.ui.conns.positions[0] == Merge(NewSide(PlugClick(OscOut(), At())), NewSide(PlugClick(MixIn(), At())))
    requires r.ui.conns.dangling == Some(NewSide(PlugClick(MixIn(), At())))
    ensures var r' := Step(r, Press(OscOut(), At()));
      r'.ui.conns == r.ui.conns && r'.edges == r.edges && r'.counts == r.counts
  {
    assert DuplicateOf(r.ui.conns.positions[0], r.ui.conns.dangling.value, PlugClick(OscOut(), At()));
  }

  /**
   * Pressing the same two jacks again, destination first: the first press
   * is accepted as a new dangling half (and counted), the second is
   * rejected as a duplicate. One cable stays committed, the mixer's half
   * stays dangling and the mixer's counter reads 2.
   */
  lemma RepeatedPairIsRejected()
    ensures var r := Session(Initial(), [Press(OscOut(), At()), Press(MixIn(), At()), Press(MixIn(), At()), Press(OscOut(), At())]);
      && |r.ui.conns.positions| == 1 && r.ui.conns.dangling.Some?
      && r.edges == {(AudioNode(10), AudioNode(20))}
      && Count(r.counts, 1) == 1 && Count(r.counts, 2) == 2
  {
    var gs := [Press(OscOut(), At()), Press(MixIn(), At()), Press(MixIn(), At()), Press(OscOut(), At())];
    var r1 := Step(Initial(), gs[0]);
    var r2 := Step(r1, gs[1]);
    FirstCable();
    var r3 := Step(r2, gs[2]);
    MixerStartsHalf(r2);
    var r4 := Step(r3, gs[3]);
    DuplicateRejected(r3);
    assert Session(Initial(), gs) == Session(r1, gs[1..]);
    assert Session(r1, gs[1..]) == Session(r2, gs[2..]);
    assert Session(r2, gs[2..]) == Session(r3, gs[3..]);
    assert Session(r3, gs[3..]) == Session(r4, []);
  }

  /**
   * Escape discards a dangling half without calling its `onDisconnect`: the
   * jack is left drawn plugged while holding no cable end.
   */
  lemma EscapeLeaksCount()
    ensures var r := Session(Initial(), [Press(OscOut(), At()), KeyPress("Escape")]);
      && Uses(r.ui, 1) == 0 && Plugged(Count(r.counts, 1))
  {
    var r1 := Step(Initial(), Press(OscOut(), At()));
    var r2 := Step(r1, KeyPress("Escape"));
    assert Session(Initial(), [Press(OscOut(), At()), KeyPress("Escape")]) == Session(r1, [KeyPress("Escape")]);
    assert Session(r1, [KeyPress("Escape")]) == Session(r2, []);
  }

  /** The preset replay clicks: each replayed call presses the registered jack. */
  function ReplayGestures<A>(calls: seq<Preset.Call<Jack, A>>): (gs: seq<Gesture>)
    ensures |gs| == |calls|
    ensures forall i :: 0 <= i < |calls| ==> gs[i] == Press(calls[i].callback, At())
  {
    if |calls| == 0 then [] else [Press(calls[0].callback, At())] + ReplayGestures(calls[1..])
  }

  /**
   * Replaying the preset pair ("osc.Out", "mix.In") with both jacks
   * registered presses them in that order and commits exactly that cable.
   */
  lemma ReplayCommitsOneCable<A>()
    ensures
      var regs := map["osc.Out" := OscOut(), "mix.In" := MixIn()];
      var r := Session(Initial(), ReplayGestures(Preset.PairCalls<Jack, A>([("osc.Out", "mix.In")], regs)));
      && |r.ui.conns.positions| == 1
      && r.edges == {(AudioNode(10), AudioNode(20))}
      && Count(r.counts, 1) == 1 && Count(r.counts, 2) == 1
  {
    var regs := map["osc.Out" := OscOut(), "mix.In" := MixIn()];
    var pairs := [("osc.Out", "mix.In")];
    Preset.AllPresentReplaysEveryPair<Jack, A>(pairs, regs);
    var calls := Preset.PairCalls<Jack, A>(pairs, regs);
    assert ReplayGestures(calls) == [Press(OscOut(), At()), Press(MixIn(), At())];
    TwoClicksCommitOneCable();
  }
}

=== FILE: pitch_buffer.dfy ===
/**
 * The pitch-detection worklet's analysis buffer. After `init-detector` it
 * holds N samples; each `process` call either copies the new block in after
 * the samples received so far (while fewer than N have arrived) or shifts
 * the buffer left by the block's length and appends the block, and once N
 * samples have arrived the buffer goes to the detector. Sample values are
 * opaque; the detector is a parameter.
 */
module PitchBuffer {
  import opened Wrappers

  /** The processor's fields: the buffer, N, the count of samples received, and whether a detector exists. */
  datatype Processor = Processor(samples: seq<real>, n: nat, total: nat, detector: bool)

  function Zeros(k: nat): (r: seq<real>)
    ensures |r| == k && forall i :: 0 <= i < k ==> r[i] == 0.0
  {
    seq(k, i => 0.0)
  }

  /** The constructor: an empty buffer, N = 0, nothing received, no detector. */
  function New(): (p: Processor)
    ensures |p.samples| == 0 && p.n == 0 && p.total == 0 && !p.detector
  {
    Processor([], 0, 0, false)
  }

  /** `init-detector`: N is set, the buffer is N zeros, the count restarts, and a detector exists. */
  function InitDetector(p: Processor, n: nat): (r: Processor)
    ensures r.n == n && r.samples == Zeros(n) && r.total == 0 && r.detector
    ensures Holds(r, [])
  {
    Processor(Zeros(n), n, 0, true)
  }

  /**
   * The fill phase's effect: the block lands at positions `total` onwards;
   * a typed array ignores writes past its end.
   */
  function Filled(samples: seq<real>, total: nat, input: seq<real>): seq<real> {
    seq(|samples|, j requires 0 <= j < |samples| => if total <= j < total + |input| then input[j - total] else samples[j])
  }

  /** The shift phase's effect: the newest `|samples|` of the old buffer followed by the block. */
  function Shifted(samples: seq<real>, input: seq<real>): seq<real> {
    (samples + input)[|input|..]
  }

  /**
   * One `process` call on the buffer and the count. While the buffer fills,
   * the block lands at position `total`; once it is full, the block becomes
   * the buffer's tail and the older samples move forward by its length.
   */
  function Step(p: Processor, input: seq<real>): (r: Processor)
    ensures r.n == p.n && r.detector == p.detector && r.total == p.total + |input|
    ensures |r.samples| == |p.samples|
    ensures p.total < p.n ==>
      (forall j :: 0 <= j < |p.samples| && p.total <= j < p.total + |input| ==> r.samples[j] == input[j - p.total])
      && (forall j :: 0 <= j < |p.samples| && !(p.total <= j < p.total + |input|) ==> r.samples[j] == p.samples[j])
    ensures p.total >= p.n && |input| <= |p.samples| ==>
      r.samples == p.samples[|input|..] + input
  {
    if p.total < p.n then p.(samples := Filled(p.samples, p.total, input), total := p.total + |input|)
    else p.(samples := Shifted(p.samples, input), total := p.total + |input|)
  }

  /** The fill-phase loop: copy the block in from position `total`, dropping what falls past the end. */
  method Fill(samples: seq<real>, total: nat, input: seq<real>) returns (r: seq<real>)
    ensures r == Filled(samples, total, input)
  {
    var buf := new real[|samples|](j requires 0 <= j < |samples| => samples[j]);
    for k := 0 to |input|
      invariant buf.Length == |samples|
      invariant forall j :: 0 <= j < buf.Length ==>
        buf[j] == if total <= j < total + k then input[j - total] else samples[j]
    {
      if total + k < buf.Length {
        buf[total + k] := input[k];
      }
    }
    r := buf[..];
  }

  /**
   * The shift-phase loops: move every sample left by the block's length,
   * then write the block into the vacated end. A block longer than the
   * buffer leaves nothing to move, and only its last part lands.
   */
  method Shift(samples: seq<real>, input: seq<real>) returns (r: seq<real>)
    ensures r == Shifted(samples, input)
  {
    var moved := MoveLeft(samples, |input|);
    r := WriteTail(moved, input);
    ShiftedPointwise(samples, input, r);
  }

  /** The first shift loop: sample `j + len` moves to position `j`, for every position that has one. */
  method MoveLeft(samples: seq<real>, len: nat) returns (r: seq<real>)
    ensures |r| == |samples|
    ensures forall j :: 0 <= j < |r| ==> r[j] == if j + len < |samples| then samples[j + len] else samples[j]
  {
    var buf := new real[|samples|](j requires 0 <= j < |samples| => samples[j]);
    var existing := buf.Length - len;
    var i := 0;
    while i < existing
      invariant buf.Length == |samples| && 0 <= i <= buf.Length
      invariant existing > 0 ==> i <= existing
      invariant existing <= 0 ==> i == 0
      invariant forall j :: 0 <= j < i ==> buf[j] == samples[j + len]
      invariant forall j :: i <= j < buf.Length ==> buf[j] == samples[j]
    {
      buf[i] := buf[i + len];
      i := i + 1;
    }
    r := buf[..];
  }

  /** The second shift loop: the block fills the last positions, dropping what would fall before the start. */
  method WriteTail(moved: seq<real>, input: seq<real>) returns (r: seq<real>)
    ensures |r| == |moved|
    ensures forall j :: 0 <= j < |r| ==> r[j] == if |moved| - |input| <= j then input[j - (|moved| - |input|)] else moved[j]
  {
    var buf := new real[|moved|](j requires 0 <= j < |moved| => moved[j]);
    var existing := buf.Length - |input|;
    for k := 0 to |input|
      invariant buf.Length == |moved|
      invariant forall j :: 0 <= j < buf.Length ==>
        buf[j] == if existing <= j < existing + k then input[j - existing] else moved[j]
    {
      if 0 <= existing + k < buf.Length {
        buf[existing + k] := input[k];
      }
    }
    r := buf[..];
  }

  /** The shift phase's effect, position by position: moved samples, then the block's tail. */
  lemma ShiftedPointwise(samples: seq<real>, input: seq<real>, r: seq<real>)
    requires |r| == |samples|
    requires forall j :: 0 <= j < |r| ==>
      r[j] == if j < |samples| - |input| then samples[j + |input|] else input[j - (|samples| - |input|)]
    ensures r == Shifted(samples, input)
  {
    var want := Shifted(samples, input);
    assert |want| == |r|;
    forall j | 0 <= j < |r|
      ensures r[j] == want[j]
    {
      assert want[j] == (samples + input)[j + |input|];
    }
  }

  /**
   * `process` on the first input's first channel: update the buffer with
   * the loops above, then, once N samples have arrived and a detector
   * exists, run it on the buffer and post any result other than 0. It
   * always asks to be kept alive.
   */
  method Process(p: Processor, input: seq<real>, detect: seq<real> -> real)
    returns (r: Processor, posted: Option<real>, keepAlive: bool)
    ensures r == Step(p, input)
    ensures r.total == p.total + |input| && |r.samples| == |p.samples|
    ensures posted.Some? <==> r.total >= r.n && r.detector && detect(r.samples) != 0.0
    ensures posted.Some? ==> posted.value == detect(r.samples)
    ensures keepAlive
  {
    var samples;
    if p.total < p.n {
      samples := Fill(p.samples, p.total, input);
    } else {
      samples := Shift(p.samples, input);
    }
    r := p.(samples := samples, total := p.total + |input|);
    if r.total >= r.n && r.detector {
      var result := detect(r.samples);
      posted := if result != 0.0 then Some(result) else None;
    } else {
      posted := None;
    }
    keepAlive := true;
  }

  /** What a `process` call that returns leaves: the new state, any posted pitch, and the keep-alive flag. */
  datatype Processed = Processed(r: Processor, posted: Option<real>, keepAlive: bool)

  /**
   * `process` on the inputs it is handed. With no first input, or a first
   * input without channels, reading the samples throws a `TypeError`
   * (`None`); otherwise the first channel of the first input is processed.
   */
  method ProcessInputs(p: Processor, inputs: seq<seq<seq<real>>>, detect: seq<real> -> real) returns (o: Option<Processed>)
    ensures o.None? <==> |inputs| == 0 || |inputs[0]| == 0
    ensures o.Some? ==> o.value.r == Step(p, inputs[0][0]) && o.value.keepAlive
    ensures o.Some? ==> o.value.r.total == p.total + |inputs[0][0]|
    ensures o.Some? ==>
      (o.value.posted.Some? <==> o.value.r.total >= o.value.r.n && o.value.r.detector && detect(o.value.r.samples) != 0.0)
  {
    if |inputs| == 0 || |inputs[0]| == 0 {
      return None;
    }
    var r, posted, keepAlive := Process(p, inputs[0][0], detect);
    return Some(Processed(r, posted, keepAlive));
  }

  /**
   * The buffer after receiving `stream` since `init-detector`: the samples
   * so far followed by zeros while fewer than N have arrived, and after
   * that the latest N samples in arrival order.
   */
  ghost predicate Holds(p: Processor, stream: seq<real>) {
    && |p.samples| == p.n
    && p.total == |stream|
    && (|stream| < p.n ==> p.samples == stream + Zeros(p.n - |stream|))
    && (|stream| >= p.n ==> p.samples == stream[|stream| - p.n..])
  }

  /** A block that fits in the unfilled part, or any block once the buffer is full, keeps the description. */
  lemma StepKeeps(p: Processor, stream: seq<real>, input: seq<real>)
    requires Holds(p, stream)
    requires p.total < p.n ==> p.total + |input| <= p.n
    ensures Holds(Step(p, input), stream + input)
  {
    var s := stream + input;
    var r := Step(p, input);
    if p.total < p.n {
      var want := s + Zeros(p.n - |s|);
      assert |r.samples| == |want|;
      forall j | 0 <= j < p.n
        ensures r.samples[j] == want[j]
      {
        if j < |stream| {
          assert p.samples[j] == stream[j];
        }
      }
      assert r.samples == want;
      if |s| >= p.n {
        assert s[|s| - p.n..] == s;
        assert want == s;
      }
    } else {
      var tail := s[|s| - p.n..];
      assert |r.samples| == |tail|;
      forall j | 0 <= j < p.n
        ensures r.samples[j] == tail[j]
      {
        assert r.samples[j] == (p.samples + input)[j + |input|];
        if j + |input| < p.n {
          assert p.samples[j + |input|] == stream[|stream| - p.n + j + |input|];
        }
      }
      assert r.samples == tail;
    }
  }

  /** All blocks concatenated, in arrival order. */
  function Flatten(blocks: seq<seq<real>>): (r: seq<real>)
    ensures |blocks| > 0 ==> r == blocks[0] + Flatten(blocks[1..])
  {
    if |blocks| == 0 then [] else blocks[0] + Flatten(blocks[1..])
  }

  /** `process` called on each block in turn. */
  function Run(p: Processor, blocks: seq<seq<real>>): (r: Processor)
    ensures r.n == p.n && r.detector == p.detector
    decreases |blocks|
  {
    if |blocks| == 0 then p else Run(Step(p, blocks[0]), blocks[1..])
  }

  /** A whole number of blocks below N, with N a whole number of blocks too, leaves room for one more block. */
  lemma AlignedFits(k: nat, m: nat, b: nat)
    requires k * b < m * b
    ensures k * b + b <= m * b
  {
    assert k < m by {
      if k >= m {
        MulMonotone(m, k, b);
      }
    }
    MulMonotone(k + 1, m, b);
  }

  lemma MulMonotone(x: nat, y: nat, b: nat)
    requires x <= y
    ensures x * b <= y * b
  {
  }

  lemma {:induction false} RunKeeps(p: Processor, stream: seq<real>, blocks: seq<seq<real>>, b: nat, k: nat, m: nat)
    requires Holds(p, stream) && p.n == m * b && |stream| == k * b
    requires forall i :: 0 <= i < |blocks| ==> |blocks[i]| == b
    ensures Holds(Run(p, blocks), stream + Flatten(blocks))
    decreases |blocks|
  {
    if |blocks| == 0 {
      assert stream + Flatten(blocks) == stream;
    } else {
      if p.total < p.n {
        AlignedFits(k, m, b);
      }
      StepKeeps(p, stream, blocks[0]);
      assert |stream + blocks[0]| == (k + 1) * b;
      RunKeeps(Step(p, blocks[0]), stream + blocks[0], blocks[1..], b, k + 1, m);
      assert stream + blocks[0] + Flatten(blocks[1..]) == stream + Flatten(blocks);
    }
  }

  /**
   * With N a multiple of the block length (the worklet's 128-sample blocks
   * and a power-of-two N of at least 128), once N samples have arrived the
   * buffer holds exactly the latest N of them, in arrival order; before
   * that it holds all of them followed by zeros.
   */
  lemma LatestSamples(n: nat, blocks: seq<seq<real>>, b: nat, m: nat)
    requires n == m * b
    requires forall i :: 0 <= i < |blocks| ==> |blocks[i]| == b
    ensures var p := Run(InitDetector(New(), n), blocks); var s := Flatten(blocks);
      && |p.samples| == n && p.total == |s|
      && (|s| >= n ==> p.samples == s[|s| - n..])
      && (|s| < n ==> p.samples == s + Zeros(n - |s|))
  {
    var p0 := InitDetector(New(), n);
    RunFromEmpty(p0, blocks, b, m);
    HoldsMeans(Run(p0, blocks), Flatten(blocks));
  }

  lemma RunFromEmpty(p0: Processor, blocks: seq<seq<real>>, b: nat, m: nat)
    requires Holds(p0, []) && p0.n == m * b
    requires forall i :: 0 <= i < |blocks| ==> |blocks[i]| == b
    ensures Holds(Run(p0, blocks), Flatten(blocks))
  {
    var none: seq<real> := [];
    assert |none| == 0 * b;
    RunKeeps(p0, none, blocks, b, 0, m);
    assert none + Flatten(blocks) == Flatten(blocks);
  }

  lemma HoldsMeans(p: Processor, s: seq<real>)
    requires Holds(p, s)
    ensures |p.samples| == p.n && p.total == |s|
    ensures |s| >= p.n ==> p.samples == s[|s| - p.n..]
    ensures |s| < p.n ==> p.samples == s + Zeros(p.n - |s|)
  {
  }

  /**
   * Without that alignment samples are lost: with N = 3 and blocks of two,
   * the second block's second sample falls past the buffer's end during
   * the fill phase, and after a third block the buffer is not the latest
   * three samples.
   */
  lemma UnalignedBlocksLoseSamples()
    ensures var p := Run(InitDetector(New(), 3), [[1.0, 2.0], [3.0, 4.0], [5.0, 6.0]]);
      p.samples == [3.0, 5.0, 6.0] && p.samples != [4.0, 5.0, 6.0]
  {
    var p0 := InitDetector(New(), 3);
    var p1 := Step(p0, [1.0, 2.0]);
    assert p1.samples == [1.0, 2.0, 0.0];
    var p2 := Step(p1, [3.0, 4.0]);
    assert p2.samples == [1.0, 2.0, 3.0] && p2.total == 4;
    var p3 := Step(p2, [5.0, 6.0]);
    assert p3.samples == [3.0, 5.0, 6.0];
    assert Run(p0, [[1.0, 2.0], [3.0, 4.0], [5.0, 6.0]]) == p3 by {
      assert [[1.0, 2.0], [3.0, 4.0], [5.0, 6.0]][1..] == [[3.0, 4.0], [5.0, 6.0]];
      assert [[3.0, 4.0], [5.0, 6.0]][1..] == [[5.0, 6.0]];
    }
  }
}

=== FILE: preset.dfy ===
/**
 * The preset registry: a tree of scopes, each with an id, through which
 * jacks and sliders register named callbacks. Only the root scope stores
 * registrations; it replays a declarative list of cable pairs and parameter
 * calls once. `Cb` is the type of registered callbacks and `A` the type of
 * parameter arguments; invoking a callback is returned as a `Call` value.
 */
module Preset {
  import opened Wrappers

  /** A key as seen by the parent of a scope with id `id`. */
  function Qualify(id: string, key: string): (r: string)
    ensures id == "" ==> r == key
    ensures id != "" ==> |r| == |id| + 1 + |key| && r[..|id|] == id && r[|id|] == '.' && r[|id| + 1..] == key
  {
    if id == "" then key else id + "." + key
  }

  lemma QualifyInjective(id: string, k1: string, k2: string)
    ensures Qualify(id, k1) == Qualify(id, k2) ==> k1 == k2
  {
    if id != "" && Qualify(id, k1) == Qualify(id, k2) {
      assert k1 == Qualify(id, k1)[|id| + 1..];
    }
  }

  /** The entries a scoped `register` forwards: every key qualified, values kept. */
  function Scoped<Cb>(id: string, entries: map<string, Cb>): (r: map<string, Cb>)
    ensures r.Keys == set k | k in entries :: Qualify(id, k)
    ensures forall k :: k in entries ==> r[Qualify(id, k)] == entries[k]
    ensures id == "" ==> r == entries
  {
    forall k1, k2 | k1 in entries && k2 in entries {
      QualifyInjective(id, k1, k2);
    }
    map k | k in entries :: Qualify(id, k) := entries[k]
  }

  /** The keys a scoped `deregister` forwards, in order. */
  function ScopedKeys(id: string, keys: seq<string>): (r: seq<string>)
    ensures |r| == |keys| && forall i :: 0 <= i < |keys| ==> r[i] == Qualify(id, keys[i])
  {
    if |keys| == 0 then [] else [Qualify(id, keys[0])] + ScopedKeys(id, keys[1..])
  }

  /** The name a key registered under nested scopes `ids` (outermost first) gets at the root. */
  function FullName(ids: seq<string>, key: string): string
    decreases |ids|
  {
    if |ids| == 0 then key else FullName(ids[..|ids| - 1], Qualify(ids[|ids| - 1], key))
  }

  lemma {:induction false} FullNameInjective(ids: seq<string>, k1: string, k2: string)
    ensures FullName(ids, k1) == FullName(ids, k2) ==> k1 == k2
    decreases |ids|
  {
    if |ids| > 0 {
      var last := ids[|ids| - 1];
      FullNameInjective(ids[..|ids| - 1], Qualify(last, k1), Qualify(last, k2));
      QualifyInjective(last, k1, k2);
    }
  }

  /**
   * Entries as the root receives them from a component nested under `ids`:
   * each scope, innermost first, qualifies the keys before forwarding them.
   */
  function Route<Cb>(ids: seq<string>, entries: map<string, Cb>): (r: map<string, Cb>)
    ensures forall k :: k in entries ==> FullName(ids, k) in r && r[FullName(ids, k)] == entries[k]
    decreases |ids|
  {
    if |ids| == 0 then entries
    else
      var front, last := ids[..|ids| - 1], ids[|ids| - 1];
      var s := Scoped(last, entries);
      var r := Route(front, s);
      assert forall k :: k in entries ==> FullName(ids, k) == FullName(front, Qualify(last, k));
      r
  }

  /** Routing invents no names: every name the root receives is the root name of some entry. */
  lemma {:induction false} RouteOnly<Cb>(ids: seq<string>, entries: map<string, Cb>, q: string)
    requires q in Route(ids, entries)
    ensures exists k :: k in entries && q == FullName(ids, k)
    decreases |ids|
  {
    if |ids| > 0 {
      var front, last := ids[..|ids| - 1], ids[|ids| - 1];
      var s := Scoped(last, entries);
      RouteOnly(front, s, q);
      var k' :| k' in s && q == FullName(front, k');
      var k :| k in entries && k' == Qualify(last, k);
      assert q == FullName(ids, k);
    }
  }

  /** One `Preset` instance; `hasParent` says whether an enclosing preset supplies `register`. */
  datatype Instance<Cb> = Instance(id: string, hasParent: bool, registrations: map<string, Cb>, registered: bool)

  /**
   * The instance's own `register`: with a parent it forwards the entries
   * unchanged and keeps its own map; the root merges them, a later
   * registration of a name replacing the earlier one.
   */
  function Register<Cb>(p: Instance<Cb>, entries: map<string, Cb>): (r: (Instance<Cb>, map<string, Cb>))
    ensures p.hasParent ==> r.0 == p && r.1 == entries
    ensures !p.hasParent ==>
      && r.0 == p.(registrations := r.0.registrations)
      && r.1 == map[]
      && r.0.registrations.Keys == p.registrations.Keys + entries.Keys
      && (forall k :: k in entries ==> r.0.registrations[k] == entries[k])
      && (forall k :: k in p.registrations && k !in entries ==> r.0.registrations[k] == p.registrations[k])
  {
    if p.hasParent then (p, entries) else (p.(registrations := p.registrations + entries), map[])
  }

  /** The instance's own `deregister`: the root removes exactly `keys`, a nested instance forwards them. */
  function Deregister<Cb>(p: Instance<Cb>, keys: seq<string>): (r: (Instance<Cb>, seq<string>))
    ensures p.hasParent ==> r.0 == p && r.1 == keys
    ensures !p.hasParent ==>
      && r.0 == p.(registrations := r.0.registrations)
      && r.1 == []
      && (forall k :: k in r.0.registrations <==> k in p.registrations && k !in keys)
      && (forall k :: k in r.0.registrations ==> r.0.registrations[k] == p.registrations[k])
  {
    if p.hasParent then (p, keys) else (p.(registrations := p.registrations - set k | k in keys), [])
  }

  /** A chain of nested instances, root first, each below its predecessor. */
  predicate Chain<Cb>(ps: seq<Instance<Cb>>) {
    |ps| > 0 && !ps[0].hasParent && forall i :: 0 < i < |ps| ==> ps[i].hasParent
  }

  function Ids<Cb>(ps: seq<Instance<Cb>>): (r: seq<string>)
    ensures |r| == |ps| && forall i :: 0 <= i < |ps| ==> r[i] == ps[i].id
  {
    if |ps| == 0 then [] else [ps[0].id] + Ids(ps[1..])
  }

  /**
   * `presetContext.register` of instance `i`: prefix with the instance's id,
   * hand to its own `register`, and so on up to the root, which stores.
   */
  function RegisterVia<Cb>(ps: seq<Instance<Cb>>, i: nat, entries: map<string, Cb>): (r: seq<Instance<Cb>>)
    requires Chain(ps) && i < |ps|
    ensures |r| == |ps| && Chain(r)
    ensures forall j :: 0 < j < |ps| ==> r[j] == ps[j]
    ensures r[0] == ps[0].(registrations := ps[0].registrations + Route(Ids(ps[..i + 1]), entries))
    decreases i
  {
    var scoped := Scoped(ps[i].id, entries);
    var reg := Register(ps[i], scoped);
    var p', forwarded := reg.0, reg.1;
    if i == 0 then
      assert Ids(ps[..1]) == [ps[0].id];
      ps[0 := p']
    else
      var r := RegisterVia(ps, i - 1, forwarded);
      assert Ids(ps[..i + 1]) == Ids(ps[..i]) + [ps[i].id] by {
        assert ps[..i + 1] == ps[..i] + [ps[i]];
        IdsAppend(ps[..i], ps[i]);
      }
      r
  }

  lemma IdsAppend<Cb>(ps: seq<Instance<Cb>>, p: Instance<Cb>)
    ensures Ids(ps + [p]) == Ids(ps) + [p.id]
  {
  }

  /** Root names of `keys` deregistered from under nested scopes `ids`. */
  function FullNames(ids: seq<string>, keys: seq<string>): set<string> {
    set k | k in keys :: FullName(ids, k)
  }

  lemma FullNamesStep(ids: seq<string>, keys: seq<string>)
    requires |ids| > 0
    ensures FullNames(ids, keys) == FullNames(ids[..|ids| - 1], ScopedKeys(ids[|ids| - 1], keys))
  {
    var front, last := ids[..|ids| - 1], ids[|ids| - 1];
    var scoped := ScopedKeys(last, keys);
    forall q | q in FullNames(ids, keys) ensures q in FullNames(front, scoped) {
      var k :| k in keys && q == FullName(ids, k);
      var n :| 0 <= n < |keys| && keys[n] == k;
      assert FullName(ids, k) == FullName(front, scoped[n]);
      assert scoped[n] in scoped;
    }
    forall q | q in FullNames(front, scoped) ensures q in FullNames(ids, keys) {
      var k :| k in scoped && q == FullName(front, k);
      var n :| 0 <= n < |scoped| && scoped[n] == k;
      assert FullName(ids, keys[n]) == q;
    }
  }

  /**
   * `presetContext.deregister` of instance `i`: prefix every key with the
   * instance's id and hand the list up; the root removes exactly those names.
   */
  function DeregisterVia<Cb>(ps: seq<Instance<Cb>>, i: nat, keys: seq<string>): (r: seq<Instance<Cb>>)
    requires Chain(ps) && i < |ps|
    ensures |r| == |ps| && Chain(r)
    ensures forall j :: 0 < j < |ps| ==> r[j] == ps[j]
    ensures r[0] == ps[0].(registrations := ps[0].registrations - FullNames(Ids(ps[..i + 1]), keys))
    decreases i
  {
    var scoped := ScopedKeys(ps[i].id, keys);
    var dereg := Deregister(ps[i], scoped);
    var p', forwarded := dereg.0, dereg.1;
    assert Ids(ps[..i + 1]) == Ids(ps[..i]) + [ps[i].id] by {
      assert ps[..i + 1] == ps[..i] + [ps[i]];
      IdsAppend(ps[..i], ps[i]);
    }
    FullNamesStep(Ids(ps[..i + 1]), keys);
    assert Ids(ps[..i + 1])[..i] == Ids(ps[..i]);
    if i == 0 then
      assert FullNames([], scoped) == set k | k in scoped;
      ps[0 := p']
    else
      DeregisterVia(ps, i - 1, forwarded)
  }

  /** The names a component's entries reach the root under are exactly the root names of its keys. */
  lemma RouteKeys<Cb>(ids: seq<string>, entries: map<string, Cb>, keys: seq<string>)
    requires forall k :: k in entries <==> k in keys
    ensures Route(ids, entries).Keys == FullNames(ids, keys)
  {
    var routed := Route(ids, entries);
    forall q | q in routed ensures q in FullNames(ids, keys) {
      RouteOnly(ids, entries, q);
    }
    forall q | q in FullNames(ids, keys) ensures q in routed {}
  }

  lemma MergeThenRemove<K, V>(m: map<K, V>, n: map<K, V>)
    requires m.Keys !! n.Keys
    ensures (m + n) - n.Keys == m
  {
    var after := (m + n) - n.Keys;
    assert after.Keys == m.Keys;
    forall q | q in after ensures after[q] == m[q] {}
  }

  lemma RootRoundTrip<Cb>(before: map<string, Cb>, ids: seq<string>, entries: map<string, Cb>, keys: seq<string>)
    requires forall k :: k in entries <==> k in keys
    requires forall k :: k in keys ==> FullName(ids, k) !in before
    ensures (before + Route(ids, entries)) - FullNames(ids, keys) == before
  {
    RouteKeys(ids, entries, keys);
    MergeThenRemove(before, Route(ids, entries));
  }

  /**
   * Mounting then unmounting a component restores the registry: registering
   * `entries` from instance `i` and then deregistering its keys leaves every
   * instance as it was, provided the root held none of those names before.
   */
  lemma RegisterThenDeregister<Cb>(ps: seq<Instance<Cb>>, i: nat, entries: map<string, Cb>, keys: seq<string>)
    requires Chain(ps) && i < |ps|
    requires forall k :: k in entries <==> k in keys
    requires forall k :: k in keys ==> FullName(Ids(ps[..i + 1]), k) !in ps[0].registrations
    ensures DeregisterVia(RegisterVia(ps, i, entries), i, keys) == ps
  {
    var r := DeregisterVia(RegisterVia(ps, i, entries), i, keys);
    RootRestored(ps, i, entries, keys);
    SameInstances(r, ps);
  }

  /** The root's registry after the round trip is the one before it. */
  lemma RootRestored<Cb>(ps: seq<Instance<Cb>>, i: nat, entries: map<string, Cb>, keys: seq<string>)
    requires Chain(ps) && i < |ps|
    requires forall k :: k in entries <==> k in keys
    requires forall k :: k in keys ==> FullName(Ids(ps[..i + 1]), k) !in ps[0].registrations
    ensures DeregisterVia(RegisterVia(ps, i, entries), i, keys)[0] == ps[0]
  {
    var mid := RegisterVia(ps, i, entries);
    var ids := Ids(ps[..i + 1]);
    SameIds(mid, ps, i + 1);
    var r := DeregisterVia(mid, i, keys);
    var before := ps[0].registrations;
    assert mid[0].registrations == before + Route(ids, entries);
    assert r[0].registrations == mid[0].registrations - FullNames(ids, keys);
    RootRoundTrip(before, ids, entries, keys);
  }

  lemma SameInstances<Cb>(r: seq<Instance<Cb>>, ps: seq<Instance<Cb>>)
    requires |r| == |ps| && |ps| > 0 && r[0] == ps[0]
    requires forall j :: 0 < j < |ps| ==> r[j] == ps[j]
    ensures r == ps
  {
    assert forall j :: 0 <= j < |ps| ==> r[j] == ps[j];
  }

  lemma SameIds<Cb>(ps: seq<Instance<Cb>>, qs: seq<Instance<Cb>>, n: nat)
    requires n <= |ps| == |qs| && |ps| > 0 && ps[0].id == qs[0].id
    requires forall j :: 0 < j < |ps| ==> ps[j] == qs[j]
    ensures Ids(ps[..n]) == Ids(qs[..n])
  {
    var a, b := Ids(ps[..n]), Ids(qs[..n]);
    assert |a| == |b|;
    forall j | 0 <= j < n
      ensures a[j] == b[j]
    {
      assert a[j] == ps[j].id && b[j] == qs[j].id;
    }
  }

  /** One invocation of a registered callback. */
  datatype Call<Cb, A> = Call(callback: Cb, args: seq<A>)

  /** The cable part of the replay: both callbacks of every pair whose two names are registered, in list order. */
  function PairCalls<Cb(==), A>(pairs: seq<(string, string)>, regs: map<string, Cb>): (r: seq<Call<Cb, A>>)
    ensures |r| <= 2 * |pairs|
    ensures forall i :: 0 <= i < |r| ==> |r[i].args| == 0 && r[i].callback in regs.Values
    decreases |pairs|
  {
    if |pairs| == 0 then []
    else
      var (a, b) := pairs[0];
      var rest := PairCalls<Cb, A>(pairs[1..], regs);
      (if a in regs && b in regs then [Call(regs[a], []), Call(regs[b], [])] else []) + rest
  }

  /** The parameter part of the replay: each registered name called with its arguments, in list order. */
  function ParamCalls<Cb(==), A>(params: seq<(string, seq<A>)>, regs: map<string, Cb>): (r: seq<Call<Cb, A>>)
    ensures |r| <= |params|
    ensures forall i :: 0 <= i < |r| ==> r[i].callback in regs.Values
    ensures |r| == |params| <==> forall i :: 0 <= i < |params| ==> params[i].0 in regs
    decreases |params|
  {
    if |params| == 0 then []
    else
      var (name, args) := params[0];
      (if name in regs then [Call(regs[name], args)] else []) + ParamCalls(params[1..], regs)
  }

  /** `list?.length === 0 || registered || no registrations`: the effect returns early. */
  predicate Skips<T, Cb>(list: Option<seq<T>>, registered: bool, regs: map<string, Cb>) {
    (list.Some? && |list.value| == 0) || registered || |regs| == 0
  }

  /**
   * The two replay effects after a render. Both read the same `registered`
   * value; each that does not return early sets it, and replays what it can
   * (an absent list replays nothing).
   */
  function AfterRender<Cb(==), A>(p: Instance<Cb>, conns: Option<seq<(string, string)>>, params: Option<seq<(string, seq<A>)>>): (r: (Instance<Cb>, seq<Call<Cb, A>>))
    ensures p.registered ==> r == (p, [])
    ensures r.0 == p.(registered := r.0.registered)
    ensures r.0.registered <==> p.registered || !Skips(conns, false, p.registrations) || !Skips(params, false, p.registrations)
    ensures |r.1| > 0 ==> !p.registered && r.0.registered
    ensures |p.registrations| == 0 ==> r == (p, [])
    ensures !p.registered && |p.registrations| > 0 ==>
      r.1 == (if conns.Some? then PairCalls(conns.value, p.registrations) else [])
             + (if params.Some? then ParamCalls(params.value, p.registrations) else [])
  {
    var regs := p.registrations;
    var connCalls: seq<Call<Cb, A>> :=
      if Skips(conns, p.registered, regs) || conns.None? then [] else PairCalls(conns.value, regs);
    var paramCalls :=
      if Skips(params, p.registered, regs) || params.None? then [] else ParamCalls(params.value, regs);
    var fired := !Skips(conns, p.registered, regs) || !Skips(params, p.registered, regs);
    (p.(registered := p.registered || fired), connCalls + paramCalls)
  }

  /** Root-level events: registrations arriving, leaving, and renders running the effects. */
  datatype Event<Cb> = Registered(entries: map<string, Cb>) | Deregistered(keys: seq<string>) | Rendered

  /** Replays a root instance through `events`; returns the final instance and every replayed call. */
  function RunRoot<Cb(==), A>(p: Instance<Cb>, conns: Option<seq<(string, string)>>, params: Option<seq<(string, seq<A>)>>, events: seq<Event<Cb>>): (Instance<Cb>, seq<seq<Call<Cb, A>>>)
    decreases |events|
  {
    if |events| == 0 then (p, [])
    else
      match events[0]
      case Registered(entries) => RunRoot(Register(p, entries).0, conns, params, events[1..])
      case Deregistered(keys) => RunRoot(Deregister(p, keys).0, conns, params, events[1..])
      case Rendered =>
        var (p', calls) := AfterRender(p, conns, params);
        var (q, rest) := RunRoot(p', conns, params, events[1..]);
        (q, [calls] + rest)
  }

  /** Number of renders whose effects replayed something. */
  function Firings<Cb, A>(batches: seq<seq<Call<Cb, A>>>): nat {
    if |batches| == 0 then 0 else (if |batches[0]| > 0 then 1 else 0) + Firings(batches[1..])
  }

  /**
   * Replay is a one-shot bootstrap: over any sequence of registrations,
   * deregistrations and renders at most one render replays anything, and
   * none does once the shared flag is set.
   */
  lemma {:induction false} ReplayAtMostOnce<Cb, A>(p: Instance<Cb>, conns: Option<seq<(string, string)>>, params: Option<seq<(string, seq<A>)>>, events: seq<Event<Cb>>)
    ensures Firings(RunRoot(p, conns, params, events).1) <= 1
    ensures p.registered ==> Firings(RunRoot(p, conns, params, events).1) == 0
    ensures p.registered ==> RunRoot(p, conns, params, events).0.registered
    decreases |events|
  {
    if |events| > 0 {
      match events[0]
      case Registered(entries) => ReplayAtMostOnce(Register(p, entries).0, conns, params, events[1..]);
      case Deregistered(keys) => ReplayAtMostOnce(Deregister(p, keys).0, conns, params, events[1..]);
      case Rendered =>
        var (p', calls) := AfterRender(p, conns, params);
        ReplayAtMostOnce(p', conns, params, events[1..]);
        if |calls| > 0 {
          assert p'.registered;
        }
    }
  }

  /** With every name of a pair list registered, the replay clicks each pair's first then second callback, in list order. */
  lemma {:induction false} AllPresentReplaysEveryPair<Cb, A>(pairs: seq<(string, string)>, regs: map<string, Cb>)
    requires forall i :: 0 <= i < |pairs| ==> pairs[i].0 in regs && pairs[i].1 in regs
    ensures |PairCalls<Cb, A>(pairs, regs)| == 2 * |pairs|
    ensures forall i :: 0 <= i < |pairs| ==>
      PairCalls<Cb, A>(pairs, regs)[2 * i] == Call(regs[pairs[i].0], [])
      && PairCalls<Cb, A>(pairs, regs)[2 * i + 1] == Call(regs[pairs[i].1], [])
    decreases |pairs|
  {
    if |pairs| > 0 {
      AllPresentReplaysEveryPair<Cb, A>(pairs[1..], regs);
      var rest := PairCalls<Cb, A>(pairs[1..], regs);
      var head: seq<Call<Cb, A>> := [Call(regs[pairs[0].0], []), Call(regs[pairs[0].1], [])];
      assert PairCalls<Cb, A>(pairs, regs) == head + rest;
      forall i | 0 < i < |pairs|
        ensures PairCalls<Cb, A>(pairs, regs)[2 * i] == Call(regs[pairs[i].0], [])
        ensures PairCalls<Cb, A>(pairs, regs)[2 * i + 1] == Call(regs[pairs[i].1], [])
      {
        assert pairs[1..][i - 1] == pairs[i];
        assert (head + rest)[2 * i] == rest[2 * (i - 1)];
        assert (head + rest)[2 * i + 1] == rest[2 * (i - 1) + 1];
      }
    }
  }

  /** A pair with a missing name contributes no call. */
  /** A pair whose two names are registered is replayed first, both callbacks without arguments, before the rest. */
  lemma PairHead<Cb, A>(pair: (string, string), rest: seq<(string, string)>, regs: map<string, Cb>)
    requires pair.0 in regs && pair.1 in regs
    ensures PairCalls<Cb, A>([pair] + rest, regs) == [Call(regs[pair.0], []), Call(regs[pair.1], [])] + PairCalls<Cb, A>(rest, regs)
  {
    assert ([pair] + rest)[1..] == rest;
  }

  lemma MissingNameSkipsPair<Cb, A>(pair: (string, string), rest: seq<(string, string)>, regs: map<string, Cb>)
    requires pair.0 !in regs || pair.1 !in regs
    ensures PairCalls<Cb, A>([pair] + rest, regs) == PairCalls<Cb, A>(rest, regs)
  {
    assert ([pair] + rest)[1..] == rest;
  }

  /** With every parameter name registered, the replay calls each name's callback with its arguments, in list order. */
  lemma {:induction false} AllPresentReplaysEveryParam<Cb, A>(params: seq<(string, seq<A>)>, regs: map<string, Cb>)
    requires forall i :: 0 <= i < |params| ==> params[i].0 in regs
    ensures |ParamCalls(params, regs)| == |params|
    ensures forall i :: 0 <= i < |params| ==> ParamCalls(params, regs)[i] == Call(regs[params[i].0], params[i].1)
    decreases |params|
  {
    if |params| > 0 {
      AllPresentReplaysEveryParam(params[1..], regs);
      var rest := ParamCalls(params[1..], regs);
      var head: seq<Call<Cb, A>> := [Call(regs[params[0].0], params[0].1)];
      assert ParamCalls(params, regs) == head + rest;
      forall i | 0 < i < |params|
        ensures ParamCalls(params, regs)[i] == Call(regs[params[i].0], params[i].1)
      {
        assert params[1..][i - 1] == params[i];
        assert (head + rest)[i] == rest[i - 1];
      }
    }
  }

  /** A parameter whose name is registered is called first, with its arguments; an unregistered one is skipped. */
  lemma ParamHead<Cb, A>(param: (string, seq<A>), rest: seq<(string, seq<A>)>, regs: map<string, Cb>)
    ensures param.0 in regs ==> ParamCalls([param] + rest, regs) == [Call(regs[param.0], param.1)] + ParamCalls(rest, regs)
    ensures param.0 !in regs ==> ParamCalls([param] + rest, regs) == ParamCalls(rest, regs)
  {
    assert ([param] + rest)[1..] == rest;
  }

  /** Replaying two lists one after the other makes the calls of the first, then those of the second. */
  lemma {:induction false} ParamCallsConcat<Cb, A>(a: seq<(string, seq<A>)>, b: seq<(string, seq<A>)>, regs: map<string, Cb>)
    ensures ParamCalls(a + b, regs) == ParamCalls(a, regs) + ParamCalls(b, regs)
    decreases |a|
  {
    if |a| == 0 {
      assert a + b == b;
    } else {
      assert (a + b)[0] == a[0] && (a + b)[1..] == a[1..] + b;
      ParamCallsConcat(a[1..], b, regs);
    }
  }

  /** Registrations with disjoint names commute: the root map does not depend on mount order. */
  lemma RegistrationOrderIrrelevant<Cb>(p: Instance<Cb>, a: map<string, Cb>, b: map<string, Cb>)
    requires !p.hasParent && a.Keys !! b.Keys
    ensures Register(Register(p, a).0, b).0 == Register(Register(p, b).0, a).0
  {
    var x := Register(Register(p, a).0, b).0.registrations;
    var y := Register(Register(p, b).0, a).0.registrations;
    assert x.Keys == y.Keys;
    forall k | k in x ensures x[k] == y[k] {}
  }
}

=== FILE: pressed.dfy ===
/**
 * The keys (or semitones) currently held, each with the time it was last
 * pressed: the plain object both keyboards keep outside React state. The
 * list is in the object's property order: insertion order for key
 * characters; for semitones, the array-index names (non-negative integers)
 * first in ascending order, then the others in insertion order.
 */
module Pressed {
  datatype Entry<K> = Entry(key: K, time: int)

  /** The property names, in order (`Object.keys`). */
  function Keys<K>(held: seq<Entry<K>>): (r: seq<K>)
    ensures |r| == |held| && forall i :: 0 <= i < |held| ==> r[i] == held[i].key
  {
    if |held| == 0 then [] else [held[0].key] + Keys(held[1..])
  }

  /** Property names are unique. */
  predicate Distinct<K(==)>(held: seq<Entry<K>>) {
    forall i, j :: 0 <= i < j < |Keys(held)| ==> Keys(held)[i] != Keys(held)[j]
  }

  lemma KeysAppend<K>(held: seq<Entry<K>>, e: Entry<K>)
    ensures Keys(held + [e]) == Keys(held) + [e.key]
  {
  }

  /** `held[k] = now` with insertion-ordered names: a new key goes last, a held one keeps its place and takes the new time. */
  function Hold<K(==)>(held: seq<Entry<K>>, k: K, now: int): (r: seq<Entry<K>>)
    ensures k in Keys(held) ==> Keys(r) == Keys(held)
    ensures Distinct(held) && k in Keys(held) ==>
      forall i :: 0 <= i < |held| ==> r[i] == (if held[i].key == k then Entry(k, now) else held[i])
    ensures k !in Keys(held) ==> r == held + [Entry(k, now)]
  {
    if |held| == 0 then [Entry(k, now)]
    else if held[0].key == k then [Entry(k, now)] + held[1..]
    else
      var r := [held[0]] + Hold(held[1..], k, now);
      assert Keys(held) == [held[0].key] + Keys(held[1..]);
      DistinctCons(held[0], held[1..]);
      assert [held[0]] + held[1..] == held;
      r
  }

  /** After a press the key is held, and names stay unique. */
  lemma HoldKeys<K>(held: seq<Entry<K>>, k: K, now: int)
    ensures k in Keys(Hold(held, k, now))
    ensures Distinct(held) ==> Distinct(Hold(held, k, now))
  {
    if k !in Keys(held) {
      KeysAppend(held, Entry(k, now));
      assert Keys(Hold(held, k, now)) == Keys(held) + [k];
    }
  }

  /** `delete held[k]`. */
  function Remove<K(==)>(held: seq<Entry<K>>, k: K): (r: seq<Entry<K>>)
    ensures k in Keys(held) ==> |r| < |held|
    ensures |r| <= |held|
  {
    if |held| == 0 then []
    else
      var rest := Remove(held[1..], k);
      assert Keys(held) == [held[0].key] + Keys(held[1..]);
      if held[0].key == k then rest
      else
        var r := [held[0]] + rest;
        assert Keys(r) == [held[0].key] + Keys(rest);
        r
  }

  lemma DistinctCons<K>(e: Entry<K>, held: seq<Entry<K>>)
    ensures Keys([e] + held) == [e.key] + Keys(held)
    ensures Distinct([e] + held) <==> e.key !in Keys(held) && Distinct(held)
  {
    var r := [e] + held;
    assert Keys(r) == [e.key] + Keys(held) by {
      assert r[1..] == held;
    }
    if e.key !in Keys(held) && Distinct(held) {
      forall i, j | 0 <= i < j < |Keys(r)|
        ensures Keys(r)[i] != Keys(r)[j]
      {
        if i > 0 {
          assert Keys(r)[i] == Keys(held)[i - 1] && Keys(r)[j] == Keys(held)[j - 1];
        } else {
          assert Keys(r)[j] == Keys(held)[j - 1];
        }
      }
    }
    if Distinct(r) {
      forall i, j | 0 <= i < j < |Keys(held)|
        ensures Keys(held)[i] != Keys(held)[j]
      {
        assert Keys(r)[i + 1] != Keys(r)[j + 1];
      }
      assert forall j :: 0 <= j < |Keys(held)| ==> Keys(r)[j + 1] == Keys(held)[j] != Keys(r)[0];
    }
  }

  /** Deleting a name keeps the names unique. */
  lemma {:induction false} RemoveDistinct<K>(held: seq<Entry<K>>, k: K)
    requires Distinct(held)
    ensures Distinct(Remove(held, k))
    decreases |held|
  {
    if |held| > 0 {
      DistinctCons(held[0], held[1..]);
      assert [held[0]] + held[1..] == held;
      RemoveDistinct(held[1..], k);
      if held[0].key != k {
        RemoveKeepsAbsent(held[1..], k, held[0].key);
        DistinctCons(held[0], Remove(held[1..], k));
      }
    }
  }

  /** Deleting a name adds no name. */
  lemma {:induction false} RemoveKeepsAbsent<K>(held: seq<Entry<K>>, k: K, x: K)
    requires x !in Keys(held)
    ensures x !in Keys(Remove(held, k))
    decreases |held|
  {
    if |held| > 0 {
      assert Keys(held) == [held[0].key] + Keys(held[1..]);
      RemoveKeepsAbsent(held[1..], k, x);
      if held[0].key != k {
        assert Keys(Remove(held, k)) == [held[0].key] + Keys(Remove(held[1..], k));
      }
    }
  }

  /** Deleting a name that is not held changes nothing. */
  lemma {:induction false} RemoveAbsent<K>(held: seq<Entry<K>>, k: K)
    requires forall i :: 0 <= i < |held| ==> held[i].key != k
    ensures Remove(held, k) == held
    decreases |held|
  {
    if |held| > 0 {
      RemoveAbsent(held[1..], k);
      assert [held[0]] + held[1..] == held;
    }
  }

  /** With unique names, deleting the first name leaves the others in order. */
  lemma RemoveFirst<K>(held: seq<Entry<K>>)
    requires Distinct(held) && |held| > 0
    ensures Remove(held, held[0].key) == held[1..]
    ensures Distinct(held[1..]) && Keys(held[1..]) == Keys(held)[1..]
  {
    DistinctCons(held[0], held[1..]);
    assert [held[0]] + held[1..] == held;
    RemoveAbsent(held[1..], held[0].key);
  }

  /** Deleting a name keeps exactly the entries with other names, times included. */
  lemma {:induction false} RemoveContents<K(!new)>(held: seq<Entry<K>>, k: K)
    ensures forall e :: e in Remove(held, k) <==> e in held && e.key != k
    ensures forall x :: x in Keys(Remove(held, k)) ==> x in Keys(held)
    ensures k !in Keys(Remove(held, k))
    decreases |held|
  {
    if |held| > 0 {
      RemoveContents(held[1..], k);
      assert held == [held[0]] + held[1..];
      assert forall e :: e in held <==> e == held[0] || e in held[1..];
    }
  }

  /** Deleting a name drops its entry and keeps every other entry, time and place. */
  lemma {:induction false} RemoveSplits<K>(a: seq<Entry<K>>, e: Entry<K>, b: seq<Entry<K>>)
    requires forall i :: 0 <= i < |a| ==> a[i].key != e.key
    requires forall i :: 0 <= i < |b| ==> b[i].key != e.key
    ensures Remove(a + [e] + b, e.key) == a + b
    decreases |a|
  {
    if |a| == 0 {
      assert a + [e] + b == [e] + b;
      assert ([e] + b)[1..] == b;
      RemoveAbsent(b, e.key);
    } else {
      RemoveSplits(a[1..], e, b);
      RemoveSplitsStep(a, e, b);
    }
  }

  lemma RemoveSplitsStep<K>(a: seq<Entry<K>>, e: Entry<K>, b: seq<Entry<K>>)
    requires |a| > 0 && a[0].key != e.key
    requires Remove(a[1..] + [e] + b, e.key) == a[1..] + b
    ensures Remove(a + [e] + b, e.key) == a + b
  {
    var s := a + [e] + b;
    assert s[0] == a[0] && s[1..] == a[1..] + [e] + b;
    RemoveHead(s, e.key);
    assert [a[0]] + (a[1..] + b) == a + b;
  }

  lemma RemoveHead<K>(s: seq<Entry<K>>, k: K)
    requires |s| > 0 && s[0].key != k
    ensures Remove(s, k) == [s[0]] + Remove(s[1..], k)
  {
  }

  /** Pressing a key that was not held and releasing it restores the set. */
  lemma {:induction false} HoldThenRemove<K>(held: seq<Entry<K>>, k: K, now: int)
    requires k !in Keys(held)
    ensures Remove(Hold(held, k, now), k) == held
    decreases |held|
  {
    if |held| > 0 {
      assert Keys(held) == [held[0].key] + Keys(held[1..]);
      HoldThenRemove(held[1..], k, now);
      assert Hold(held, k, now) == [held[0]] + Hold(held[1..], k, now);
    }
  }

  /** An array-index property name: an integer from 0 to 2^32 - 2. */
  predicate IsIndex(name: int) {
    0 <= name < 0xFFFF_FFFF
  }

  /** In `Object.keys` order `x` may come before `y`: an index name is preceded only by smaller index names. */
  predicate Before(x: Entry<int>, y: Entry<int>) {
    IsIndex(y.key) ==> IsIndex(x.key) && x.key < y.key
  }

  /** `Object.keys` order for integer names: the index names come first, ascending. */
  predicate IndexOrder(held: seq<Entry<int>>) {
    forall i, j :: 0 <= i < j < |held| ==> Before(held[i], held[j])
  }

  /** Every entry of `held` may follow `x`. */
  predicate AllAfter(x: Entry<int>, held: seq<Entry<int>>) {
    forall j :: 0 <= j < |held| ==> Before(x, held[j])
  }

  lemma OrderCons(x: Entry<int>, rest: seq<Entry<int>>)
    ensures IndexOrder([x] + rest) <==> AllAfter(x, rest) && IndexOrder(rest)
  {
    var r := [x] + rest;
    if IndexOrder(r) {
      forall j | 0 <= j < |rest|
        ensures Before(x, rest[j])
      {
        assert Before(r[0], r[j + 1]);
      }
      forall i, j | 0 <= i < j < |rest|
        ensures Before(rest[i], rest[j])
      {
        assert Before(r[i + 1], r[j + 1]);
      }
    }
    if AllAfter(x, rest) && IndexOrder(rest) {
      forall i, j | 0 <= i < j < |r|
        ensures Before(r[i], r[j])
      {
        if i == 0 {
          assert Before(x, rest[j - 1]);
        } else {
          assert Before(rest[i - 1], rest[j - 1]);
        }
      }
    }
  }

  /** Places a new index-named entry after the smaller index names and before every other name. */
  function InsertIndex(held: seq<Entry<int>>, e: Entry<int>): (r: seq<Entry<int>>)
    ensures |r| == |held| + 1
  {
    if |held| == 0 || !IsIndex(held[0].key) || e.key <= held[0].key then [e] + held
    else [held[0]] + InsertIndex(held[1..], e)
  }

  /**
   * `held[s] = now` on an object whose names are semitones: a held name
   * keeps its place and takes the new time, a new negative name goes last,
   * and a new index name is placed among the index names by value.
   */
  function HoldSemitone(held: seq<Entry<int>>, s: int, now: int): (r: seq<Entry<int>>)
    ensures s in Keys(held) ==> Keys(r) == Keys(held)
    ensures Distinct(held) && s in Keys(held) ==>
      forall i :: 0 <= i < |held| ==> r[i] == (if held[i].key == s then Entry(s, now) else held[i])
    ensures s !in Keys(held) && !IsIndex(s) ==> r == held + [Entry(s, now)]
    ensures s !in Keys(held) ==> |r| == |held| + 1
  {
    if s in Keys(held) || !IsIndex(s) then Hold(held, s, now)
    else InsertIndex(held, Entry(s, now))
  }

  lemma NotInKeys<K>(held: seq<Entry<K>>, k: K)
    requires k !in Keys(held)
    ensures forall i :: 0 <= i < |held| ==> held[i].key != k
  {
    forall i | 0 <= i < |held|
      ensures held[i].key != k
    {
      assert Keys(held)[i] == held[i].key;
    }
  }

  /** Insertion adds the new name and no other. */
  lemma {:induction false} InsertKeys(held: seq<Entry<int>>, e: Entry<int>, k: int)
    ensures e.key in Keys(InsertIndex(held, e))
    ensures k !in Keys(held) && k != e.key ==> k !in Keys(InsertIndex(held, e))
    decreases |held|
  {
    var r := InsertIndex(held, e);
    if |held| == 0 || !IsIndex(held[0].key) || e.key <= held[0].key {
      DistinctCons(e, held);
    } else {
      assert held == [held[0]] + held[1..];
      DistinctCons(held[0], held[1..]);
      InsertKeys(held[1..], e, k);
      DistinctCons(held[0], InsertIndex(held[1..], e));
    }
  }

  /** Inserting a name not yet present keeps the names unique. */
  lemma {:induction false} InsertDistinct(held: seq<Entry<int>>, e: Entry<int>)
    requires Distinct(held) && e.key !in Keys(held)
    ensures Distinct(InsertIndex(held, e))
    decreases |held|
  {
    if |held| == 0 || !IsIndex(held[0].key) || e.key <= held[0].key {
      DistinctCons(e, held);
    } else {
      var x, rest := held[0], held[1..];
      assert held == [x] + rest;
      DistinctCons(x, rest);
      InsertDistinct(rest, e);
      InsertKeys(rest, e, x.key);
      DistinctCons(x, InsertIndex(rest, e));
    }
  }

  lemma {:induction false} InsertKeepsAfter(x: Entry<int>, held: seq<Entry<int>>, e: Entry<int>)
    requires AllAfter(x, held) && Before(x, e)
    ensures AllAfter(x, InsertIndex(held, e))
    decreases |held|
  {
    if |held| == 0 || !IsIndex(held[0].key) || e.key <= held[0].key {
      assert forall j :: 0 < j <= |held| ==> ([e] + held)[j] == held[j - 1];
    } else {
      var rest := held[1..];
      assert forall j :: 0 <= j < |rest| ==> rest[j] == held[j + 1];
      InsertKeepsAfter(x, rest, e);
      var r := [held[0]] + InsertIndex(rest, e);
      assert forall j :: 0 < j < |r| ==> r[j] == InsertIndex(rest, e)[j - 1];
    }
  }

  /** Placing a new index name by value keeps `Object.keys` order. */
  lemma {:induction false} InsertKeepsOrder(held: seq<Entry<int>>, e: Entry<int>)
    requires IndexOrder(held) && IsIndex(e.key) && e.key !in Keys(held)
    ensures IndexOrder(InsertIndex(held, e))
    decreases |held|
  {
    if |held| == 0 || !IsIndex(held[0].key) || e.key <= held[0].key {
      NotInKeys(held, e.key);
      forall j | 0 <= j < |held|
        ensures Before(e, held[j])
      {
        if j > 0 {
          assert Before(held[0], held[j]);
        }
      }
      OrderCons(e, held);
    } else {
      var x, rest := held[0], held[1..];
      assert held == [x] + rest;
      OrderCons(x, rest);
      DistinctCons(x, rest);
      InsertKeepsOrder(rest, e);
      InsertKeepsAfter(x, rest, e);
      OrderCons(x, InsertIndex(rest, e));
    }
  }

  /** Removing an inserted name gives back the list it was inserted into. */
  lemma {:induction false} InsertThenRemove(held: seq<Entry<int>>, e: Entry<int>)
    requires e.key !in Keys(held)
    ensures Remove(InsertIndex(held, e), e.key) == held
    decreases |held|
  {
    if |held| == 0 || !IsIndex(held[0].key) || e.key <= held[0].key {
      NotInKeys(held, e.key);
      RemoveAbsent(held, e.key);
      assert ([e] + held)[1..] == held;
    } else {
      var x, rest := held[0], held[1..];
      assert held == [x] + rest;
      DistinctCons(x, rest);
      InsertThenRemove(rest, e);
      RemoveHead([x] + InsertIndex(rest, e), e.key);
      assert ([x] + InsertIndex(rest, e))[1..] == InsertIndex(rest, e);
    }
  }

  /** A press of a semitone leaves it held, keeps names unique and keeps `Object.keys` order. */
  lemma HoldSemitoneKeeps(held: seq<Entry<int>>, s: int, now: int)
    requires IndexOrder(held)
    ensures s in Keys(HoldSemitone(held, s, now))
    ensures Distinct(held) ==> Distinct(HoldSemitone(held, s, now))
    ensures IndexOrder(HoldSemitone(held, s, now))
  {
    if s in Keys(held) || !IsIndex(s) {
      HoldKeys(held, s, now);
      HoldKeepsOrder(held, s, now);
    } else {
      var e := Entry(s, now);
      InsertKeys(held, e, s);
      InsertKeepsOrder(held, e);
      if Distinct(held) {
        InsertDistinct(held, e);
      }
    }
  }

  lemma HoldKeepsOrder(held: seq<Entry<int>>, s: int, now: int)
    requires IndexOrder(held) && (s in Keys(held) || !IsIndex(s))
    ensures IndexOrder(Hold(held, s, now))
  {
    var r := Hold(held, s, now);
    if s in Keys(held) {
      SameKeysOrder(held, r);
    } else {
      assert forall i :: 0 <= i < |held| ==> r[i] == held[i];
    }
  }

  /** Lists with the same names in the same places are ordered alike. */
  lemma SameKeysOrder(a: seq<Entry<int>>, b: seq<Entry<int>>)
    requires Keys(a) == Keys(b) && IndexOrder(a)
    ensures IndexOrder(b)
  {
    assert forall i :: 0 <= i < |b| ==> b[i].key == Keys(b)[i] == a[i].key;
    forall i, j | 0 <= i < j < |b|
      ensures Before(b[i], b[j])
    {
      assert Before(a[i], a[j]);
    }
  }

  /** Pressing a semitone that was not held and releasing it restores the held notes, in order. */
  lemma HoldSemitoneThenRemove(held: seq<Entry<int>>, s: int, now: int)
    requires s !in Keys(held)
    ensures Remove(HoldSemitone(held, s, now), s) == held
  {
    if IsIndex(s) {
      InsertThenRemove(held, Entry(s, now));
    } else {
      HoldThenRemove(held, s, now);
    }
  }

  lemma {:induction false} RemoveKeepsAfter(x: Entry<int>, held: seq<Entry<int>>, k: int)
    requires AllAfter(x, held)
    ensures AllAfter(x, Remove(held, k))
    decreases |held|
  {
    if |held| > 0 {
      RemoveKeepsAfter(x, held[1..], k);
      if held[0].key != k {
        RemoveHead(held, k);
      }
    }
  }

  /** Deleting a name keeps `Object.keys` order. */
  lemma {:induction false} RemoveKeepsOrder(held: seq<Entry<int>>, k: int)
    requires IndexOrder(held)
    ensures IndexOrder(Remove(held, k))
    decreases |held|
  {
    if |held| > 0 {
      var rest := held[1..];
      assert [held[0]] + rest == held;
      OrderCons(held[0], rest);
      RemoveKeepsOrder(rest, k);
      if held[0].key != k {
        RemoveKeepsAfter(held[0], rest, k);
        RemoveHead(held, k);
        OrderCons(held[0], Remove(rest, k));
      }
    }
  }

  /**
   * The name a descending sort by time puts first: the sort is stable, so
   * among equal times the earliest property wins.
   */
  function Newest<K>(held: seq<Entry<K>>): (r: nat)
    requires |held| > 0
    ensures r < |held|
    ensures forall i :: 0 <= i < |held| ==> held[i].time <= held[r].time
    ensures forall i :: 0 <= i < r ==> held[i].time < held[r].time
  {
    if |held| == 1 then 0
    else
      var k := Newest(held[..|held| - 1]);
      if held[|held| - 1].time > held[k].time then |held| - 1 else k
  }
}

=== FILE: semitone.dfy ===
/**
 * The note name shown on an on-screen key: an index into the twelve note
 * names, computed with JavaScript's `%`, whose remainder takes the sign of
 * the dividend (Dafny's `%` is Euclidean).
 */
module Semitone {
  import opened Wrappers

  /** JavaScript's `a % 12`: the remainder of truncating division, with the sign of `a`. */
  function JsRem12(a: int): (r: int)
    ensures -12 < r < 12
    ensures a >= 0 ==> r >= 0
    ensures a < 0 ==> r <= 0
    ensures (a - r) % 12 == 0
  {
    if a >= 0 then a % 12 else -((-a) % 12)
  }

  /** The index expression of both `getNoteFromSemitone` copies. */
  function NoteIndex(semitones: int): (r: int)
    ensures 0 <= r < 12
    ensures r == semitones % 12
  {
    if semitones > 0 then JsRem12(semitones) else JsRem12(12 + JsRem12(semitones))
  }

  /** `getNoteFromSemitone`: a one-element array; the entry is `undefined` if the name table is short. */
  function NoteFromSemitone<T>(notes: seq<T>, semitones: int): (r: seq<Option<T>>)
    ensures |r| == 1
    ensures |notes| == 12 ==> r[0] == Some(notes[semitones % 12])
  {
    var i := NoteIndex(semitones);
    [if i < |notes| then Some(notes[i]) else None]
  }

  /** A semitone and the one an octave above it have the same name. */
  lemma OctavePeriod(semitones: int)
    ensures NoteIndex(semitones + 12) == NoteIndex(semitones)
  {
    var q, r := semitones / 12, semitones % 12;
    assert semitones + 12 == (q + 1) * 12 + r;
    ModUnique(semitones + 12, q + 1, r);
  }

  lemma ModUnique(a: int, q: int, r: int)
    requires a == q * 12 + r && 0 <= r < 12
    ensures a % 12 == r
  {
  }

  /** On the on-screen keys below A4 the name index is the semitone plus twelve, an octave up. */
  lemma NegativeSemitones(semitones: int)
    requires -12 <= semitones < 0
    ensures NoteIndex(semitones) == semitones + 12
  {
  }
}

=== FILE: slider.dfy ===
/**
 * The parameter slider: typing a value into its editor and pressing Enter
 * commits it clamped to the slider's bounds, a ctrl- or meta-click resets it
 * to its default, a double-click opens the editor when the slider is
 * editable, and the slider registers its setter in the enclosing preset
 * scope under its label. Both revisions are modelled; JavaScript numbers are
 * reals extended with NaN and the two infinities.
 */
module Slider {
  import opened Wrappers
  import Preset

  /** A JavaScript number (signed zero is not distinguished). */
  datatype Num = NaN | NegInf | PosInf | Finite(num: real)

  /** A slider value: a number, or text for string-valued sliders and typed-in editor contents. */
  datatype Value = Number(n: Num) | Text(s: string)

  /** `Math.max(lo, v)` with a finite `lo`. */
  function JsMax(lo: real, v: Num): (r: Num)
    ensures v.NaN? <==> r.NaN?
    ensures !v.NaN? && v != PosInf ==> r.Finite? && r.num >= lo
    ensures v.Finite? && v.num >= lo ==> r == v
  {
    match v
    case NaN => NaN
    case NegInf => Finite(lo)
    case PosInf => PosInf
    case Finite(x) => Finite(if x < lo then lo else x)
  }

  /** `Math.min(hi, v)` with a finite `hi`. */
  function JsMin(hi: real, v: Num): (r: Num)
    ensures v.NaN? <==> r.NaN?
    ensures !v.NaN? && v != NegInf ==> r.Finite? && r.num <= hi
    ensures v.Finite? && v.num <= hi ==> r == v
  {
    match v
    case NaN => NaN
    case NegInf => NegInf
    case PosInf => Finite(hi)
    case Finite(x) => Finite(if hi < x then hi else x)
  }

  /** Raise to `min` when given, then lower to `max` when given. */
  function Clamp(min: Option<real>, max: Option<real>, v: Num): (r: Num)
    ensures v.NaN? <==> r.NaN?
    ensures min.None? && max.None? ==> r == v
    ensures v.Finite? ==> r.Finite?
    ensures min.Some? && max.Some? && min.value <= max.value && !v.NaN? ==>
      r.Finite? && min.value <= r.num <= max.value
  {
    var raised := if min.Some? then JsMax(min.value, v) else v;
    if max.Some? then JsMin(max.value, raised) else raised
  }

  /** Within ordered bounds, the values clamping leaves alone are exactly those already in range. */
  lemma ClampFixes(lo: real, hi: real, x: real)
    requires lo <= hi
    ensures Clamp(Some(lo), Some(hi), Finite(x)) == Finite(x) <==> lo <= x <= hi
  {
    if Clamp(Some(lo), Some(hi), Finite(x)) == Finite(x) {
      assert lo <= Clamp(Some(lo), Some(hi), Finite(x)).num <= hi;
    }
  }

  /** Clamping twice is clamping once, whatever the bounds. */
  lemma {:induction false} ClampIdempotent(min: Option<real>, max: Option<real>, v: Num)
    ensures Clamp(min, max, Clamp(min, max, v)) == Clamp(min, max, v)
  {
    var c := Clamp(min, max, v);
    if min.Some? && max.Some? && max.value < min.value && !v.NaN? {
      assert c == Finite(max.value);
    }
  }

  /** The props the slider reads; `editable` may be absent. */
  datatype Props = Props(min: Option<real>, max: Option<real>, editable: Option<bool>, defaultValue: Option<Value>, value: Value)

  /** The editor's state: open or not, and the value it holds. */
  datatype Editor = Editor(editing: bool, editingValue: Value)

  /** What a handler leaves: the editor, and the values passed to `onChange`, in order. */
  datatype Outcome = Outcome(editor: Editor, changes: seq<Value>)

  /**
   * A value as a JavaScript number. A number prints and parses back to
   * itself; for text, `fromText` is what the conversion gives: `parseFloat`
   * in the hook-based slider, the implicit `Number()` of `Math.max` and
   * `Math.min` in the class-based one.
   */
  function AsNumber(v: Value, fromText: Num): (r: Num)
    ensures v.Number? ==> r == v.n
    ensures v.Text? ==> r == fromText
  {
    match v
    case Number(n) => n
    case Text(_) => fromText
  }

  /** The editor's key handler: Enter closes it and commits the parsed, guarded and clamped value. */
  function OnEdited(p: Props, e: Editor, key: string, parsedText: Num): (r: Outcome)
    ensures key != "Enter" ==> r == Outcome(e, [])
    ensures key == "Enter" ==> r.editor == e.(editing := false)
    ensures key == "Enter" && p.value.Text? ==> r.changes == []
    ensures key == "Enter" && p.value.Number? ==> |r.changes| == 1 && r.changes[0].Number?
    ensures key == "Enter" && p.value.Number? && p.value.n.Finite? ==> r.changes[0].n.Finite?
    ensures key == "Enter" && p.value.Number? && !p.value.n.NaN? && p.min.Some? && p.max.Some? && p.min.value <= p.max.value ==>
      r.changes[0].n.Finite? && p.min.value <= r.changes[0].n.num <= p.max.value
    ensures key == "Enter" && p.value.Number? ==> var typed := AsNumber(e.editingValue, parsedText);
      typed.Finite? ==> r.changes == [Number(Clamp(p.min, p.max, typed))]
  {
    if key != "Enter" then Outcome(e, [])
    else
      var closed := e.(editing := false);
      match p.value
      case Text(_) => Outcome(closed, [])
      case Number(current) =>
        var typed := AsNumber(e.editingValue, parsedText);
        var guarded := if typed.Finite? then typed else current;
        Outcome(closed, [Number(Clamp(p.min, p.max, guarded))])
  }

  /** The effect that, while the editor is open, keeps its value in step with the slider's. */
  function Sync(p: Props, e: Editor): (r: Editor)
    ensures r.editing == e.editing
    ensures e.editing ==> r.editingValue == p.value
    ensures !e.editing ==> r == e
  {
    if e.editing then e.(editingValue := p.value) else e
  }

  /**
   * A double-click sets `editing` to whether `editable` is true. Opening a
   * closed editor runs the effect, which loads the current value; on an
   * open editor the state does not change, so the effect does not run again
   * and the typed text stays.
   */
  function DoubleClick(p: Props, e: Editor): (r: Editor)
    ensures r.editing <==> p.editable == Some(true)
    ensures r.editing && !e.editing ==> r.editingValue == p.value
    ensures r.editing && e.editing ==> r == e
    ensures !r.editing ==> r.editingValue == e.editingValue
  {
    var toggled := e.(editing := p.editable == Some(true));
    if e.editing then toggled else Sync(p, toggled)
  }

  /**
   * Opening the editor and pressing Enter without typing commits the
   * slider's own value when it lies within the bounds: an untouched edit
   * changes nothing.
   */
  lemma EditWithoutTyping(p: Props, e: Editor, parsedText: Num)
    requires !e.editing
    requires p.editable == Some(true) && p.value.Number? && p.value.n.Finite?
    requires p.min.Some? ==> p.min.value <= p.value.n.num
    requires p.max.Some? ==> p.value.n.num <= p.max.value
    ensures OnEdited(p, DoubleClick(p, e), "Enter", parsedText).changes == [p.value]
  {
  }

  /** A double-click inside an open editor keeps what was typed: Enter then commits the same value as without it. */
  lemma DoubleClickKeepsTyping(p: Props, e: Editor, key: string, parsedText: Num)
    requires e.editing && p.editable == Some(true)
    ensures OnEdited(p, DoubleClick(p, e), key, parsedText) == OnEdited(p, e, key, parsedText)
  {
  }

  /** A click on the slider body with ctrl or meta held resets the value to `defaultValue`, when there is one. */
  function OnManualClick(defaultValue: Option<Value>, ctrl: bool, meta: bool): (r: seq<Value>)
    ensures |r| <= 1
    ensures |r| == 1 <==> defaultValue.Some? && (ctrl || meta)
    ensures |r| == 1 ==> r[0] == defaultValue.value
  {
    if defaultValue.Some? && (ctrl || meta) then [defaultValue.value] else []
  }

  /** What the slider registers in its preset scope: its label, bound to its `onChange`. */
  function Registration<Cb>(name: string, onChange: Cb): (r: map<string, Cb>)
    ensures r.Keys == {name} && r[name] == onChange
  {
    map[name := onChange]
  }

  /** What it deregisters on cleanup. */
  function RegisteredKeys(name: string): (r: seq<string>)
    ensures forall k :: k in r <==> k in Registration(name, 0)
  {
    [name]
  }

  /**
   * Mounting a slider under preset instance `i` and unmounting it restores
   * the registry, provided the root held no entry under the label's full name.
   */
  lemma MountThenUnmount<Cb>(ps: seq<Preset.Instance<Cb>>, i: nat, name: string, onChange: Cb)
    requires Preset.Chain(ps) && i < |ps|
    requires Preset.FullName(Preset.Ids(ps[..i + 1]), name) !in ps[0].registrations
    ensures Preset.DeregisterVia(Preset.RegisterVia(ps, i, Registration(name, onChange)), i, RegisteredKeys(name)) == ps
  {
    Preset.RegisterThenDeregister(ps, i, Registration(name, onChange), RegisteredKeys(name));
  }

  /** The class-based slider's state: editor open or not, and the editor's value (initially the prop). */
  datatype LegacyState = LegacyState(editing: bool, value: Value)

  /** `onEdit`: the editor's value becomes the typed text. */
  function LegacyOnEdit(st: LegacyState, text: string): (r: LegacyState)
    ensures r.value == Text(text) && r.editing == st.editing
  {
    st.(value := Text(text))
  }

  /**
   * The class-based key handler: Enter closes the editor, then raises the
   * editor's value to `min` and lowers it to `max` when given and passes
   * the result to `onChange`; with no bounds the value is passed as it is,
   * text included, and nothing guards against NaN.
   */
  function LegacyOnEdited(min: Option<real>, max: Option<real>, st: LegacyState, key: string, textNumber: Num): (r: (LegacyState, seq<Value>))
    ensures key != "Enter" ==> r == (st, [])
    ensures key == "Enter" ==> r.0 == st.(editing := false) && |r.1| == 1
    ensures key == "Enter" && min.None? && max.None? ==> r.1 == [st.value]
    ensures key == "Enter" && (min.Some? || max.Some?) ==>
      r.1 == [Number(Clamp(min, max, AsNumber(st.value, textNumber)))]
  {
    if key != "Enter" then (st, [])
    else
      var raised := if min.Some? then Number(JsMax(min.value, AsNumber(st.value, textNumber))) else st.value;
      var lowered := if max.Some? then Number(JsMin(max.value, AsNumber(raised, textNumber))) else raised;
      (st.(editing := false), [lowered])
  }

  /** The class-based double-click: `editing` takes the `editable` prop (default false); the editor keeps its value. */
  function LegacyDoubleClick(editable: bool, st: LegacyState): (r: LegacyState)
    ensures r.editing == editable && r.value == st.value
  {
    st.(editing := editable)
  }

  /**
   * Text that is not a number, typed into a bounded class-based slider,
   * commits NaN; the hook-based slider commits its current value instead.
   */
  lemma LegacyCommitsNaN(min: real, st: LegacyState, text: string)
    ensures LegacyOnEdited(Some(min), None, LegacyOnEdit(st, text), "Enter", NaN).1 == [Number(NaN)]
  {
  }

  /** For a finite number in the editor the two revisions commit the same value. */
  lemma RevisionsAgreeOnNumbers(p: Props, e: Editor, st: LegacyState, x: real, parsedText: Num, textNumber: Num)
    requires p.value.Number? && e.editingValue == Number(Finite(x)) && st.value == Number(Finite(x))
    ensures OnEdited(p, e, "Enter", parsedText).changes == LegacyOnEdited(p.min, p.max, st, "Enter", textNumber).1
  {
  }
}

=== FILE: voices.dfy ===
/**
 * Voice allocation: which oscillator of the synth's list sounds a requested
 * frequency, in the three modes of the keyboard. `startFrequency` and
 * `stopFrequency` are state updaters over the oscillator list; the
 * hook-based keyboard has them once as a hook and once inline, the
 * class-based keyboard returns `null` instead of the unchanged list.
 * Frequencies are compared only for equality and are plain integers here.
 */
module Voices {
  import opened Wrappers
  import opened Keymap

  /** An oscillator description; `id` is absent in one spread from a missing element. */
  datatype Oscillator = Oscillator(id: Option<string>, frequency: int, started: int, active: bool)

  /** Some oscillator is currently sounding `f`. */
  predicate Sounding(oscs: seq<Oscillator>, f: int) {
    exists i :: 0 <= i < |oscs| && oscs[i].active && oscs[i].frequency == f
  }

  /** `{ ...o, active: true, frequency: f, started: now }`, `o` possibly `undefined`. */
  function Activate(o: Option<Oscillator>, f: int, now: int): (r: Oscillator)
    ensures r.active && r.frequency == f && r.started == now
    ensures o.Some? ==> r.id == o.value.id
  {
    Oscillator(if o.Some? then o.value.id else None, f, now, true)
  }

  /** `findIndex(o => !o.active)`. */
  function FirstInactive(oscs: seq<Oscillator>): (r: Option<nat>)
    ensures r.Some? <==> exists i :: 0 <= i < |oscs| && !oscs[i].active
    ensures r.Some? ==> r.value < |oscs| && !oscs[r.value].active && forall i :: 0 <= i < r.value ==> oscs[i].active
  {
    if |oscs| == 0 then None
    else if !oscs[0].active then Some(0)
    else
      match FirstInactive(oscs[1..])
      case None => None
      case Some(i) => Some(i + 1)
  }

  /** The `forEach` scan with strict `<`: the first oscillator with the earliest start. */
  function Oldest(oscs: seq<Oscillator>): (r: nat)
    requires |oscs| > 0
    ensures r < |oscs|
    ensures forall i :: 0 <= i < |oscs| ==> oscs[r].started <= oscs[i].started
    ensures forall i :: 0 <= i < r ==> oscs[i].started > oscs[r].started
  {
    if |oscs| == 1 then 0
    else
      var k := Oldest(oscs[..|oscs| - 1]);
      if oscs[|oscs| - 1].started < oscs[k].started then |oscs| - 1 else k
  }

  /** The poly mode's choice: the first free oscillator, else the first one started earliest. */
  function PolySlot(oscs: seq<Oscillator>): (r: nat)
    requires |oscs| > 0
    ensures r < |oscs|
  {
    match FirstInactive(oscs)
    case Some(i) => i
    case None => Oldest(oscs)
  }

  /** `findIndex(o => o.frequency === f)`, active or not. */
  function FindFrequency(oscs: seq<Oscillator>, f: int): (r: Option<nat>)
    ensures r.Some? <==> exists i :: 0 <= i < |oscs| && oscs[i].frequency == f
    ensures r.Some? ==> r.value < |oscs| && oscs[r.value].frequency == f
    ensures r.Some? ==> forall i :: 0 <= i < r.value ==> oscs[i].frequency != f
  {
    if |oscs| == 0 then None
    else if oscs[0].frequency == f then Some(0)
    else
      match FindFrequency(oscs[1..], f)
      case None => None
      case Some(i) => Some(i + 1)
  }

  /** `startFrequency`: the new list after a request to sound `f` at time `now`. */
  function StartFrequency(mode: Mode, oscs: seq<Oscillator>, f: int, now: int): (r: seq<Oscillator>)
    ensures Sounding(oscs, f) ==> r == oscs
    ensures |oscs| > 0 ==> |r| == |oscs|
    ensures mode != Chord || |oscs| > 0 ==> Sounding(r, f)
    ensures !Sounding(oscs, f) && mode == Mono && |oscs| > 0 ==>
      r[0] == Activate(Some(oscs[0]), f, now) && r[1..] == oscs[1..]
    ensures !Sounding(oscs, f) && mode == Poly && |oscs| > 0 ==>
      var k := PolySlot(oscs); r == oscs[k := Activate(Some(oscs[k]), f, now)]
    ensures !Sounding(oscs, f) && mode == Chord ==>
      |r| == |oscs| && forall i :: 0 <= i < |oscs| ==> r[i] == Activate(Some(oscs[i]), f, now)
  {
    if Sounding(oscs, f) then oscs
    else
      match mode
      case Mono =>
        var head := if |oscs| > 0 then Some(oscs[0]) else None;
        var r := [Activate(head, f, now)] + (if |oscs| > 0 then oscs[1..] else []);
        assert r[0].active && r[0].frequency == f;
        r
      case Poly =>
        if |oscs| == 0 then
          var r := [Activate(None, f, now)];
          assert r[0].active && r[0].frequency == f;
          r
        else
          var k := PolySlot(oscs);
          var r := oscs[..k] + [Activate(Some(oscs[k]), f, now)] + oscs[k + 1..];
          assert r == oscs[k := Activate(Some(oscs[k]), f, now)];
          assert r[k].active && r[k].frequency == f;
          r
      case Chord =>
        var r := seq(|oscs|, i requires 0 <= i < |oscs| => Activate(Some(oscs[i]), f, now));
        assert |oscs| > 0 ==> r[0].active && r[0].frequency == f;
        r
  }

  /** `stopFrequency`: the new list after a request to silence `f`. */
  function StopFrequency(mode: Mode, oscs: seq<Oscillator>, f: int): (r: seq<Oscillator>)
    ensures |r| == |oscs|
    ensures FindFrequency(oscs, f).None? ==> r == oscs
    ensures FindFrequency(oscs, f).Some? && mode == Mono ==> r == oscs[0 := oscs[0].(active := false)]
    ensures FindFrequency(oscs, f).Some? && mode == Poly ==>
      var k := FindFrequency(oscs, f).value;
      r == oscs[k := oscs[k].(active := false, started := 0)]
    ensures FindFrequency(oscs, f).Some? && mode == Chord ==>
      forall i :: 0 <= i < |r| ==> r[i] == oscs[i].(active := false)
  {
    match FindFrequency(oscs, f)
    case None => oscs
    case Some(k) =>
      match mode
      case Mono => [oscs[0].(active := false)] + oscs[1..]
      case Poly => oscs[..k] + [oscs[k].(active := false, frequency := f, started := 0)] + oscs[k + 1..]
      case Chord => seq(|oscs|, i requires 0 <= i < |oscs| => oscs[i].(active := false))
  }

  /**
   * Poly mode with a free oscillator: starting `f` and then stopping it
   * leaves every oscillator as active or idle as before, and the ones that
   * were sounding untouched.
   */
  lemma PolyStartThenStop(oscs: seq<Oscillator>, f: int, now: int)
    requires !Sounding(oscs, f) && FirstInactive(oscs).Some?
    ensures var r := StopFrequency(Poly, StartFrequency(Poly, oscs, f, now), f);
      && |r| == |oscs|
      && (forall i :: 0 <= i < |oscs| ==> r[i].active == oscs[i].active)
      && (forall i :: 0 <= i < |oscs| && oscs[i].active ==> r[i] == oscs[i])
  {
    var k := PolySlot(oscs);
    var s := StartFrequency(Poly, oscs, f, now);
    assert s[k].frequency == f;
    var j := FindFrequency(s, f).value;
    assert j == k;
  }

  /** Poly mode with every oscillator busy: the new note takes the one started earliest. */
  lemma PolyStealsOldest(oscs: seq<Oscillator>, f: int, now: int)
    requires !Sounding(oscs, f) && |oscs| > 0 && FirstInactive(oscs).None?
    ensures var r := StartFrequency(Poly, oscs, f, now);
      exists k :: 0 <= k < |oscs| && r == oscs[k := Activate(Some(oscs[k]), f, now)]
        && (forall i :: 0 <= i < |oscs| ==> oscs[k].started <= oscs[i].started)
  {
    var k := PolySlot(oscs);
    assert StartFrequency(Poly, oscs, f, now) == oscs[k := Activate(Some(oscs[k]), f, now)];
  }

  /** Mono mode: a stop silences oscillator 0 even when `f` was found on another one. */
  lemma MonoStopSilencesFirst(oscs: seq<Oscillator>, f: int)
    requires FindFrequency(oscs, f).Some?
    ensures var r := StopFrequency(Mono, oscs, f); !r[0].active && r[1..] == oscs[1..]
  {
  }

  /** Chord mode: after stopping a frequency some oscillator has, nothing sounds. */
  lemma ChordStopSilencesAll(oscs: seq<Oscillator>, f: int, g: int)
    requires FindFrequency(oscs, f).Some?
    ensures !Sounding(StopFrequency(Chord, oscs, f), g)
  {
  }

  /** `oscillators[i]`: `undefined` outside the list. */
  function At(oscs: seq<Oscillator>, i: int): (r: Option<Oscillator>)
    ensures r.Some? <==> 0 <= i < |oscs|
    ensures r.Some? ==> r.value == oscs[i]
  {
    if 0 <= i < |oscs| then Some(oscs[i]) else None
  }

  /** A `slice` bound: a negative one counts from the end, and it is clamped to the list. */
  function SliceBound(len: nat, i: int): (r: nat)
    ensures r <= len
    ensures 0 <= i <= len ==> r == i
    ensures i < 0 && len + i >= 0 ==> r == len + i
  {
    if i < 0 then (if len + i < 0 then 0 else len + i)
    else if i > len then len
    else i
  }

  /** `Array.prototype.slice(start, end)`. */
  function Slice(oscs: seq<Oscillator>, start: int, end: int): (r: seq<Oscillator>)
    ensures 0 <= start <= end <= |oscs| ==> r == oscs[start..end]
    ensures |r| <= |oscs|
  {
    var a, b := SliceBound(|oscs|, start), SliceBound(|oscs|, end);
    if a <= b then oscs[a..b] else []
  }

  /**
   * The class-based `forEach` scan over the list from position `i`:
   * `started` is the earliest start seen so far (`None` for `Infinity`) and
   * `index` where it was seen; a later oscillator wins only when strictly
   * earlier.
   */
  function ScanEarliest(oscs: seq<Oscillator>, i: nat, index: int, started: Option<int>): int
    requires i <= |oscs|
    decreases |oscs| - i
  {
    if i == |oscs| then index
    else if started.None? || oscs[i].started < started.value then ScanEarliest(oscs, i + 1, i, Some(oscs[i].started))
    else ScanEarliest(oscs, i + 1, index, started)
  }

  /** Among the first `n` oscillators, `k` has the earliest start and none before it has as early a one. */
  predicate FirstEarliest(oscs: seq<Oscillator>, n: nat, k: int) {
    && 0 <= k < n <= |oscs|
    && (forall j :: 0 <= j < n ==> oscs[k].started <= oscs[j].started)
    && (forall j :: 0 <= j < k ==> oscs[j].started > oscs[k].started)
  }

  /** The scan started before any oscillator ends on the first earliest one. */
  lemma {:induction false} ScanFindsEarliest(oscs: seq<Oscillator>, i: nat, index: int, started: Option<int>)
    requires 0 < |oscs| && i <= |oscs|
    requires i == 0 ==> started.None?
    requires i > 0 ==> FirstEarliest(oscs, i, index) && started == Some(oscs[index].started)
    ensures FirstEarliest(oscs, |oscs|, ScanEarliest(oscs, i, index, started))
    decreases |oscs| - i
  {
    if i < |oscs| {
      if started.None? || oscs[i].started < started.value {
        ScanFindsEarliest(oscs, i + 1, i, Some(oscs[i].started));
      } else {
        ScanFindsEarliest(oscs, i + 1, index, started);
      }
    }
  }

  /** There is only one first earliest oscillator, and `Oldest` is it. */
  lemma EarliestIsOldest(oscs: seq<Oscillator>, k: int)
    requires FirstEarliest(oscs, |oscs|, k)
    ensures k == Oldest(oscs)
  {
  }

  /** The class-based `startFrequency`, `null` when `f` is already sounding. */
  function LegacyStartFrequency(mode: Mode, oscs: seq<Oscillator>, f: int, now: int): (r: Option<seq<Oscillator>>)
    ensures r.None? <==> Sounding(oscs, f)
  {
    if Sounding(oscs, f) then None
    else
      match mode
      case Mono => Some([Activate(At(oscs, 0), f, now)] + Slice(oscs, 1, |oscs|))
      case Poly =>
        var free := match FirstInactive(oscs) case Some(i) => i as int case None => -1;
        var index := if free == -1 then ScanEarliest(oscs, 0, -1, None) else free;
        Some(Slice(oscs, 0, index) + [Activate(At(oscs, index), f, now)] + Slice(oscs, index + 1, |oscs|))
      case Chord => Some(seq(|oscs|, i requires 0 <= i < |oscs| => Activate(Some(oscs[i]), f, now)))
  }

  /** The class-based `stopFrequency`, `null` when no oscillator has `f`. */
  function LegacyStopFrequency(mode: Mode, oscs: seq<Oscillator>, f: int): (r: Option<seq<Oscillator>>)
    ensures r.None? <==> FindFrequency(oscs, f).None?
  {
    var index := match FindFrequency(oscs, f) case Some(i) => i as int case None => -1;
    if index == -1 then None
    else
      match mode
      case Mono => Some([oscs[0].(active := false)] + Slice(oscs, 1, |oscs|))
      case Poly => Some(Slice(oscs, 0, index) + [oscs[index].(active := false, frequency := f, started := 0)] + Slice(oscs, index + 1, |oscs|))
      case Chord => Some(seq(|oscs|, i requires 0 <= i < |oscs| => oscs[i].(active := false)))
  }

  /** The owner's `setOscillators`: a `null` result leaves the list as it was. */
  function ApplyNullable(oscs: seq<Oscillator>, result: Option<seq<Oscillator>>): seq<Oscillator> {
    if result.None? then oscs else result.value
  }

  /** The two revisions agree: `null` is exactly the case where the hook version returns the list unchanged. */
  lemma LegacyAgrees(mode: Mode, oscs: seq<Oscillator>, f: int, now: int)
    ensures ApplyNullable(oscs, LegacyStartFrequency(mode, oscs, f, now)) == StartFrequency(mode, oscs, f, now)
    ensures ApplyNullable(oscs, LegacyStopFrequency(mode, oscs, f)) == StopFrequency(mode, oscs, f)
  {
    LegacyStartAgrees(mode, oscs, f, now);
    LegacyStopAgrees(mode, oscs, f);
  }

  lemma LegacyStopAgrees(mode: Mode, oscs: seq<Oscillator>, f: int)
    ensures ApplyNullable(oscs, LegacyStopFrequency(mode, oscs, f)) == StopFrequency(mode, oscs, f)
  {
    if FindFrequency(oscs, f).Some? && mode != Chord {
      var k := FindFrequency(oscs, f).value;
      assert 0 <= k < |oscs|;
      assert Slice(oscs, 0, k) == oscs[..k] && Slice(oscs, k + 1, |oscs|) == oscs[k + 1..];
      assert Slice(oscs, 1, |oscs|) == oscs[1..];
    }
  }

  /**
   * Stopping a sounding frequency with the class-based updater: mono
   * silences oscillator 0, poly the first oscillator carrying `f` (possibly
   * an idle one), chord every oscillator.
   */
  lemma LegacyStopSounding(mode: Mode, oscs: seq<Oscillator>, f: int)
    requires Sounding(oscs, f)
    ensures FindFrequency(oscs, f).Some?
    ensures var r := ApplyNullable(oscs, LegacyStopFrequency(mode, oscs, f));
      && |r| == |oscs|
      && (mode == Mono ==> !r[0].active && r[1..] == oscs[1..])
      && (mode == Poly ==> var j := FindFrequency(oscs, f).value; r == oscs[j := oscs[j].(active := false, started := 0)])
      && (mode == Chord ==> forall g :: !Sounding(r, g))
  {
    var j :| 0 <= j < |oscs| && oscs[j].active && oscs[j].frequency == f;
    LegacyAgrees(mode, oscs, f, 0);
    if mode == Mono {
      MonoStopSilencesFirst(oscs, f);
    }
  }

  lemma LegacyStartAgrees(mode: Mode, oscs: seq<Oscillator>, f: int, now: int)
    ensures ApplyNullable(oscs, LegacyStartFrequency(mode, oscs, f, now)) == StartFrequency(mode, oscs, f, now)
  {
    if !Sounding(oscs, f) {
      match mode
      case Mono =>
        assert Slice(oscs, 1, |oscs|) == if |oscs| > 0 then oscs[1..] else [];
      case Poly => LegacyPolyStartAgrees(oscs, f, now);
      case Chord =>
    }
  }

  lemma LegacyPolyStartAgrees(oscs: seq<Oscillator>, f: int, now: int)
    requires !Sounding(oscs, f)
    ensures ApplyNullable(oscs, LegacyStartFrequency(Poly, oscs, f, now)) == StartFrequency(Poly, oscs, f, now)
  {
    if |oscs| == 0 {
      assert ScanEarliest(oscs, 0, -1, None) == -1;
      assert Slice(oscs, 0, -1) == [] && Slice(oscs, 0, |oscs|) == [];
    } else {
      var k := PolySlot(oscs);
      var free := match FirstInactive(oscs) case Some(i) => i as int case None => -1;
      var index := if free == -1 then ScanEarliest(oscs, 0, -1, None) else free;
      if FirstInactive(oscs).None? {
        ScanFindsEarliest(oscs, 0, -1, None);
        EarliestIsOldest(oscs, ScanEarliest(oscs, 0, -1, None));
      }
      assert index == k;
      var o := Activate(Some(oscs[k]), f, now);
      SliceSplice(oscs, k, o);
      assert LegacyStartFrequency(Poly, oscs, f, now) == Some(Slice(oscs, 0, k) + [o] + Slice(oscs, k + 1, |oscs|));
    }
  }

  /** Cutting out position `k` with `slice` and putting `o` in its place replaces that element. */
  lemma SliceSplice(oscs: seq<Oscillator>, k: nat, o: Oscillator)
    requires k < |oscs|
    ensures Slice(oscs, 0, k) + [o] + Slice(oscs, k + 1, |oscs|) == oscs[k := o]
  {
    assert Slice(oscs, 0, k) == oscs[..k] && Slice(oscs, k + 1, |oscs|) == oscs[k + 1..];
  }
}

=== FILE: wiring.dfy ===
/**
 * Shapes shared by both revisions of the cable manager.
 *
 * The source names the two ends of a cable after the jack prop that offered
 * them: a jack rendered with `input={node}` (an "Out" or "GOut" jack) is the
 * signal SOURCE, and completing a cable calls `input.node.connect(output.node)`.
 * The model keeps the source's field names, so `input` below is always the
 * source side and `output` the destination side.
 */
module Wiring {
  import opened Wrappers
  import opened AudioGraph

  /** Screen coordinates; used only for drawing, never for decisions. */
  datatype Position = Position(x: int, y: int)

  /** One end of a cable (`IOput`): the node plus the jack's two callbacks. */
  datatype Side<C> = Side(node: Node, onConnect: C, onDisconnect: C, pos: Position)

  /**
   * A connection-shaped record whose sides may be absent, as the source's
   * plain objects are: a committed cable, a dangling half, or (legacy
   * revision) the `{}` that stands in for "no last entry".
   */
  datatype Half<C> = Half(input: Option<Side<C>>, output: Option<Side<C>>)

  predicate Complete<C>(h: Half<C>) {
    h.input.Some? && h.output.Some?
  }

  /** Exactly one side present: a dangling half-connection. */
  predicate Partial<C>(h: Half<C>) {
    h.input.Some? != h.output.Some?
  }

  /**
   * One call of the connector function a jack receives from the context:
   * `connect(input, output, pos, onConnect, onDisconnect)`. A jack's props
   * are typed `{input} | {output}`, so at least one node is present.
   */
  datatype Click<C> = Click(input: Option<Node>, output: Option<Node>, pos: Position, onConnect: C, onDisconnect: C)

  predicate WellFormedClick<C>(c: Click<C>) {
    c.input.Some? || c.output.Some?
  }

  /** `newConnection`: the half the click offers, its `input` side when it has one. */
  function NewSide<C>(c: Click<C>): (h: Half<C>)
    requires WellFormedClick(c)
    ensures Partial(h)
    ensures c.input.Some? ==> h.input == Some(Side(c.input.value, c.onConnect, c.onDisconnect, c.pos))
    ensures c.input.None? ==> h.output == Some(Side(c.output.value, c.onConnect, c.onDisconnect, c.pos))
  {
    if c.input.Some? then Half(Some(Side(c.input.value, c.onConnect, c.onDisconnect, c.pos)), None)
    else Half(None, Some(Side(c.output.value, c.onConnect, c.onDisconnect, c.pos)))
  }

  /** Object spread `{ ...a, ...b }`: each side of `b` that is present wins. */
  function Merge<C>(a: Half<C>, b: Half<C>): (m: Half<C>)
    ensures m.input == (if b.input.Some? then b.input else a.input)
    ensures m.output == (if b.output.Some? then b.output else a.output)
  {
    Half(if b.input.Some? then b.input else a.input, if b.output.Some? then b.output else a.output)
  }

  /** The click offers a role the pending half already has (input-to-input or output-to-output). */
  predicate SameRole<C>(pending: Half<C>, c: Click<C>) {
    (pending.input.Some? && c.input.Some?) || (pending.output.Some? && c.output.Some?)
  }

  /**
   * The duplicate test of both revisions: `conn` is a complete cable whose
   * (source node, destination node) equals the pair the click would complete.
   * Nodes are compared by identity only.
   */
  predicate DuplicateOf<C>(conn: Half<C>, pending: Half<C>, c: Click<C>) {
    if c.input.Some? then
      Complete(conn) && pending.output.Some?
      && conn.input.value.node == c.input.value && conn.output.value.node == pending.output.value.node
    else
      Complete(conn) && pending.input.Some?
      && conn.input.value.node == pending.input.value.node && c.output == Some(conn.output.value.node)
  }

  /** The node pair a complete cable joins. */
  function PairOf<C>(h: Half<C>): (Node, Node)
    requires Complete(h)
  {
    (h.input.value.node, h.output.value.node)
  }

  /**
   * Completing `pending` with a click that offers the other role creates
   * exactly the pair `DuplicateOf` looks for: the duplicate test compares
   * against the cable that would be committed.
   */
  lemma DuplicateMeansSamePair<C>(conn: Half<C>, pending: Half<C>, c: Click<C>)
    requires WellFormedClick(c) && Partial(pending) && !SameRole(pending, c)
    ensures Complete(Merge(pending, NewSide(c)))
    ensures DuplicateOf(conn, pending, c) <==> Complete(conn) && PairOf(conn) == PairOf(Merge(pending, NewSide(c)))
  {
  }

  /** Removes entry `k` of `ps`, keeping the others in order. */
  function RemoveAt<T>(ps: seq<T>, k: nat): (r: seq<T>)
    requires k < |ps|
    ensures |r| == |ps| - 1
    ensures forall i :: 0 <= i < k ==> r[i] == ps[i]
    ensures forall i :: k <= i < |r| ==> r[i] == ps[i + 1]
  {
    ps[..k] + ps[k + 1..]
  }
}

=== FILE: wrappers.dfy ===
/** Optional values, standing in for JavaScript's `undefined`. */
module Wrappers {

  datatype Option<+T> = None | Some(value: T) {

    /** Returns the wrapped value, or `default` when there is none. */
    function GetOr(default: T): T {
      match this
      case Some(v) => v
      case None => default
    }
  }
}
